=== FILE: README.md ===
# sqlc (one2x-ai fork): a Dafny model of its compiler and Go-generator core

This project models the sequential logic at the heart of this sqlc fork.

- **Query metadata.** How a query's comment lines are read: the `-- name: <Name> :<cmd>` header, `-- -- key: value` option pairs and `@flag` markers.
- **Parameter references.** How they are scored, deduplicated and renumbered, and how the select-only boolean options get their defaults.
- **Compiler bookkeeping.** The per-file bookkeeping of the schema and query passes.
- **Option parser.** The wpgx query-option parser.
- **Go code generator helpers.** The unique namer, the SQL driver choice, the `QueryValue`/`Query` template helpers and the dump/load SQL builders.
- **Configuration validator.**

Every operation is a pure function over strings, sequences and maps. Mutable state becomes a value threaded through a fold: the namer's map, the catalog, the error list, and the set of query names already seen.

Modules:

- `Wrappers` (`wrappers.dfy`): `Option`, `Result` and `Outcome`.
- `Strings` (`strings.dfy`): the parts of Go's `strings` package the core uses, and decimal formatting.
- `Metadata` (`metadata.dfy`): `internal/metadata/meta.go`.
- `CompilerParse` (`compiler_parse.dfy`): the pure parts of `internal/compiler/parse.go`.
- `CompilerCompile` (`compiler_compile.dfy`): the loops of `internal/compiler/compile.go`. The parser, the catalog and file reading are oracles.
- `GoOption` (`golang_option.dfy`): `internal/codegen/golang/option.go`.
- `UniqueNamer` (`golang_unique_namer.dfy`): `internal/codegen/golang/unique_namer.go`.
- `GoDriver` (`golang_driver.dfy`): `internal/codegen/golang/driver.go`.
- `GoQuery` (`golang_query.dfy`): `internal/codegen/golang/query.go`.
- `GoDumpLoader` (`golang_dumploader.dfy`): `internal/codegen/golang/dumploader.go`.
- `ConfigValidate` (`config_validate.dfy`): `internal/config/validate.go`.

## Model

| member | source | states |
|---|---|---|
| Metadata.ScanName | internal/metadata/meta.go:35-44 | Scanning from position i passes exactly when every remaining character is a letter, `_` or a digit, and the first character, if scanned, is not a digit. A failure carries the invalid-name error for the whole name. |
| Metadata.ValidateQueryName | internal/metadata/meta.go:31-45 | A name is accepted exactly when it is a Go identifier: non-empty, starting with a letter or `_`, followed by letters, digits or `_`. Every rejection is the invalid-name error for that name. |
| Metadata.CommentPrefix | internal/metadata/meta.go:58-80 | The chosen prefix is one of `--`, `/*`, `#`. The line starts with it and its comment style is enabled. No prefix is chosen exactly when no enabled style's prefix starts the line. |
| Metadata.CommentBody | internal/metadata/meta.go:82-87 | Taking the comment body fails only for a line that is exactly `/*`, where Go would slice out of range. |
| Metadata.HeaderLine | internal/metadata/meta.go:89-109 | The trimmed line is split at single spaces. Two parts report the missing query type, and any count other than 2 or 4 reports an invalid comment. Four parts are accepted exactly when the fourth, trimmed, is one of the ten commands and the third is an identifier; the header then carries that third part as the name and the trimmed fourth as the command. An unknown command is reported, with the trimmed command, before a bad name is. |
| Metadata.HeaderWords | internal/metadata/meta.go:98-109 | The command is checked before the name: an unknown command is the invalid-type error, then a non-identifier name is the invalid-name error, and otherwise the header holds both. |
| Metadata.OptionLine | internal/metadata/meta.go:110-119 | An option body fails exactly when it has no `:` after its `--`, and the failure names the line. On success the key is the trimmed text before the first `:` and the value the trimmed text after it, so the key holds no `:`. |
| Metadata.ClassifyLine | internal/metadata/meta.go:58-128 | A line without an enabled comment prefix is skipped. Accepted headers and options keep the shapes above. |
| Metadata.ClassifyBody | internal/metadata/meta.go:89-128 | A comment body yields a well-formed header, an option with a colon-free key, a skip, or an error. A body that starts with `name` and holds a `:` but starts with neither `name:` nor `--` is invalid metadata naming the line. A body is skipped exactly when it starts with neither `--` nor `name` followed somewhere by a `:`. |
| Metadata.DashLine | internal/metadata/meta.go:60-65 | With the dash style on, a `--` line is classified by its trimmed body after the two dashes. |
| Metadata.ApplySteps | internal/metadata/meta.go:58-131 | The line fold fails exactly when some line fails, and it reports the first such failure. |
| Metadata.ClassifyLines | internal/metadata/meta.go:58 | One classification per line, in line order. |
| Metadata.ParseQueryNameAndType | internal/metadata/meta.go:54-132 | Parsing fails exactly when some newline-separated line fails to classify, and the error is the first failing line's. |
| Metadata.SkipsKeepConfig | internal/metadata/meta.go:58-80 | Lines that are all skipped leave the configuration unchanged. |
| Metadata.UncommentedTextIsEmptyConfig | internal/metadata/meta.go:54-80 | Text with no enabled comment line gives an empty name, an empty command and no options. |
| Metadata.LastHeaderWins | internal/metadata/meta.go:108-109 | The resulting name and command come from the last header line, or stay as they were when there is none. |
| Metadata.UnsetOptionKept | internal/metadata/meta.go:119 | An option key that no line sets keeps its previous presence and value. |
| Metadata.LastOptionWins | internal/metadata/meta.go:117-119 | A key's final value is the one on the last line that sets it. |
| Metadata.HeaderLineShape | internal/metadata/meta.go:89-99 | `-- name: X C` with space-free X and C splits into four parts: part 3 is the name and part 4 the command. |
| Metadata.HeaderAccepted | internal/metadata/meta.go:98-109 | Any identifier with any of the ten commands is accepted as that header. |
| Metadata.OptionLineShape | internal/metadata/meta.go:110-119 | `-- --key:value`, for any key without a `:` and any value, stores the key trimmed of white space with the value trimmed of white space. |
| Metadata.TwoPartHeaderMissingType | internal/metadata/meta.go:91-94 | `-- name:X` with no command reports the missing query type. |
| Metadata.NameWithoutColonIsSkipped | internal/metadata/meta.go:120-127 | A body starting with `name` and a space, with no colon, is ignored. |
| Metadata.ExampleCreateFooOne | internal/metadata/meta.go:98-109 | `-- name: CreateFoo :one` yields name `CreateFoo` and command `:one`. |
| Metadata.ExampleUnknownCommand | internal/metadata/meta.go:100-104 | `:two` is rejected as an invalid query type. |
| Metadata.ExampleBadName | internal/metadata/meta.go:105-107 | `9Foo_,` is rejected as an invalid query name. |
| Metadata.ExampleMissingCommand | internal/metadata/meta.go:92-94 | `-- name:CreateFoo` reports the missing query type. |
| Metadata.ExampleNameComment | internal/metadata/meta.go:120-127 | `-- name comment` is accepted and has no effect. |
| Metadata.ExampleNameWithColon | internal/metadata/meta.go:120-127 | `-- name x: y` is rejected as invalid metadata, naming the line. |
| Metadata.ExampleSpacedOption | internal/metadata/meta_test.go:86-88 | `-- --    key   :    value   ` stores key `key` with value `value`. |
| Metadata.ExampleHeaderThenSpacedOption | internal/metadata/meta_test.go:86-88 | `-- name: q :one` followed by that spaced option line gives name `q`, command `:one` and the single option `key: value`. |
| Metadata.HeaderThenOption | internal/metadata/meta.go:58-131 | A header line followed by an option line gives that name, that command and that single option, with key and value trimmed of white space. |
| Metadata.TwoLines | internal/metadata/meta.go:58-131 | Two accepted lines apply their effects in order. |
| Metadata.FlagLine | internal/metadata/meta.go:137-141 | The cleaned line has no white space at either end. A line with no comment marker at either end is just trimmed of white space. |
| Metadata.FlagLineSlice | internal/metadata/meta.go:137-141 | The cleaned line is a contiguous piece of the line. |
| Metadata.FlagOfDashLine | internal/metadata/meta.go:137-145 | `-- @word`, for a word with no space that does not end in the block-comment close, declares exactly that word. |
| Metadata.FlagOfDashLineWords | internal/metadata/meta.go:142-145 | `-- @word rest` declares just `@word`: the first word, whatever follows the space. |
| Metadata.DashNoFlag | internal/metadata/meta.go:137-145 | `-- word`, for a word not starting with `@`, declares no flag. |
| Metadata.FlagOf | internal/metadata/meta.go:137-145 | A comment declares a flag exactly when its cleaned text starts with `@`. The flag is that text up to its first space, or all of it when there is none, so it starts with `@` and holds no space. |
| Metadata.CollectFlags | internal/metadata/meta.go:135-148 | A key is a flag exactly when some comment produced it, and every flag maps to true. |
| Metadata.ParseQueryFlags | internal/metadata/meta.go:134-149 | The flags are exactly the `@` tokens of the comments, all true. Each starts with `@` and holds no space. |
| Metadata.SecondLineFlag | internal/metadata/meta.go:134-149 | Two comments of which only the second declares a flag give the map holding just that flag, set to true. |
| Metadata.ExampleQueryFlags | internal/metadata/meta_test.go:51-66 | The comments `-- name: CreateFoo :one` and `-- @flag-foo` give exactly `{"@flag-foo": true}`. |
| CompilerParse.Score | internal/compiler/parse.go:170-256 | Every score lies between 0 and 100. |
| CompilerParse.ScoreExtremes | internal/compiler/parse.go:170-256 | A score of 100 means a type cast or a comparison operator. A score of 0 means no parent or an `IS` / `IS NOT` operator. Both are if-and-only-if. |
| CompilerParse.Numbers | internal/compiler/parse.go:260-265 | The parameter numbers are nonzero and pairwise distinct. They are exactly the nonzero numbers in the input. |
| CompilerParse.Group | internal/compiler/parse.go:260-265 | A group holds exactly the input references with its number. |
| CompilerParse.GroupAppend | internal/compiler/parse.go:260-265 | The group of a concatenation is the group of the first part followed by the group of the second, so appending in input order is kept. |
| CompilerParse.GroupOne | internal/compiler/parse.go:262-264 | One reference is appended to its number's group and to no other. |
| CompilerParse.GroupPositions | internal/compiler/parse.go:260-265 | Each group member sits at a position of the input, the positions rise through the group, and every reference with the number appears at exactly one of them. |
| CompilerParse.BestIndex | internal/compiler/parse.go:275-284 | The chosen index has the maximal score in the group, and every earlier reference scores strictly lower, so the strict `>` keeps the earliest. |
| CompilerParse.Choose | internal/compiler/parse.go:269-286 | The representative is a group member with the maximal score, and no earlier member reaches it. |
| CompilerParse.Representatives | internal/compiler/parse.go:267-287 | One representative per distinct nonzero number, drawn from that number's group. |
| CompilerParse.RepresentativeIsBest | internal/compiler/parse.go:260-284 | Each representative is the first reference of its group with the group's maximal score. Measured in input order, it is an input reference with the number that no other reference with the number outscores, and every earlier reference with that number scores strictly less. |
| CompilerParse.EarliestBestInInput | internal/compiler/parse.go:275-284 | A group member of maximal score that no earlier member reaches is, at its input position, the earliest reference of maximal score with that number. |
| CompilerParse.NextFree | internal/compiler/parse.go:299-301 | The next free number is at least the start, unused, and every number between the start and it is used. |
| CompilerParse.FreshNumbers | internal/compiler/parse.go:289-306 | The numbers given out are unused, increasing, and no smaller than the start. |
| CompilerParse.FreshNumbersLeast | internal/compiler/parse.go:297-305 | Each number given out is the least positive integer not used and not given out before it. |
| CompilerParse.FreshNumbersConsecutive | internal/compiler/parse.go:297-305 | When everything used lies below the start, the numbers given out are start, start+1, and so on. |
| CompilerParse.Renumbered | internal/compiler/parse.go:297-305 | The unnumbered references, in input order, keep their location and parent and receive the fresh numbers. |
| CompilerParse.AppendDistinct | internal/compiler/parse.go:289-307 | Two lists with distinct numbers and no shared number concatenate to one with distinct numbers. |
| CompilerParse.UniqueParamRefs | internal/compiler/parse.go:258-310 | The output numbers are nonzero and pairwise distinct. With dollar style it is the representatives, and unnumbered references are dropped. Otherwise the renumbered unnumbered references follow the representatives. |
| CompilerParse.EachNumberKeptOnce | internal/compiler/parse.go:260-287 | Every nonzero input number appears exactly once in the output. |
| CompilerParse.QuestionMarksNumberedInOrder | internal/compiler/parse.go:289-307 | For all-unnumbered input in the non-dollar style, the k-th reference becomes number k+1. |
| CompilerParse.RenumberedInOrder | internal/compiler/parse.go:297-305 | With nothing used, renumbering gives 1, 2, … in input order. |
| CompilerParse.Insert | internal/compiler/parse.go:95-99 | Inserting into a sorted list keeps it sorted and adds exactly that element. |
| CompilerParse.OrderRefs | internal/compiler/parse.go:95-99 | The references are sorted by location for MySQL or the non-dollar style, and by number otherwise. They are a permutation of the input. |
| CompilerParse.ValidateOrDefaultSelectOnlyBoolOption | internal/compiler/parse.go:338-355 | It succeeds exactly when the value is absent, or is "true"/"false" with "true" only on a SELECT. A missing key is set to "true" exactly for a SELECT. Present keys and other keys are untouched, and the only key added is this one. A failure is the invalid-value error when the value is not "true"/"false", and otherwise the not-a-SELECT error. |
| CompilerParse.ValidateAndSetDefaultOptions | internal/compiler/parse.go:313-336 | It succeeds exactly when both boolean options are valid and a SELECT carries no `invalidate`. On success both keys hold "true" or "false", a SELECT's missing key holds "true", the given options are kept, and no other key is added. A failure is the error of the first failing check, in the order count_intent, allow_replica, invalidate. |
| CompilerParse.ListUsersNotSelect | internal/compiler/parse.go:313-351 | A non-SELECT query `ListUsers` whose `count_intent` is "true" fails with the not-a-SELECT error for that query and key. |
| CompilerParse.DefaultsIdempotent | internal/compiler/parse.go:313-355 | Running the defaults again on their own output succeeds and changes nothing. |
| CompilerParse.Quote | internal/compiler/parse.go:348-351 | A quoted string is the text between two double quotes. |
| CompilerParse.Message | internal/compiler/parse.go:332-351 | Every defaults error message starts with `query "<name>"`, naming the query. This corrects the not-a-SELECT message. |
| CompilerParse.NotSelectMessageAsWritten | internal/compiler/parse.go:351 | The message as written puts the option key where the query name belongs. |
| CompilerParse.NotSelectMessageSwapsNames | internal/compiler/parse.go:351 | For query `ListUsers` and key `count_intent`, the message as written does not start with the query's name, and the corrected one does. |
| CompilerCompile.Reversed | internal/compiler/compile.go:134-140 | Reversal keeps the length and puts element i at position len-1-i. |
| CompilerCompile.ReversedTwice | internal/compiler/compile.go:134-140 | Reversing twice gives back the original. |
| CompilerCompile.DefinedBeforeCons | internal/compiler/compile.go:57-62 | "A table was defined before position p" moves along the statement list one statement at a time. |
| CompilerCompile.StmtLoop | internal/compiler/compile.go:48-63 | Every statement reaches Update, including those after a failed Update. The first-table flag is true exactly in the original first file, before any table definition. The file is clean exactly when every Update succeeds and no second table is defined. |
| CompilerCompile.StmtLoopStep | internal/compiler/compile.go:57-62 | Putting one Update call in front of a file's later calls: nothing is defined before the first; a table is defined before a later position exactly when this call defined one or one was defined before it among the later calls; a second table appears exactly when this call defines one after an earlier definition or the later calls define one after the updated flag; all calls succeed exactly when this one and the later ones do. |
| CompilerCompile.LoadFile | internal/compiler/compile.go:36-67 | An unreadable or unparsable file adds an error and makes no Update call. The raw SQL is added exactly for the original first file when it loads. |
| CompilerCompile.FilesLoop | internal/compiler/compile.go:36-68 | One Update list per remaining file. The raw SQL is added only for the last file in reversed order, and only when it loads. |
| CompilerCompile.AllCleanCons | internal/compiler/compile.go:36-68 | Every remaining file is clean exactly when the next one is and the rest are. |
| CompilerCompile.FilesLoopErrors | internal/compiler/compile.go:33-68 | The loop gathers no error exactly when every file loads and is clean. Errors never stop it. |
| CompilerCompile.RunFlagsCons | internal/compiler/compile.go:48-53 | The first-table flag rule for a run of files extends one file at a time. |
| CompilerCompile.FilesLoopFlags | internal/compiler/compile.go:48-53 | Across the pass, the first-table flag follows the rule above. |
| CompilerCompile.ParseCatalog | internal/compiler/compile.go:28-73 | One Update list per matched file. |
| CompilerCompile.FirstTableFlag | internal/compiler/compile.go:48-53 | The flag is true exactly for the original first file, before a table is defined in it. |
| CompilerCompile.ParseCatalogFlags | internal/compiler/compile.go:35-63 | The whole pass respects the first-table flag rule. |
| CompilerCompile.RawSqlOnlyForFirstFile | internal/compiler/compile.go:64-67 | The raw SQL is added at most once, only for the original first file, and only when it loads. |
| CompilerCompile.EveryStatementUpdated | internal/compiler/compile.go:49-63 | Errors do not stop the pass: each readable file sends every statement to Update. |
| CompilerCompile.ParseCatalogErrors | internal/compiler/compile.go:33-72 | The pass gathers no error exactly when every file in reversed order loads and is clean. |
| CompilerCompile.AllCleanReversed | internal/compiler/compile.go:35-36 | Cleanliness over the reversed file list is cleanliness of every original file. |
| CompilerCompile.CatalogFailsIffSomethingWrong | internal/compiler/compile.go:33-72 | The schema pass fails exactly when some file does not load, some Update fails, or some file defines a second table. |
| CompilerCompile.ErrorLocation | internal/compiler/compile.go:100-106 | A failing statement is reported at the SQL error's location when it is nonzero, and at the statement otherwise. |
| CompilerCompile.NamesOfCons | internal/compiler/compile.go:109-118 | The accepted names grow by one query at a time. |
| CompilerCompile.UniqueNamesCons | internal/compiler/compile.go:109-115 | "Non-empty names are distinct and unseen" extends one query at a time. |
| CompilerCompile.UniqueNamesAppend | internal/compiler/compile.go:83-121 | Name uniqueness over two runs joined splits into each run, with the second checked against the names of the first. |
| CompilerCompile.QueryStmtLoop | internal/compiler/compile.go:95-120 | The statement loop of one file reports no error exactly when no statement fails and the non-empty names are distinct and unseen. It then keeps every parsed query in order, and the seen names grow by exactly the parsed queries' names. |
| CompilerCompile.QueryFilesLoop | internal/compiler/compile.go:83-121 | The file loop reports no error exactly when every file loads and parses, no statement fails, and no non-empty name repeats across files. It then keeps the parsed queries in file, then statement, order. |
| CompilerCompile.ParseQueries | internal/compiler/compile.go:75-132 | It reports errors exactly when some file or statement fails or a non-empty name repeats. A success is the non-empty list of queries in file, then statement, order. No queries at all is its own error. |
| CompilerCompile.AcceptedNamesDistinct | internal/compiler/compile.go:109-115 | Accepted queries never share a non-empty name. |
| CompilerCompile.DuplicateNameReported | internal/compiler/compile.go:109-115 | A second use of a name is reported at the second statement, and only the first query is kept. |
| CompilerCompile.FailedStatementLocation | internal/compiler/compile.go:100-107 | A failing statement adds one error at the SQL location when it is nonzero, else at the statement. No query is kept. |
| CompilerCompile.UnsupportedSkipped | internal/compiler/compile.go:96-99 | Unsupported statements leave no trace. |
| GoOption.InvalidateNames | internal/codegen/golang/option.go:37-40 | The invalidate list is the value trimmed of spaces and brackets, split at commas, each name trimmed, in order. |
| GoOption.AppendKnown | internal/codegen/golang/option.go:39-45 | Appending succeeds exactly when every name is a known query, adding them in order. A failure names an unknown query. |
| GoOption.Duration | internal/codegen/golang/option.go:28-35 | A duration is accepted exactly when it parses and is at least one millisecond. |
| GoOption.Bool | internal/codegen/golang/option.go:46-53 | Only "true" and "false" are accepted, and the result is true exactly for "true". |
| GoOption.ApplyOption | internal/codegen/golang/option.go:27-72 | Each failure is the one its key calls for: `cache` a bad or too-short duration, `timeout` a bad or too-short duration, `invalidate` a name that is not a known query, `count_intent` and `allow_replica` a non-boolean value. The unknown-option error comes exactly for keys outside the five. |
| GoOption.ApplyAll | internal/codegen/golang/option.go:26-73 | A failing fold fails with the error that one of the keys, applied alone, produces. |
| GoOption.ApplyOptionValid | internal/codegen/golang/option.go:27-72 | One entry applies exactly when it is valid. A key outside the five known keys is the unknown-option error. |
| GoOption.ApplyOptionSets | internal/codegen/golang/option.go:27-69 | An applied entry sets only its own field, as its value says; `invalidate` appends its names. |
| GoOption.ParseOption | internal/codegen/golang/option.go:25-75 | Parsing succeeds exactly when every entry is valid, whatever the iteration order. A failure is the error of some entry of the map, applied alone. |
| GoOption.AllValid | internal/codegen/golang/option.go:26-73 | If every entry is valid, the fold over them succeeds. |
| GoOption.ApplyAllFields | internal/codegen/golang/option.go:26-73 | After a successful fold, each field holds what its key says, or its starting value when the key is absent. |
| GoOption.ParseOptionDenotes | internal/codegen/golang/option.go:25-75 | A successful parse equals the option that the map denotes field by field. |
| GoOption.EmptyOptions | internal/codegen/golang/option.go:25-75 | An empty map gives the zero option and no error. |
| GoOption.ParseOptionOrderIrrelevant | internal/codegen/golang/option.go:26 | Map iteration order changes neither success nor the parsed option. |
| UniqueNamer.NewUniqueNamer | internal/codegen/golang/unique_namer.go:9-11 | A fresh namer has seen no name. |
| UniqueNamer.UniqueName | internal/codegen/golang/unique_namer.go:13-23 | A new name comes back unchanged with count 1. A seen name with count n comes back as name+n, which is different and recorded with count 1. The result always starts with the name and is recorded, and no other entry changes. |
| UniqueNamer.CounterCounts | internal/codegen/golang/unique_namer.go:14-21 | Each request raises the requested name's count by one, starting at 1. |
| UniqueNamer.RepeatedRequests | internal/codegen/golang/unique_namer.go:13-23 | k requests for a fresh name return name, name1, …, name(k-1) and leave its count at k. |
| UniqueNamer.NamesCanRepeat | internal/codegen/golang/unique_namer.go:13-23 | Requests for "a1", "a", "a" return "a1" twice, so names are unique per request only. |
| GoDriver.ParseDriver | internal/codegen/golang/driver.go:22-33 | `pgx/v4`, `pgx/v5` and `wpgx` select their drivers, and every other name selects lib/pq. MySQL is never selected. |
| GoDriver.Package | internal/codegen/golang/driver.go:47-58 | pgx-based drivers give their recognised package name, and the others give `database/sql`. |
| GoDriver.IsWPGX | internal/codegen/golang/driver.go:35-37 | True exactly for the driver whose import path is `github.com/stumble/wpgx`. |
| GoDriver.IsPGX | internal/codegen/golang/driver.go:39-41 | True exactly for the drivers whose import path is pgx v4, pgx v5 or wpgx. |
| GoDriver.IsGoSQLDriverMySQL | internal/codegen/golang/driver.go:43-45 | True exactly for the driver whose import path is `github.com/go-sql-driver/mysql`. |
| GoDriver.WPGXIsPGX | internal/codegen/golang/driver.go:35-41 | wpgx is pgx-based. |
| GoDriver.PackageOfParsed | internal/codegen/golang/driver.go:22-58 | Package undoes parseDriver on the three recognised names, and gives `database/sql` otherwise. |
| GoDriver.ParsedOfPackage | internal/codegen/golang/driver.go:22-58 | parseDriver undoes Package on every driver it can yield. |
| GoDriver.ParsedNeverMySQL | internal/codegen/golang/driver.go:22-45 | A parsed driver is never the MySQL one. |
| GoDriver.ImportPathInjective | internal/codegen/golang/driver.go:14-20 | Distinct drivers have distinct import paths. |
| GoQuery.Type | internal/codegen/golang/query.go:85-93 | The type is `Typ` when set, else the struct's name. With neither set Go panics, so that case is a precondition. |
| GoQuery.IsPointer | internal/codegen/golang/query.go:33-35 | A pointer is emitted only for a struct that asks for one, never for a non-struct. |
| GoQuery.IsEmpty | internal/codegen/golang/query.go:37-39 | An empty value has no type, no struct and no name, and a nameless value that is not empty has a type. |
| GoQuery.IsTypePointer | internal/codegen/golang/query.go:95-97 | True exactly for a value with a type that starts with `*`; its declared type then starts with `*` too. |
| GoQuery.DefineType | internal/codegen/golang/query.go:99-105 | The declared type is `*` plus the type exactly when the value is a pointer. |
| GoQuery.Pairs | internal/codegen/golang/query.go:56-76 | An empty value gives no pairs. A non-emitted struct gives one lower-cased argument per field, in order. Anything else gives the single `(Name, DefineType)` argument. |
| GoQuery.SlicePair | internal/codegen/golang/query.go:78-83 | The slice pair is empty exactly for an empty value, otherwise `name []type`. |
| GoQuery.ParamPieces | internal/codegen/golang/query.go:133-148 | One piece per field of the struct's field list, in order, for any struct, or the single name otherwise. Each is wrapped in `pq.Array` exactly when its type is a slice other than `[]byte`, it is not a sqlc slice, and the driver is not pgx-based. |
| GoQuery.Params | internal/codegen/golang/query.go:129-154 | An empty value gives "". Up to three pieces, the last ending in neither a comma nor a newline, are joined by commas on one line. More than three such pieces, none holding a newline, give a leading newline and then one line per piece, each followed by a comma but the last. |
| GoQuery.Commaed | internal/codegen/golang/query.go:152-153 | One line per piece. |
| GoQuery.ShortListLayout | internal/codegen/golang/query.go:149-151 | Up to three pieces are joined by commas. |
| GoQuery.JoinEndsWithLast | internal/codegen/golang/query.go:152-153 | A join ends with its last part. |
| GoQuery.JoinCommaNewline | internal/codegen/golang/query.go:152-153 | Joining by `,\n` is joining the comma-terminated pieces by newlines. |
| GoQuery.LongListLayout | internal/codegen/golang/query.go:152-153 | More than three pieces start with a newline and put one comma-terminated piece on each line. |
| GoQuery.PgxNeverWraps | internal/codegen/golang/query.go:138-147 | With a pgx driver no piece is wrapped in `pq.Array`. |
| GoQuery.SubsequenceNoneSkipped | internal/codegen/golang/query.go:114-127 | A subsequence holds only elements of the original. |
| GoQuery.UniqueFieldsFrom | internal/codegen/golang/query.go:114-127 | The kept fields are a subsequence with distinct names, none of them already seen. |
| GoQuery.UniqueFieldsFromKeeps | internal/codegen/golang/query.go:114-127 | Each name's first field is kept, and no name is dropped. |
| GoQuery.UniqueFields | internal/codegen/golang/query.go:114-127 | The unique fields are a subsequence of the struct's fields with distinct names. |
| GoQuery.UniqueFieldsKeepsFirsts | internal/codegen/golang/query.go:114-127 | The first field of every name is kept, and later ones are dropped. |
| GoQuery.UniqueFieldsOfDistinct | internal/codegen/golang/query.go:114-127 | Fields whose names are already distinct are kept whole. |
| GoQuery.DistinctKeptWhole | internal/codegen/golang/query.go:114-127 | Distinct, unseen fields pass the filter unchanged. |
| GoQuery.ColumnNames | internal/codegen/golang/query.go:156-165 | A non-struct gives its single column name, and a struct one column name per field, in order. |
| GoQuery.VariableForField | internal/codegen/golang/query.go:246-255 | A non-struct value is referred to by its name. A field of a struct passed field by field is the argument Pairs declares for it. A field of a struct passed whole is that argument's selector `.Name`. |
| GoQuery.HasRetType | internal/codegen/golang/query.go:297-301 | There is a return type exactly for `:one`, `:many`, `:batchmany` and `:batchone` with a non-empty `Ret`. |
| GoQuery.ExecHasNoRetType | internal/codegen/golang/query.go:297-301 | The exec-style commands never have a return type. |
| GoQuery.ConnType | internal/codegen/golang/query.go:386-392 | The connection is the cache-invalidating one exactly when the query invalidates something. |
| GoQuery.IsConnTypeQuerier | internal/codegen/golang/query.go:396-398 | The querier connection is used exactly when nothing is invalidated. |
| GoQuery.QuerierMatchesConnType | internal/codegen/golang/query.go:386-398 | IsConnTypeQuerier agrees with ConnType in both directions. |
| GoQuery.NonEmptyParts | internal/codegen/golang/query.go:303-311 | The non-empty parts of the table name are kept, in order. |
| GoQuery.QuotedParts | internal/codegen/golang/query.go:303-311 | The non-empty parts are quoted, one for one. |
| GoQuery.TableIdentifierAsGoSlice | internal/codegen/golang/query.go:303-311 | `[]string{` then the quoted non-empty parts joined by `, ` then `}`. |
| GoQuery.TableIdentifierCounts | internal/codegen/golang/query.go:303-311 | No parts exactly when catalog, schema and name are all empty, and three when all are set. |
| GoQuery.CacheUniqueLabel | internal/codegen/golang/query.go:377-379 | The label starts with `pkg:` and ends with `:`, and the text between them is the method name. |
| GoQuery.WrapPtrStr | internal/codegen/golang/query.go:420-422 | The result starts with `ptrStr(` and ends with `)`, and the text between them is the value. |
| GoQuery.GenCacheKeyWithArgName | internal/codegen/golang/query.go:400-418 | No argument gives the quoted label. A struct argument gives `arg.CacheKey()`. Any other argument gives the label hashed with the formatted argument. |
| GoQuery.CacheKeyArgument | internal/codegen/golang/query.go:405-417 | A scalar argument's key is the label followed by the argument, through `ptrStr` exactly when it is a pointer. |
| GoQuery.LabelKeysDistinct | internal/codegen/golang/query.go:377-418 | Argument-free queries of colon-free packages share a cache key only if they share package and method. |
| GoQuery.LabelSplit | internal/codegen/golang/query.go:377-379 | A label determines its package and method when the package holds no colon. |
| GoDumpLoader.PrefixedNames | internal/codegen/golang/dumploader.go:16-25 | One prefixed name per field, in order. |
| GoDumpLoader.Fields | internal/codegen/golang/dumploader.go:16-25 | No fields give "". Otherwise, when no prefixed name holds a comma, the list splits back at the commas into the prefixed names in field order. |
| GoDumpLoader.DBNames | internal/codegen/golang/dumploader.go:27-36 | One column name per field, in order. |
| GoDumpLoader.FieldDBNames | internal/codegen/golang/dumploader.go:27-36 | No fields give "". Otherwise, with comma-free column names, the list splits back into the column names in field order. |
| GoDumpLoader.SortColumns | internal/codegen/golang/dumploader.go:38-57 | A column is a sort column exactly when its field has one of the nine scalar types or their pointer forms. |
| GoDumpLoader.SortColumnsAppend | internal/codegen/golang/dumploader.go:43-55 | The sort columns of two field lists joined are those of the first followed by those of the second. |
| GoDumpLoader.SortColumnsOne | internal/codegen/golang/dumploader.go:44-54 | A single field contributes its column exactly when its type is sortable. |
| GoDumpLoader.AllSortable | internal/codegen/golang/dumploader.go:38-57 | When every field is sortable, the sort columns are all columns, in order. |
| GoDumpLoader.NoneSortable | internal/codegen/golang/dumploader.go:38-57 | When no field is sortable, there are no sort columns. |
| GoDumpLoader.DumpSortByFields | internal/codegen/golang/dumploader.go:38-57 | No sortable field gives "". Otherwise, with comma-free column names, the list splits back into the sortable columns in field order. |
| GoDumpLoader.Placeholders | internal/codegen/golang/dumploader.go:59-68 | Placeholder i is `$` followed by i+1. |
| GoDumpLoader.ParamList | internal/codegen/golang/dumploader.go:59-68 | No fields give "". Otherwise the list splits back into `$1`, …, `$n`, one per field. |
| GoDumpLoader.PlaceholderNumbers | internal/codegen/golang/dumploader.go:59-68 | The k-th placeholder is `$` followed by digits whose value is k+1. |
| GoDumpLoader.DumpSQL | internal/codegen/golang/dumploader.go:70-73 | With fields, sortable columns and comma-free column names, the SELECT lists the columns in field order and orders by the sortable columns in field order. |
| GoDumpLoader.LoadSQL | internal/codegen/golang/dumploader.go:75-78 | With fields and comma-free column names, the INSERT names one column per field and one placeholder per field, with column i bound to placeholder i+1. |
| ConfigValidate.Packages | internal/config/validate.go:20-23 | The package names are exactly those of the entries that generate Go. |
| ConfigValidate.Validate | internal/config/validate.go:5-26 | Validation passes exactly when no Go entry sets both emit flags or has an empty database URI, and no two Go entries share a package. Each failure comes with an entry, or a pair of entries, that shows it. |
| ConfigValidate.ValidateFrom | internal/config/validate.go:7-25 | The loop from entry i, whatever the names seen so far: a both-flags failure or an empty-URI failure points at a Go entry from i on that shows it; a duplicate-package failure names a package already seen or one of a Go entry from i on; a pass means no Go entry from i on sets both flags, has an empty URI, or reuses a seen package. |
| ConfigValidate.ValidateFromSound | internal/config/validate.go:7-25 | The loop from entry i passes exactly when the rest is valid against the packages seen so far, and each failure has its witness. |
| ConfigValidate.ValidFromStep | internal/config/validate.go:7-25 | A skipped entry changes nothing. A Go entry must pass its own checks and bring a new package. |
| ConfigValidate.ValidFromStart | internal/config/validate.go:5-26 | Validity from the first entry is validity of the configuration. |
| ConfigValidate.SkippedEntryIrrelevant | internal/config/validate.go:8-11 | Inserting an entry without Go settings anywhere does not change the verdict. |

## Left out

- File reading, globbing (`sqlpath.Glob`, `os.ReadFile`, `filepath.Base`) and `migrations.RemoveRollbackStatements`: I/O. Each file is an input that either loads into statements or fails, and the glob's own error path is not modelled.
- The SQL parser, `catalog.Update`, `IsCreatingNewTableLayout`, `AddRawSQL` and the body of `parseQuery` (`validate.*`, `rewrite.*`, `source.*`, catalog resolution): their code is not part of this model. They are oracle fields of an operations record, and `parseQuery`'s outcome is parsed, unsupported, or failed with an optional location.
- `time.ParseDuration`: a function parameter from text to an optional duration in nanoseconds.
- `unicode.IsLetter` and `unicode.IsDigit`: restricted to ASCII letters and digits.
- The lower-casing of field names and `%q` quoting in generated code: parameters (`lower`, `quote`). The error messages' `%q` is the plain double-quoted text.
- Go map iteration order: `parseOption` takes the key order as an input and is proved independent of it. `uniqueParamRefs` emits its groups in first-appearance order, one of the orders Go allows.
- CompilerParse.UniqueParamRefs: returns renumbered copies. In Go a `paramRef` holds a pointer to the AST's `ParamRef` node, so `v.ref.Number = start` also renumbers that shared node, which the caller's references and the AST see. This aliasing is not tracked.
- The panics: `Type()` with neither type nor struct, a nil `MainStruct`, an empty `Pkg` in `genCacheKeyWithArgName` and a nil table in `TableIdentifierAsGoSlice` are preconditions. The `/*` line whose body slice would go out of range is an error value.
- GoQuery.ParamPieces: a column's `IsSqlcSlice` is a boolean on the value, so a nil `Column` is not modelled.
- GoDriver.ParseDriver: drivers form a closed datatype, and arbitrary `SQLDriver` strings outside the five constants are not represented.
- UniqueNamer.UniqueName: counters are unbounded, so Go's `int` overflow is not modelled. Names are unique per request only, not overall (see `UniqueNamer.NamesCanRepeat`).
- `Pair`, `ReturnName`, `ColumnNamesAsGoSlice`, `HasSqlcSlices`, `Scan`, `CopyFromMySQLFields`, `CacheKeySprintf`, `TableIdentifierForMySQL`, `CountIntent`, `AllowReplica`, `CacheKey`, `InvalidateArgs`, `InvalidateArgsNames` and `UniqueLabel` in query.go, and `MainStructName` in dumploader.go: template helpers outside the modelled core.
- GoDumpLoader.DumpSQL: its contract is silent when there are no fields or no sortable column. The model then builds the same text as Go, with an empty SELECT list or an empty ORDER BY list.
- Metadata.CommentBody: a character here is a Unicode scalar value, while Go slices bytes. For a `/*` line the model drops the last character where the source drops the last byte, so the two differ when the line ends in a multi-byte character, as in `/* -- k:é`.
- `rangeVars` and `debug.Dump` in parse.go, and `internal/codegen/golang/utils.go`: AST walking and diagnostic printing.

## Findings

| source | as written | input that shows it | evidently intended | confidence | as-written member | corrected member |
|---|---|---|---|---|---|---|
| internal/compiler/parse.go:351 | `fmt.Errorf("query %q uses %s option but is not a SELECT", optionKey, queryName)` passes the option key where the query name belongs, and the name where the key belongs | query `ListUsers` with `count_intent: true` on a non-SELECT gives `query "count_intent" uses ListUsers option …` | `query "ListUsers" uses count_intent option but is not a SELECT`, like the other messages at lines 332 and 348 | high, not executed | CompilerParse.NotSelectMessageAsWritten | CompilerParse.Message |

=== FILE: compiler_compile.dfy ===
/** The bookkeeping of the two compilation passes of
    internal/compiler/compile.go.  The schema pass feeds every statement of
    every schema file, newest file first, to the catalog, allows one table
    per file, and collects errors instead of stopping; the query pass
    collects the queries of every query file and rejects duplicate names.
    Reading files, the SQL parser, the catalog and the per-query analysis
    are oracles: their code is not part of this model. */
module CompilerCompile {
  import opened Wrappers
  import opened Strings

  /** reversed: the same elements, last first. */
  function Reversed<V>(arr: seq<V>): (rv: seq<V>)
    ensures |rv| == |arr|
    ensures forall i :: 0 <= i < |arr| ==> rv[i] == arr[|arr| - 1 - i]
  {
    if arr == [] then []
    else
      var rest := Reversed(arr[1..]);
      assert forall i :: 0 <= i < |rest| ==> rest[i] == arr[|arr| - 1 - i];
      rest + [arr[0]]
  }

  /** Reversing twice gives back the original. */
  lemma ReversedTwice<V>(arr: seq<V>)
    ensures Reversed(Reversed(arr)) == arr
  {
    var r := Reversed(Reversed(arr));
    assert forall i :: 0 <= i < |arr| ==> r[i] == Reversed(arr)[|arr| - 1 - i] == arr[i];
  }

  // ---------------------------------------------------------------------
  // Errors

  datatype Cause<E> =
    | External(e: E)
    | OneTablePerFile
    | DuplicateQueryName(name: string)

  /** One entry of the multi-error: the file, its text, a position in it,
      and the cause. */
  datatype CompileError<E> = CompileError(filename: string, contents: string, location: int, cause: Cause<E>)

  // ---------------------------------------------------------------------
  // parseCatalog

  /** The collaborators of parseCatalog: reading a file,
      RemoveRollbackStatements, the parser, catalog.Update,
      IsCreatingNewTableLayout, AddRawSQL and a statement's position.
      Update works on the catalog in place, so it yields the catalog it
      leaves behind together with its error, if any: a failed Update may
      still have changed the catalog. */
  datatype CatalogOps<!C, !S, E> = CatalogOps(
    read: string -> Result<string, E>,
    removeRollback: string -> string,
    parse: string -> Result<seq<S>, E>,
    update: (C, S, bool) -> (C, Option<E>),
    isCreatingTable: (C, S) -> bool,
    addRawSQL: (C, string) -> C,
    pos: S -> int)

  /** One call of catalog.Update: the "first table" flag it was given,
      whether it succeeded, and whether the statement then defined a table. */
  datatype UpdateCall = UpdateCall(first: bool, ok: bool, defining: bool)

  /** Some earlier call in the same file defined a table. */
  predicate DefinedBefore(calls: seq<UpdateCall>, p: int) {
    exists q :: 0 <= q < p && q < |calls| && calls[q].ok && calls[q].defining
  }

  /** A table-defining call after the file already defined one. */
  predicate SecondTable(calls: seq<UpdateCall>, defined: bool) {
    exists p :: 0 <= p < |calls| && calls[p].ok && calls[p].defining && (defined || DefinedBefore(calls, p))
  }

  predicate AllUpdated(calls: seq<UpdateCall>) {
    forall p :: 0 <= p < |calls| ==> calls[p].ok
  }

  datatype FileRun<C, E> = FileRun(catalog: C, errors: seq<CompileError<E>>, calls: seq<UpdateCall>)

  lemma DefinedBeforeCons(u: UpdateCall, cs: seq<UpdateCall>, p: nat)
    ensures DefinedBefore([u] + cs, p + 1) <==> (u.ok && u.defining) || DefinedBefore(cs, p)
  {
    var all := [u] + cs;
    if DefinedBefore(all, p + 1) && !(u.ok && u.defining) {
      var q :| 0 <= q < p + 1 && q < |all| && all[q].ok && all[q].defining;
      assert q > 0 && all[q] == cs[q - 1];
    }
    if DefinedBefore(cs, p) {
      var q :| 0 <= q < p && q < |cs| && cs[q].ok && cs[q].defining;
      assert all[q + 1] == cs[q];
      assert 0 <= q + 1 < p + 1 && q + 1 < |all| && all[q + 1].ok && all[q + 1].defining;
    }
    if u.ok && u.defining {
      assert all[0] == u;
      assert 0 <= 0 < p + 1 && 0 < |all| && all[0].ok && all[0].defining;
    }
  }

  /** The statement loop of one schema file.  `isLast` marks the last file
      of the reversed list; `defined` is tableDefined.  Every statement is
      offered to Update, whatever failed before it. */
  function StmtLoop<C, S, E>(ops: CatalogOps<C, S, E>, isLast: bool, name: string, contents: string,
                             stmts: seq<S>, catalog: C, defined: bool): (r: FileRun<C, E>)
    ensures |r.calls| == |stmts|
    ensures forall p :: 0 <= p < |r.calls| ==>
              (r.calls[p].first <==> isLast && !defined && !DefinedBefore(r.calls, p))
    ensures r.errors == [] <==> AllUpdated(r.calls) && !SecondTable(r.calls, defined)
    decreases |stmts|
  {
    if stmts == [] then FileRun(catalog, [], [])
    else
      var s := stmts[0];
      var first := !defined && isLast;
      var (c, err) := ops.update(catalog, s, first);
      match err
      case Some(e) =>
        var rest := StmtLoop(ops, isLast, name, contents, stmts[1..], c, defined);
        var u := UpdateCall(first, false, false);
        var r := FileRun(rest.catalog, [CompileError(name, contents, ops.pos(s), External(e))] + rest.errors,
                         [u] + rest.calls);
        StmtLoopStep(u, rest.calls, defined, defined);
        r
      case None =>
        var defining := ops.isCreatingTable(c, s);
        var rest := StmtLoop(ops, isLast, name, contents, stmts[1..], c, defined || defining);
        var u := UpdateCall(first, true, defining);
        var errs := if defined && defining then [CompileError(name, contents, ops.pos(s), OneTablePerFile)] else [];
        var r := FileRun(rest.catalog, errs + rest.errors, [u] + rest.calls);
        StmtLoopStep(u, rest.calls, defined, defined || defining);
        r
  }

  /** How prepending one call moves DefinedBefore, SecondTable and
      AllUpdated. */
  lemma StmtLoopStep(u: UpdateCall, cs: seq<UpdateCall>, defined: bool, defined': bool)
    requires defined' == (defined || (u.ok && u.defining))
    ensures forall p :: 0 <= p < |cs| ==> (DefinedBefore([u] + cs, p + 1) <==> (u.ok && u.defining) || DefinedBefore(cs, p))
    ensures !DefinedBefore([u] + cs, 0)
    ensures SecondTable([u] + cs, defined) <==>
              (u.ok && u.defining && defined) || SecondTable(cs, defined')
    ensures AllUpdated([u] + cs) <==> u.ok && AllUpdated(cs)
  {
    DefinedBeforeAll(u, cs);
    SecondTableCons(u, cs, defined, defined');
    AllUpdatedCons(u, cs);
  }

  lemma DefinedBeforeAll(u: UpdateCall, cs: seq<UpdateCall>)
    ensures forall p :: 0 <= p < |cs| ==> (DefinedBefore([u] + cs, p + 1) <==> (u.ok && u.defining) || DefinedBefore(cs, p))
  {
    forall p | 0 <= p < |cs|
      ensures DefinedBefore([u] + cs, p + 1) <==> (u.ok && u.defining) || DefinedBefore(cs, p)
    {
      DefinedBeforeCons(u, cs, p);
    }
  }

  lemma SecondTableCons(u: UpdateCall, cs: seq<UpdateCall>, defined: bool, defined': bool)
    requires defined' == (defined || (u.ok && u.defining))
    ensures SecondTable([u] + cs, defined) <==> (u.ok && u.defining && defined) || SecondTable(cs, defined')
  {
    var all := [u] + cs;
    if SecondTable(all, defined) && !(u.ok && u.defining && defined) {
      var p :| 0 <= p < |all| && all[p].ok && all[p].defining && (defined || DefinedBefore(all, p));
      assert p > 0 && all[p] == cs[p - 1];
      DefinedBeforeCons(u, cs, p - 1);
      assert SecondTable(cs, defined');
    }
    if SecondTable(cs, defined') {
      var p :| 0 <= p < |cs| && cs[p].ok && cs[p].defining && (defined' || DefinedBefore(cs, p));
      assert all[p + 1] == cs[p];
      DefinedBeforeCons(u, cs, p);
      assert SecondTable(all, defined);
    }
    if u.ok && u.defining && defined {
      assert all[0] == u;
    }
  }

  lemma AllUpdatedCons(u: UpdateCall, cs: seq<UpdateCall>)
    ensures AllUpdated([u] + cs) <==> u.ok && AllUpdated(cs)
  {
    var all := [u] + cs;
    assert forall p :: 0 <= p < |cs| ==> all[p + 1] == cs[p];
    assert all[0] == u;
  }

  /** A schema file that can be read and parsed. */
  predicate Loads<C, S, E>(ops: CatalogOps<C, S, E>, name: string) {
    ops.read(name).Success? && ops.parse(ops.removeRollback(ops.read(name).value)).Success?
  }

  function StatementsOf<C, S, E>(ops: CatalogOps<C, S, E>, name: string): seq<S>
    requires Loads(ops, name)
  {
    ops.parse(ops.removeRollback(ops.read(name).value)).value
  }

  /** What one schema file contributes: the catalog after it, its errors,
      its Update calls, and whether its text went to AddRawSQL. */
  datatype FileResult<C, E> = FileResult(catalog: C, errors: seq<CompileError<E>>, calls: seq<UpdateCall>,
                                         rawAdded: bool)

  /** The whole pass so far: the catalog, the collected errors, the Update
      calls of each file (in reversed-file order), and the files whose text
      was handed to AddRawSQL. */
  datatype CatalogRun<C, E> = CatalogRun(catalog: C, errors: seq<CompileError<E>>,
                                         calls: seq<seq<UpdateCall>>, rawAdded: seq<nat>)

  /** A file whose calls all succeeded and which defined at most one table. */
  predicate CleanFile(calls: seq<UpdateCall>) {
    AllUpdated(calls) && !SecondTable(calls, false)
  }

  /** One schema file: read it, drop its rollback statements, parse it, run
      its statements, and hand its text to AddRawSQL when it is the last
      file of the reversed list.  A file that cannot be read or parsed adds
      one error and nothing else. */
  function LoadFile<C, S, E>(ops: CatalogOps<C, S, E>, name: string, isLast: bool, catalog: C): (r: FileResult<C, E>)
    ensures |r.calls| == (if Loads(ops, name) then |StatementsOf(ops, name)| else 0)
    ensures r.rawAdded <==> isLast && Loads(ops, name)
    ensures r.errors == [] <==> Loads(ops, name) && CleanFile(r.calls)
    ensures forall p :: 0 <= p < |r.calls| ==> (r.calls[p].first <==> isLast && !DefinedBefore(r.calls, p))
  {
    match ops.read(name)
    case Failure(e) => FileResult(catalog, [CompileError(name, "", 0, External(e))], [], false)
    case Success(blob) =>
      var contents := ops.removeRollback(blob);
      match ops.parse(contents)
      case Failure(e) => FileResult(catalog, [CompileError(name, contents, 0, External(e))], [], false)
      case Success(stmts) =>
        var fr := StmtLoop(ops, isLast, name, contents, stmts, catalog, false);
        if isLast then FileResult(ops.addRawSQL(fr.catalog, contents), fr.errors, fr.calls, true)
        else FileResult(fr.catalog, fr.errors, fr.calls, false)
  }

  /** The outer loop over the reversed files, from position i on. */
  function FilesLoop<C, S, E>(ops: CatalogOps<C, S, E>, rf: seq<string>, i: nat, catalog: C): (r: CatalogRun<C, E>)
    requires i <= |rf|
    ensures |r.calls| == |rf| - i
    ensures CallCounts(ops, rf, i, r.calls)
    ensures r.rawAdded == (if i < |rf| && Loads(ops, rf[|rf| - 1]) then [|rf| - 1] else [])
    decreases |rf| - i
  {
    if i == |rf| then CatalogRun(catalog, [], [], [])
    else
      var fr := LoadFile(ops, rf[i], i == |rf| - 1, catalog);
      var rest := FilesLoop(ops, rf, i + 1, fr.catalog);
      CallCountsCons(ops, rf, i, fr.calls, rest.calls);
      CatalogRun(rest.catalog, fr.errors + rest.errors, [fr.calls] + rest.calls,
                 (if fr.rawAdded then [i] else []) + rest.rawAdded)
  }

  /** The number of Update calls recorded for each file from position i on. */
  predicate CallCounts<C, S, E>(ops: CatalogOps<C, S, E>, rf: seq<string>, i: nat, calls: seq<seq<UpdateCall>>)
    requires i <= |rf|
  {
    && |calls| == |rf| - i
    && forall k :: 0 <= k < |calls| ==>
         |calls[k]| == (if Loads(ops, rf[i + k]) then |StatementsOf(ops, rf[i + k])| else 0)
  }

  lemma CallCountsCons<C, S, E>(ops: CatalogOps<C, S, E>, rf: seq<string>, i: nat,
                                c: seq<UpdateCall>, rest: seq<seq<UpdateCall>>)
    requires i < |rf|
    requires |c| == (if Loads(ops, rf[i]) then |StatementsOf(ops, rf[i])| else 0)
    requires CallCounts(ops, rf, i + 1, rest)
    ensures CallCounts(ops, rf, i, [c] + rest)
  {
    var all := [c] + rest;
    forall k | 0 <= k < |all|
      ensures |all[k]| == (if Loads(ops, rf[i + k]) then |StatementsOf(ops, rf[i + k])| else 0)
    {
      if k > 0 {
        assert all[k] == rest[k - 1] && rf[i + k] == rf[(i + 1) + (k - 1)];
      }
    }
  }

  /** Every file loaded and every file's calls were clean. */
  predicate AllClean<C, S, E>(ops: CatalogOps<C, S, E>, names: seq<string>, calls: seq<seq<UpdateCall>>)
    requires |names| == |calls|
  {
    forall k :: 0 <= k < |names| ==> Loads(ops, names[k]) && CleanFile(calls[k])
  }

  lemma AllCleanCons<C, S, E>(ops: CatalogOps<C, S, E>, names: seq<string>, calls: seq<seq<UpdateCall>>)
    requires |names| == |calls| > 0
    ensures AllClean(ops, names, calls) <==>
              Loads(ops, names[0]) && CleanFile(calls[0]) && AllClean(ops, names[1..], calls[1..])
  {
    if Loads(ops, names[0]) && CleanFile(calls[0]) && AllClean(ops, names[1..], calls[1..]) {
      forall k | 0 <= k < |names|
        ensures Loads(ops, names[k]) && CleanFile(calls[k])
      {
        if k > 0 {
          assert names[k] == names[1..][k - 1] && calls[k] == calls[1..][k - 1];
        }
      }
    }
  }

  /** Errors are collected, not fatal: the loop ends with no error exactly
      when every file loaded and every file's calls were clean. */
  lemma {:induction false} FilesLoopErrors<C, S, E>(ops: CatalogOps<C, S, E>, rf: seq<string>, i: nat, catalog: C)
    requires i <= |rf|
    ensures FilesLoop(ops, rf, i, catalog).errors == [] <==> AllClean(ops, rf[i..], FilesLoop(ops, rf, i, catalog).calls)
    decreases |rf| - i
  {
    if i < |rf| {
      var fr := LoadFile(ops, rf[i], i == |rf| - 1, catalog);
      var rest := FilesLoop(ops, rf, i + 1, fr.catalog);
      FilesLoopErrors(ops, rf, i + 1, fr.catalog);
      FilesLoopCons(ops, rf, i, catalog);
      AllCleanFrom(ops, rf, i, fr.calls, rest.calls);
    }
  }

  /** One step of the outer loop: the file's errors come first, then the
      rest's; its calls head the list. */
  lemma FilesLoopCons<C, S, E>(ops: CatalogOps<C, S, E>, rf: seq<string>, i: nat, catalog: C)
    requires i < |rf|
    ensures var fr := LoadFile(ops, rf[i], i == |rf| - 1, catalog);
      var rest := FilesLoop(ops, rf, i + 1, fr.catalog);
      var r := FilesLoop(ops, rf, i, catalog);
      r.errors == fr.errors + rest.errors && r.calls == [fr.calls] + rest.calls
  {
  }

  /** AllClean from position i: the file at i, then the files after it. */
  lemma AllCleanFrom<C, S, E>(ops: CatalogOps<C, S, E>, rf: seq<string>, i: nat,
                              c: seq<UpdateCall>, rest: seq<seq<UpdateCall>>)
    requires i < |rf| && |rest| == |rf| - i - 1
    ensures AllClean(ops, rf[i..], [c] + rest) <==>
              Loads(ops, rf[i]) && CleanFile(c) && AllClean(ops, rf[i + 1..], rest)
  {
    var all := [c] + rest;
    assert rf[i..][1..] == rf[i + 1..] && rf[i..][0] == rf[i];
    assert all[1..] == rest && all[0] == c;
    AllCleanCons(ops, rf[i..], all);
  }

  /** The "first table" flags of one file's calls: set exactly while no
      earlier call of the file has defined a table, and only in the file
      that gets them. */
  predicate FileFlags(calls: seq<UpdateCall>, last: bool) {
    forall p :: 0 <= p < |calls| ==> (calls[p].first <==> last && !DefinedBefore(calls, p))
  }

  /** FileFlags for every file, where only the file at index `last` gets them. */
  predicate RunFlags(calls: seq<seq<UpdateCall>>, last: int) {
    forall k :: 0 <= k < |calls| ==> FileFlags(calls[k], k == last)
  }

  lemma RunFlagsCons(c: seq<UpdateCall>, rest: seq<seq<UpdateCall>>, last: int)
    requires FileFlags(c, last == 0) && RunFlags(rest, last - 1)
    ensures RunFlags([c] + rest, last)
  {
    var all := [c] + rest;
    forall k | 0 <= k < |all|
      ensures FileFlags(all[k], k == last)
    {
      if k > 0 {
        assert all[k] == rest[k - 1];
      }
    }
  }

  /** The "first table" flag of each Update call: set only in the last
      file of the reversed list, and only before that file defined a table. */
  lemma {:induction false} FilesLoopFlags<C, S, E>(ops: CatalogOps<C, S, E>, rf: seq<string>, i: nat, catalog: C)
    requires i <= |rf|
    ensures RunFlags(FilesLoop(ops, rf, i, catalog).calls, |rf| - 1 - i)
    decreases |rf| - i
  {
    if i < |rf| {
      var r := FilesLoop(ops, rf, i, catalog);
      var fr := LoadFile(ops, rf[i], i == |rf| - 1, catalog);
      var rest := FilesLoop(ops, rf, i + 1, fr.catalog);
      FilesLoopFlags(ops, rf, i + 1, fr.catalog);
      assert r.calls == [fr.calls] + rest.calls;
      assert FileFlags(fr.calls, |rf| - 1 - i == 0);
      RunFlagsCons(fr.calls, rest.calls, |rf| - 1 - i);
    }
  }

  /** parseCatalog over the files the schema globs matched, in their
      original order. */
  function ParseCatalog<C, S, E>(ops: CatalogOps<C, S, E>, files: seq<string>, catalog: C): (r: CatalogRun<C, E>)
    ensures |r.calls| == |files|
  {
    FilesLoop(ops, Reversed(files), 0, catalog)
  }

  /** The pass's verdict: the multi-error when anything was collected. */
  function CatalogOutcome<C, E>(r: CatalogRun<C, E>): Outcome<seq<CompileError<E>>> {
    if |r.errors| > 0 then Fail(r.errors) else Pass
  }

  /** The "first table" flag is passed only for the originally first file,
      and there only until a statement of that file has defined a table. */
  lemma FirstTableFlag<C, S, E>(ops: CatalogOps<C, S, E>, files: seq<string>, catalog: C, k: nat, p: nat)
    requires k < |files|
    requires p < |ParseCatalog(ops, files, catalog).calls[k]|
    ensures ParseCatalog(ops, files, catalog).calls[k][p].first <==>
              Reversed(files)[k] == files[0] && k == |files| - 1
              && !DefinedBefore(ParseCatalog(ops, files, catalog).calls[k], p)
  {
    var calls := ParseCatalog(ops, files, catalog).calls;
    ParseCatalogFlags(ops, files, catalog);
    assert FileFlags(calls[k], k == |files| - 1);
    ReversedLast(files);
  }

  lemma ParseCatalogFlags<C, S, E>(ops: CatalogOps<C, S, E>, files: seq<string>, catalog: C)
    ensures RunFlags(ParseCatalog(ops, files, catalog).calls, |files| - 1)
  {
    FilesLoopFlags(ops, Reversed(files), 0, catalog);
  }

  lemma ReversedLast<V>(arr: seq<V>)
    requires |arr| > 0
    ensures Reversed(arr)[|arr| - 1] == arr[0]
  {
  }

  /** AddRawSQL runs at most once: for the originally first file, exactly
      when it was read and parsed. */
  lemma RawSqlOnlyForFirstFile<C, S, E>(ops: CatalogOps<C, S, E>, files: seq<string>, catalog: C)
    ensures ParseCatalog(ops, files, catalog).rawAdded ==
              (if |files| > 0 && Loads(ops, files[0]) then [|files| - 1] else [])
  {
  }

  /** Errors do not stop the pass: every statement of every readable file
      reaches Update. */
  lemma EveryStatementUpdated<C, S, E>(ops: CatalogOps<C, S, E>, files: seq<string>, catalog: C, k: nat)
    requires k < |files| && Loads(ops, files[k])
    ensures |ParseCatalog(ops, files, catalog).calls[|files| - 1 - k]| == |StatementsOf(ops, files[k])|
  {
    var rf := Reversed(files);
    assert rf[|files| - 1 - k] == files[k];
  }

  /** The pass fails exactly when some file could not be loaded, some
      Update failed, or some file defined a second table. */
  lemma CatalogFailsIffSomethingWrong<C, S, E>(ops: CatalogOps<C, S, E>, files: seq<string>, catalog: C)
    ensures var r := ParseCatalog(ops, files, catalog);
      CatalogOutcome(r).Fail? <==>
        exists k :: 0 <= k < |files| && (!Loads(ops, files[k]) || !CleanFile(r.calls[|files| - 1 - k]))
  {
    var r := ParseCatalog(ops, files, catalog);
    ParseCatalogErrors(ops, files, catalog);
    AllCleanReversed(ops, files, r.calls);
  }

  /** AllClean over the reversed names, stated in the original order. */
  lemma AllCleanReversed<C, S, E>(ops: CatalogOps<C, S, E>, files: seq<string>, calls: seq<seq<UpdateCall>>)
    requires |calls| == |files|
    ensures AllClean(ops, Reversed(files), calls) <==>
              forall k :: 0 <= k < |files| ==> Loads(ops, files[k]) && CleanFile(calls[|files| - 1 - k])
  {
    var good := (n: string, c: seq<UpdateCall>) => Loads(ops, n) && CleanFile(c);
    ReversedPairs(files, calls, good);
    assert AllClean(ops, Reversed(files), calls) <==>
             forall j :: 0 <= j < |files| ==> good(Reversed(files)[j], calls[j]);
  }

  /** A property of every (name, entry) pair, matching the reversed names
      with the entries, is the property of every original name with the
      entry at the mirrored position. */
  lemma ReversedPairs<T>(files: seq<string>, calls: seq<T>, good: (string, T) -> bool)
    requires |calls| == |files|
    ensures (forall j :: 0 <= j < |files| ==> good(Reversed(files)[j], calls[j])) <==>
              (forall k :: 0 <= k < |files| ==> good(files[k], calls[|files| - 1 - k]))
  {
    var rf := Reversed(files);
    if forall j :: 0 <= j < |files| ==> good(rf[j], calls[j]) {
      forall k | 0 <= k < |files| ensures good(files[k], calls[|files| - 1 - k]) {
        assert rf[|files| - 1 - k] == files[k];
      }
    }
    if forall k :: 0 <= k < |files| ==> good(files[k], calls[|files| - 1 - k]) {
      forall j | 0 <= j < |files| ensures good(rf[j], calls[j]) {
        var k := |files| - 1 - j;
        assert |files| - 1 - k == j && rf[j] == files[k];
      }
    }
  }

  lemma ParseCatalogErrors<C, S, E>(ops: CatalogOps<C, S, E>, files: seq<string>, catalog: C)
    ensures var r := ParseCatalog(ops, files, catalog);
      |r.calls| == |files| && (r.errors == [] <==> AllClean(ops, Reversed(files), r.calls))
  {
    FilesLoopErrors(ops, Reversed(files), 0, catalog);
    assert Reversed(files)[0..] == Reversed(files);
  }

  // ---------------------------------------------------------------------
  // parseQueries

  /** What parseQuery makes of one statement: a query, the unsupported
      statement error, or another error together with the location of the
      SQL error it wraps, when it wraps one. */
  datatype QueryOutcome<T, E> = Parsed(query: T) | Unsupported | Failed(err: E, sqlLocation: Option<int>)

  /** The collaborators of parseQueries: reading, the parser, parseQuery,
      a query's name, a statement's position, and filepath.Base. */
  datatype QueryOps<!S, !T, E> = QueryOps(
    read: string -> Result<string, E>,
    parse: string -> Result<seq<S>, E>,
    parseQuery: (S, string) -> QueryOutcome<T, E>,
    name: T -> string,
    pos: S -> int,
    base: string -> string)

  /** A query with its Filename set. */
  datatype Compiled<T> = Compiled(query: T, filename: string)

  datatype QueriesError<E> = Errors(errs: seq<CompileError<E>>) | NoQueries(paths: string)

  /** The location reported for a failed statement: the wrapped SQL error's
      location when it is set, the statement's own position otherwise. */
  function ErrorLocation(pos: int, sqlLocation: Option<int>): (loc: int)
    ensures sqlLocation.Some? && sqlLocation.value != 0 ==> loc == sqlLocation.value
    ensures sqlLocation.None? || sqlLocation.value == 0 ==> loc == pos
  {
    if sqlLocation.Some? && sqlLocation.value != 0 then sqlLocation.value else pos
  }

  /** The queries a file's statements yield, in statement order, before
      duplicate names are looked at. */
  function ParsedOf<S, T, E>(ops: QueryOps<S, T, E>, name: string, src: string, stmts: seq<S>): (qs: seq<Compiled<T>>)
    decreases |stmts|
  {
    if stmts == [] then []
    else
      var head := match ops.parseQuery(stmts[0], src)
        case Parsed(q) => [Compiled(q, ops.base(name))]
        case _ => [];
      head + ParsedOf(ops, name, src, stmts[1..])
  }

  predicate SomeFailed<S, T, E>(ops: QueryOps<S, T, E>, src: string, stmts: seq<S>) {
    exists j :: 0 <= j < |stmts| && ops.parseQuery(stmts[j], src).Failed?
  }

  /** The non-empty names of a list of queries. */
  function NamesOf<S, T, E>(ops: QueryOps<S, T, E>, qs: seq<Compiled<T>>): set<string> {
    set i | 0 <= i < |qs| && ops.name(qs[i].query) != "" :: ops.name(qs[i].query)
  }

  /** No non-empty name is seen already or occurs twice. */
  predicate UniqueNames<S, T, E>(ops: QueryOps<S, T, E>, qs: seq<Compiled<T>>, seen: set<string>) {
    && (forall i :: 0 <= i < |qs| ==> ops.name(qs[i].query) !in seen)
    && (forall i, j :: 0 <= i < j < |qs| && ops.name(qs[i].query) != "" ==> ops.name(qs[i].query) != ops.name(qs[j].query))
  }

  lemma NamesOfCons<S, T, E>(ops: QueryOps<S, T, E>, c: Compiled<T>, qs: seq<Compiled<T>>)
    ensures var n := ops.name(c.query);
      NamesOf(ops, [c] + qs) == (if n == "" then {} else {n}) + NamesOf(ops, qs)
  {
    var all := [c] + qs;
    var n := ops.name(c.query);
    forall x | x in NamesOf(ops, all)
      ensures x in (if n == "" then {} else {n}) + NamesOf(ops, qs)
    {
      var i :| 0 <= i < |all| && ops.name(all[i].query) != "" && ops.name(all[i].query) == x;
      if i > 0 {
        assert all[i] == qs[i - 1];
      }
    }
    forall x | x in NamesOf(ops, qs)
      ensures x in NamesOf(ops, all)
    {
      var i :| 0 <= i < |qs| && ops.name(qs[i].query) != "" && ops.name(qs[i].query) == x;
      assert all[i + 1] == qs[i];
    }
    if n != "" {
      assert all[0] == c;
      assert n in NamesOf(ops, all);
    }
  }

  datatype QueryRun<T, E> = QueryRun(queries: seq<Compiled<T>>, errors: seq<CompileError<E>>, seen: set<string>)

  lemma UniqueNamesCons<S, T, E>(ops: QueryOps<S, T, E>, c: Compiled<T>, qs: seq<Compiled<T>>, seen: set<string>)
    requires "" !in seen
    ensures var n := ops.name(c.query);
      UniqueNames(ops, [c] + qs, seen) <==>
        n !in seen && UniqueNames(ops, qs, if n == "" then seen else seen + {n})
  {
    var all := [c] + qs;
    var n := ops.name(c.query);
    var seen' := if n == "" then seen else seen + {n};
    assert forall i :: 1 <= i < |all| ==> all[i] == qs[i - 1];
    assert all[0] == c;
    if UniqueNames(ops, all, seen) {
      forall i | 0 <= i < |qs|
        ensures ops.name(qs[i].query) !in seen'
      {
        assert all[i + 1] == qs[i];
        if n != "" {
          assert ops.name(all[0].query) != ops.name(all[i + 1].query);
        }
      }
      forall i, j | 0 <= i < j < |qs| && ops.name(qs[i].query) != ""
        ensures ops.name(qs[i].query) != ops.name(qs[j].query)
      {
        assert all[i + 1] == qs[i] && all[j + 1] == qs[j];
      }
    }
    if n !in seen && UniqueNames(ops, qs, seen') {
      forall i | 0 <= i < |all|
        ensures ops.name(all[i].query) !in seen
      {
        if i > 0 {
          assert all[i] == qs[i - 1];
        } else {
          assert all[i] == c;
        }
      }
      forall i, j | 0 <= i < j < |all| && ops.name(all[i].query) != ""
        ensures ops.name(all[i].query) != ops.name(all[j].query)
      {
        if i == 0 {
          assert all[j] == qs[j - 1];
        } else {
          assert all[i] == qs[i - 1] && all[j] == qs[j - 1];
        }
      }
    }
  }

  /** The statement loop of one query file. */
  function QueryStmtLoop<S, T, E>(ops: QueryOps<S, T, E>, name: string, src: string, stmts: seq<S>,
                                  seen: set<string>): (r: QueryRun<T, E>)
    requires "" !in seen
    ensures "" !in r.seen
    ensures r.seen == seen + NamesOf(ops, ParsedOf(ops, name, src, stmts))
    ensures r.errors == [] <==>
              !SomeFailed(ops, src, stmts) && UniqueNames(ops, ParsedOf(ops, name, src, stmts), seen)
    ensures r.errors == [] ==> r.queries == ParsedOf(ops, name, src, stmts)
    decreases |stmts|
  {
    if stmts == [] then QueryRun([], [], seen)
    else
      var s := stmts[0];
      var parsed := ParsedOf(ops, name, src, stmts);
      var tail := ParsedOf(ops, name, src, stmts[1..]);
      assert SomeFailed(ops, src, stmts) <==> ops.parseQuery(s, src).Failed? || SomeFailed(ops, src, stmts[1..]) by {
        assert forall j :: 1 <= j < |stmts| ==> stmts[j] == stmts[1..][j - 1];
      }
      match ops.parseQuery(s, src)
      case Unsupported =>
        assert parsed == tail;
        QueryStmtLoop(ops, name, src, stmts[1..], seen)
      case Failed(e, sqlLocation) =>
        assert parsed == tail;
        var rest := QueryStmtLoop(ops, name, src, stmts[1..], seen);
        QueryRun(rest.queries,
                 [CompileError(name, src, ErrorLocation(ops.pos(s), sqlLocation), External(e))] + rest.errors,
                 rest.seen)
      case Parsed(q) =>
        var n := ops.name(q);
        var c := Compiled(q, ops.base(name));
        assert parsed == [c] + tail;
        UniqueNamesCons(ops, c, tail, seen);
        NamesOfCons(ops, c, tail);
        if n != "" && n in seen then
          var rest := QueryStmtLoop(ops, name, src, stmts[1..], seen);
          QueryRun(rest.queries,
                   [CompileError(name, src, ops.pos(s), DuplicateQueryName(n))] + rest.errors,
                   rest.seen)
        else
          var seen' := if n == "" then seen else seen + {n};
          var rest := QueryStmtLoop(ops, name, src, stmts[1..], seen');
          QueryRun([c] + rest.queries, rest.errors, rest.seen)
  }

  /** A query file that can be read and parsed. */
  predicate QueryFileLoads<S, T, E>(ops: QueryOps<S, T, E>, name: string) {
    ops.read(name).Success? && ops.parse(ops.read(name).value).Success?
  }

  /** The queries of the files from position i on, in file then statement
      order. */
  function AllParsed<S, T, E>(ops: QueryOps<S, T, E>, files: seq<string>, i: nat): seq<Compiled<T>>
    requires i <= |files|
    decreases |files| - i
  {
    if i == |files| then []
    else if QueryFileLoads(ops, files[i]) then
      var src := ops.read(files[i]).value;
      ParsedOf(ops, files[i], src, ops.parse(src).value) + AllParsed(ops, files, i + 1)
    else AllParsed(ops, files, i + 1)
  }

  /** Some file from position i on fails to load or holds a failing statement. */
  predicate SomeFileFails<S, T, E>(ops: QueryOps<S, T, E>, files: seq<string>, i: nat)
    requires i <= |files|
  {
    exists k :: i <= k < |files| &&
      (!QueryFileLoads(ops, files[k])
       || SomeFailed(ops, ops.read(files[k]).value, ops.parse(ops.read(files[k]).value).value))
  }

  lemma UniqueNamesAppend<S, T, E>(ops: QueryOps<S, T, E>, a: seq<Compiled<T>>, b: seq<Compiled<T>>, seen: set<string>)
    ensures UniqueNames(ops, a + b, seen) <==>
              UniqueNames(ops, a, seen) && UniqueNames(ops, b, seen + NamesOf(ops, a))
  {
    var ab := a + b;
    assert forall i :: 0 <= i < |a| ==> ab[i] == a[i];
    assert forall j :: 0 <= j < |b| ==> ab[|a| + j] == b[j];
    if UniqueNames(ops, a, seen) && UniqueNames(ops, b, seen + NamesOf(ops, a)) {
      forall i, j | 0 <= i < j < |ab| && ops.name(ab[i].query) != ""
        ensures ops.name(ab[i].query) != ops.name(ab[j].query)
      {
        if j >= |a| && i < |a| {
          assert ops.name(a[i].query) in NamesOf(ops, a);
          assert ab[j] == b[j - |a|];
        } else if i >= |a| {
          assert ab[i] == b[i - |a|] && ab[j] == b[j - |a|];
        }
      }
    }
    if UniqueNames(ops, ab, seen) {
      forall j | 0 <= j < |b|
        ensures ops.name(b[j].query) !in seen + NamesOf(ops, a)
      {
        assert ab[|a| + j] == b[j];
        assert forall i :: 0 <= i < |a| && ops.name(a[i].query) != "" ==> ops.name(a[i].query) != ops.name(b[j].query);
      }
      forall i, j | 0 <= i < j < |b| && ops.name(b[i].query) != ""
        ensures ops.name(b[i].query) != ops.name(b[j].query)
      {
        assert ab[|a| + i] == b[i] && ab[|a| + j] == b[j];
      }
    }
  }

  /** The outer loop over the query files, from position i on. */
  function QueryFilesLoop<S, T, E>(ops: QueryOps<S, T, E>, files: seq<string>, i: nat, seen: set<string>)
    : (r: QueryRun<T, E>)
    requires i <= |files|
    requires "" !in seen
    ensures r.errors == [] <==>
              !SomeFileFails(ops, files, i) && UniqueNames(ops, AllParsed(ops, files, i), seen)
    ensures r.errors == [] ==> r.queries == AllParsed(ops, files, i)
    decreases |files| - i
  {
    if i == |files| then QueryRun([], [], seen)
    else
      var name := files[i];
      assert SomeFileFails(ops, files, i) <==>
        (!QueryFileLoads(ops, name)
         || SomeFailed(ops, ops.read(name).value, ops.parse(ops.read(name).value).value)
         || SomeFileFails(ops, files, i + 1));
      match ops.read(name)
      case Failure(e) =>
        var rest := QueryFilesLoop(ops, files, i + 1, seen);
        QueryRun(rest.queries, [CompileError(name, "", 0, External(e))] + rest.errors, rest.seen)
      case Success(src) =>
        match ops.parse(src)
        case Failure(e) =>
          var rest := QueryFilesLoop(ops, files, i + 1, seen);
          QueryRun(rest.queries, [CompileError(name, src, 0, External(e))] + rest.errors, rest.seen)
        case Success(stmts) =>
          var fr := QueryStmtLoop(ops, name, src, stmts, seen);
          var rest := QueryFilesLoop(ops, files, i + 1, fr.seen);
          UniqueNamesAppend(ops, ParsedOf(ops, name, src, stmts), AllParsed(ops, files, i + 1), seen);
          QueryRun(fr.queries + rest.queries, fr.errors + rest.errors, rest.seen)
  }

  /** parseQueries over the files the query globs matched.  `paths` are the
      configured query paths, quoted in the "no queries" error. */
  function ParseQueries<S, T, E>(ops: QueryOps<S, T, E>, paths: seq<string>, files: seq<string>)
    : (r: Result<seq<Compiled<T>>, QueriesError<E>>)
    ensures r.Failure? && r.error.Errors? <==>
              SomeFileFails(ops, files, 0) || !UniqueNames(ops, AllParsed(ops, files, 0), {})
    ensures r.Success? ==> r.value == AllParsed(ops, files, 0) && r.value != []
    ensures r.Failure? && r.error.NoQueries? ==> AllParsed(ops, files, 0) == []
  {
    var run := QueryFilesLoop(ops, files, 0, {});
    if |run.errors| > 0 then Failure(Errors(run.errors))
    else if |run.queries| == 0 then Failure(NoQueries(Join(paths, ",")))
    else Success(run.queries)
  }

  /** Accepted queries never share a non-empty name. */
  lemma AcceptedNamesDistinct<S, T, E>(ops: QueryOps<S, T, E>, paths: seq<string>, files: seq<string>)
    requires ParseQueries(ops, paths, files).Success?
    ensures var qs := ParseQueries(ops, paths, files).value;
      forall i, j :: 0 <= i < j < |qs| && ops.name(qs[i].query) != "" ==> ops.name(qs[i].query) != ops.name(qs[j].query)
  {
  }

  /** A second query reusing a non-empty name is reported at the second
      statement, and the first one is kept. */
  lemma DuplicateNameReported<S, T, E>(ops: QueryOps<S, T, E>, name: string, src: string, s1: S, s2: S, q1: T, q2: T)
    requires ops.parseQuery(s1, src) == Parsed(q1) && ops.parseQuery(s2, src) == Parsed(q2)
    requires ops.name(q1) == ops.name(q2) != ""
    ensures var r := QueryStmtLoop(ops, name, src, [s1, s2], {});
      && r.errors == [CompileError(name, src, ops.pos(s2), DuplicateQueryName(ops.name(q1)))]
      && r.queries == [Compiled(q1, ops.base(name))]
  {
    assert [s1, s2][1..] == [s2];
    assert [s2][1..] == [];
  }

  /** A failing statement is reported at the SQL error's location when it
      carries a nonzero one, and at the statement otherwise. */
  lemma FailedStatementLocation<S, T, E>(ops: QueryOps<S, T, E>, name: string, src: string, s: S, e: E, loc: Option<int>)
    requires ops.parseQuery(s, src) == Failed(e, loc)
    ensures var r := QueryStmtLoop(ops, name, src, [s], {});
      && r.queries == []
      && r.errors == [CompileError(name, src, if loc.Some? && loc.value != 0 then loc.value else ops.pos(s), External(e))]
  {
    assert [s][1..] == [];
  }

  /** Unsupported statements leave no trace. */
  lemma UnsupportedSkipped<S, T, E>(ops: QueryOps<S, T, E>, name: string, src: string, s: S, rest: seq<S>, seen: set<string>)
    requires "" !in seen
    requires ops.parseQuery(s, src) == Unsupported
    ensures QueryStmtLoop(ops, name, src, [s] + rest, seen) == QueryStmtLoop(ops, name, src, rest, seen)
  {
    assert ([s] + rest)[1..] == rest;
  }
}

=== FILE: compiler_parse.dfy ===
/** Parameter handling and option defaults from internal/compiler/parse.go:
    scoring a parameter reference by how well its context pins down its type,
    keeping one reference per parameter number, numbering the unnumbered
    ones, ordering the result, and defaulting the select-only options. */
module CompilerParse {
  import opened Wrappers
  import opened Strings
  import GoOption

  // ---------------------------------------------------------------------
  // Parameter references

  datatype BoolKind = And | Or | Not | IsNull | IsNotNull | OtherBool

  /** The syntax node a parameter reference sits under.  `AExpr.op` and
      `FuncCall.name` are the first name item when it is a plain string, and
      None when the name is missing, empty or not a string. */
  datatype Parent =
    | NoParent
    | TypeCast
    | AExpr(op: Option<string>)
    | BoolExpr(kind: BoolKind)
    | Between
    | FuncCall(name: Option<string>)
    | ResTarget
    | In
    | LimitCount
    | LimitOffset
    | OtherParent

  /** A `$n` / `?` reference: number 0 marks an unnumbered one. */
  datatype ParamRef = ParamRef(number: int, location: int, parent: Parent)

  const ComparisonOps: set<string> := {"=", "==", "!=", "<>", "<", "<=", ">", ">="}
  const ArithmeticOps: set<string> := {"+", "-", "*", "/", "%"}
  const LikeOps: set<string> := {"~~", "!~~", "~~*", "!~~*"}
  const IsOps: set<string> := {"IS", "IS NOT"}
  const ParamFuncs: set<string> := {"sqlc.narg", "sqlc.arg"}

  /** scoreParamRefForTypeInference: how good the context is for inferring
      the parameter's type. */
  function Score(parent: Parent): (s: int)
    ensures 0 <= s <= 100
  {
    match parent
    case NoParent => 0
    case TypeCast => 100
    case AExpr(op) =>
      if op.None? then 50
      else if op.value in ComparisonOps then 100
      else if op.value in ArithmeticOps || op.value == "||" || op.value in LikeOps then 90
      else if op.value in IsOps then 0
      else 50
    case BoolExpr(kind) =>
      (match kind
       case And => 60
       case Or => 60
       case IsNull => 20
       case IsNotNull => 20
       case Not => 50
       case OtherBool => 40)
    case Between => 75
    case FuncCall(name) => if name.Some? && name.value in ParamFuncs then 30 else 40
    case ResTarget => 60
    case In => 70
    case LimitCount => 90
    case LimitOffset => 90
    case OtherParent => 10
  }

  /** The contexts that fully determine a type: an explicit cast or a comparison. */
  predicate Decisive(parent: Parent) {
    parent.TypeCast? || (parent.AExpr? && parent.op.Some? && parent.op.value in ComparisonOps)
  }

  /** The contexts that say nothing about the type: none at all, or IS / IS NOT. */
  predicate Uninformative(parent: Parent) {
    parent.NoParent? || (parent.AExpr? && parent.op.Some? && parent.op.value in IsOps)
  }

  /** The top score is reached exactly by the decisive contexts, and the
      bottom score exactly by the uninformative ones. */
  lemma ScoreExtremes(parent: Parent)
    ensures Score(parent) == 100 <==> Decisive(parent)
    ensures Score(parent) == 0 <==> Uninformative(parent)
  {
    if parent.AExpr? && parent.op.Some? {
      var o := parent.op.value;
      if o in IsOps {
        assert o !in ComparisonOps && o !in ArithmeticOps && o !in LikeOps && o != "||";
      }
    }
  }

  // ---------------------------------------------------------------------
  // One representative per parameter number

  /** The distinct nonzero numbers of `refs`, in order of first appearance. */
  function Numbers(refs: seq<ParamRef>): (ns: seq<int>)
    ensures forall i :: 0 <= i < |ns| ==> ns[i] != 0
    ensures forall i, j :: 0 <= i < j < |ns| ==> ns[i] != ns[j]
    ensures forall i :: 0 <= i < |refs| && refs[i].number != 0 ==> refs[i].number in ns
    ensures forall k :: 0 <= k < |ns| ==> exists i :: 0 <= i < |refs| && refs[i].number == ns[k]
    decreases |refs|
  {
    if refs == [] then []
    else
      var init := refs[..|refs| - 1];
      var last := refs[|refs| - 1];
      var ns := Numbers(init);
      assert forall i :: 0 <= i < |init| ==> init[i] == refs[i];
      if last.number == 0 || last.number in ns then ns else ns + [last.number]
  }

  /** The references numbered `n`, in input order. */
  function Group(refs: seq<ParamRef>, n: int): (g: seq<ParamRef>)
    ensures forall k :: 0 <= k < |g| ==> g[k].number == n && g[k] in refs
    ensures forall i :: 0 <= i < |refs| && refs[i].number == n ==> refs[i] in g
    decreases |refs|
  {
    if refs == [] then []
    else (if refs[0].number == n then [refs[0]] else []) + Group(refs[1..], n)
  }

  /** Group is a filter: the group of a concatenation is the groups of
      the parts, in order. */
  lemma {:induction false} GroupAppend(a: seq<ParamRef>, b: seq<ParamRef>, n: int)
    ensures Group(a + b, n) == Group(a, n) + Group(b, n)
    decreases |a|
  {
    if a == [] {
      assert a + b == b;
    } else {
      assert (a + b)[1..] == a[1..] + b && (a + b)[0] == a[0];
      GroupAppend(a[1..], b, n);
    }
  }

  /** One reference forms its own group exactly when it has the number. */
  lemma GroupOne(r: ParamRef, n: int)
    ensures Group([r], n) == if r.number == n then [r] else []
  {
    assert [r][1..] == [];
  }

  /** The positions, counted from `off`, of the references numbered `n`, in order. */
  function Positions(refs: seq<ParamRef>, n: int, off: int): seq<int>
    decreases |refs|
  {
    if refs == [] then []
    else if refs[0].number == n then [off] + Positions(refs[1..], n, off + 1)
    else Positions(refs[1..], n, off + 1)
  }

  /** Positions unfolded once, at one index. */
  lemma PositionsCons(refs: seq<ParamRef>, n: int, off: int, i: int)
    requires refs != [] && 0 <= i < |Positions(refs, n, off)|
    ensures var d := if refs[0].number == n then 1 else 0;
      && |Positions(refs, n, off)| == |Positions(refs[1..], n, off + 1)| + d
      && (i < d ==> Positions(refs, n, off)[i] == off)
      && (d <= i ==> Positions(refs, n, off)[i] == Positions(refs[1..], n, off + 1)[i - d])
  {
  }

  lemma {:induction false} PositionsLength(refs: seq<ParamRef>, n: int, off: int)
    ensures |Positions(refs, n, off)| == |Group(refs, n)|
    decreases |refs|
  {
    if refs != [] {
      PositionsLength(refs[1..], n, off + 1);
    }
  }

  /** Group unfolded once, at one index. */
  lemma GroupConsAt(refs: seq<ParamRef>, n: int, i: int)
    requires refs != [] && 0 <= i < |Group(refs, n)|
    ensures var d := if refs[0].number == n then 1 else 0;
      && |Group(refs, n)| == |Group(refs[1..], n)| + d
      && (i < d ==> Group(refs, n)[i] == refs[0])
      && (d <= i ==> Group(refs, n)[i] == Group(refs[1..], n)[i - d])
  {
  }

  lemma {:induction false} PositionsAt(refs: seq<ParamRef>, n: int, off: int, i: nat)
    requires i < |Positions(refs, n, off)|
    ensures i < |Group(refs, n)|
    ensures off <= Positions(refs, n, off)[i] < off + |refs|
    ensures refs[Positions(refs, n, off)[i] - off] == Group(refs, n)[i]
    decreases |refs|
  {
    PositionsLength(refs, n, off);
    PositionsCons(refs, n, off, i);
    GroupConsAt(refs, n, i);
    var d := if refs[0].number == n then 1 else 0;
    if i >= d {
      PositionsAt(refs[1..], n, off + 1, i - d);
      var p := Positions(refs[1..], n, off + 1)[i - d];
      assert refs[p - off] == refs[1..][p - (off + 1)];
    }
  }

  lemma {:induction false} PositionsRise(refs: seq<ParamRef>, n: int, off: int, i: nat, j: nat)
    requires i < j < |Positions(refs, n, off)|
    ensures Positions(refs, n, off)[i] < Positions(refs, n, off)[j]
    decreases |refs|
  {
    PositionsCons(refs, n, off, i);
    PositionsCons(refs, n, off, j);
    var d := if refs[0].number == n then 1 else 0;
    if i >= d {
      PositionsRise(refs[1..], n, off + 1, i - d, j - d);
    } else {
      PositionsAt(refs[1..], n, off + 1, j - d);
    }
  }

  lemma {:induction false} PositionsCover(refs: seq<ParamRef>, n: int, off: int, q: nat)
    requires q < |refs| && refs[q].number == n
    ensures off + q in Positions(refs, n, off)
    decreases |refs|
  {
    var ps := Positions(refs, n, off);
    if q == 0 {
      PositionsCons(refs, n, off, 0);
    } else {
      var rest := Positions(refs[1..], n, off + 1);
      var d := if refs[0].number == n then 1 else 0;
      assert refs[1..][q - 1] == refs[q];
      PositionsCover(refs[1..], n, off + 1, q - 1);
      var i :| 0 <= i < |rest| && rest[i] == off + q;
      assert |ps| == |rest| + d;
      PositionsCons(refs, n, off, i + d);
    }
  }

  /** Where each member of a group sits in the input: the positions rise,
      so the group keeps input order, and every reference with the number
      is listed once. */
  function GroupPositions(refs: seq<ParamRef>, n: int): (ps: seq<int>)
    ensures |ps| == |Group(refs, n)|
    ensures forall i :: 0 <= i < |ps| ==> 0 <= ps[i] < |refs| && refs[ps[i]] == Group(refs, n)[i]
    ensures forall i, j :: 0 <= i < j < |ps| ==> ps[i] < ps[j]
    ensures forall q :: 0 <= q < |refs| && refs[q].number == n ==> q in ps
  {
    var ps := Positions(refs, n, 0);
    PositionsLength(refs, n, 0);
    forall i | 0 <= i < |ps| ensures 0 <= ps[i] < |refs| && refs[ps[i]] == Group(refs, n)[i] {
      PositionsAt(refs, n, 0, i);
    }
    forall i, j | 0 <= i < j < |ps| ensures ps[i] < ps[j] {
      PositionsRise(refs, n, 0, i, j);
    }
    forall q | 0 <= q < |refs| && refs[q].number == n ensures q in ps {
      PositionsCover(refs, n, 0, q);
    }
    ps
  }

  /** The scan over a group: `best` holds the first reference of maximal
      score among g[..k], and a later one replaces it only when it scores
      strictly higher. */
  function BestFrom(g: seq<ParamRef>, best: nat, k: nat): (i: nat)
    requires best < k <= |g|
    requires forall j :: 0 <= j < k ==> Score(g[j].parent) <= Score(g[best].parent)
    requires forall j :: 0 <= j < best ==> Score(g[j].parent) < Score(g[best].parent)
    ensures i < |g|
    ensures forall j :: 0 <= j < |g| ==> Score(g[j].parent) <= Score(g[i].parent)
    ensures forall j :: 0 <= j < i ==> Score(g[j].parent) < Score(g[i].parent)
    decreases |g| - k
  {
    if k == |g| then best
    else if Score(g[k].parent) > Score(g[best].parent) then BestFrom(g, k, k + 1)
    else BestFrom(g, best, k + 1)
  }

  /** The chosen reference of a group: the first one with the highest score. */
  function BestIndex(g: seq<ParamRef>): (i: nat)
    requires |g| >= 1
    ensures i < |g|
    ensures forall j :: 0 <= j < |g| ==> Score(g[j].parent) <= Score(g[i].parent)
    ensures forall j :: 0 <= j < i ==> Score(g[j].parent) < Score(g[i].parent)
  {
    BestFrom(g, 0, 1)
  }

  /** The reference a group keeps: the first one with the highest score. */
  function Choose(g: seq<ParamRef>): (r: ParamRef)
    requires |g| >= 1
    ensures exists i ::
              && 0 <= i < |g| && g[i] == r
              && (forall j :: 0 <= j < |g| ==> Score(g[j].parent) <= Score(r.parent))
              && (forall j :: 0 <= j < i ==> Score(g[j].parent) < Score(r.parent))
  {
    g[BestIndex(g)]
  }

  /** Every listed number has a non-empty group. */
  lemma NumbersHaveGroups(refs: seq<ParamRef>)
    ensures forall k :: 0 <= k < |Numbers(refs)| ==> |Group(refs, Numbers(refs)[k])| >= 1
  {
    var ns := Numbers(refs);
    forall k | 0 <= k < |ns|
      ensures |Group(refs, ns[k])| >= 1
    {
      var i :| 0 <= i < |refs| && refs[i].number == ns[k];
      assert refs[i] in Group(refs, ns[k]);
    }
  }

  /** One representative per distinct nonzero number; Go emits them in map
      order, and first-appearance order stands in for it. */
  function Representatives(refs: seq<ParamRef>): (reps: seq<ParamRef>)
    ensures |reps| == |Numbers(refs)|
    ensures forall k :: 0 <= k < |reps| ==> reps[k].number == Numbers(refs)[k]
    ensures forall k :: 0 <= k < |reps| ==> reps[k] in Group(refs, Numbers(refs)[k])
  {
    NumbersHaveGroups(refs);
    var ns := Numbers(refs);
    seq(|ns|, k requires 0 <= k < |ns| => Choose(Group(refs, ns[k])))
  }

  /** The representative of each group scores highest in its group, and
      every earlier member of the group scores strictly less. */
  lemma RepresentativeIsBest(refs: seq<ParamRef>, k: nat)
    requires k < |Numbers(refs)|
    ensures
      var g := Group(refs, Numbers(refs)[k]);
      var r := Representatives(refs)[k];
      exists i ::
        && 0 <= i < |g| && g[i] == r
        && (forall j :: 0 <= j < |g| ==> Score(g[j].parent) <= Score(r.parent))
        && (forall j :: 0 <= j < i ==> Score(g[j].parent) < Score(r.parent))
    ensures
      var n := Numbers(refs)[k];
      var r := Representatives(refs)[k];
      exists p ::
        && 0 <= p < |refs| && refs[p] == r && r.number == n
        && (forall q :: 0 <= q < |refs| && refs[q].number == n ==> Score(refs[q].parent) <= Score(r.parent))
        && (forall q :: 0 <= q < p && refs[q].number == n ==> Score(refs[q].parent) < Score(r.parent))
  {
    NumbersHaveGroups(refs);
    var n := Numbers(refs)[k];
    var g := Group(refs, n);
    var i := BestIndex(g);
    assert Representatives(refs)[k] == Choose(g) == g[i];
    var p := EarliestBestInInput(refs, n, i);
  }

  /** A group member of maximal score that no earlier member reaches is,
      at its input position, the earliest reference of maximal score among
      those with the number. */
  lemma EarliestBestInInput(refs: seq<ParamRef>, n: int, i: int) returns (p: int)
    requires 0 <= i < |Group(refs, n)|
    requires forall j :: 0 <= j < |Group(refs, n)| ==> Score(Group(refs, n)[j].parent) <= Score(Group(refs, n)[i].parent)
    requires forall j :: 0 <= j < i ==> Score(Group(refs, n)[j].parent) < Score(Group(refs, n)[i].parent)
    ensures 0 <= p < |refs| && refs[p] == Group(refs, n)[i] && refs[p].number == n
    ensures forall q :: 0 <= q < |refs| && refs[q].number == n ==> Score(refs[q].parent) <= Score(refs[p].parent)
    ensures forall q :: 0 <= q < p && refs[q].number == n ==> Score(refs[q].parent) < Score(refs[p].parent)
  {
    var g := Group(refs, n);
    var ps := GroupPositions(refs, n);
    p := ps[i];
    forall q | 0 <= q < |refs| && refs[q].number == n
      ensures Score(refs[q].parent) <= Score(refs[p].parent)
      ensures q < p ==> Score(refs[q].parent) < Score(refs[p].parent)
    {
      var j :| 0 <= j < |ps| && ps[j] == q;
      assert refs[q] == g[j];
      if i < j {
        assert p < q;
      }
    }
  }

  // ---------------------------------------------------------------------
  // Numbering the unnumbered references

  /** How many entries of `used` are at least `s`. */
  function CountAtLeast(used: seq<int>, s: int): nat {
    if used == [] then 0
    else (if used[0] >= s then 1 else 0) + CountAtLeast(used[1..], s)
  }

  lemma {:induction false} CountAtLeastShrinks(used: seq<int>, s: int)
    ensures CountAtLeast(used, s + 1) <= CountAtLeast(used, s)
    ensures s in used ==> CountAtLeast(used, s + 1) < CountAtLeast(used, s)
    decreases |used|
  {
    if used != [] {
      CountAtLeastShrinks(used[1..], s);
      assert s in used ==> used[0] == s || s in used[1..];
    }
  }

  /** The inner `for usedNumbers[start] { start++ }` loop: the first number
      from `s` on that is not used. */
  function NextFree(used: seq<int>, s: int): (n: int)
    ensures n >= s && n !in used
    ensures forall x :: s <= x < n ==> x in used
    decreases CountAtLeast(used, s)
  {
    CountAtLeastShrinks(used, s);
    if s in used then NextFree(used, s + 1) else s
  }

  /** The unnumbered references, in input order. */
  function Unnumbered(refs: seq<ParamRef>): seq<ParamRef> {
    Group(refs, 0)
  }

  /** The numbers the renumbering loop hands out to `count` unnumbered
      references: each is the smallest positive number not used so far.
      `start` is the loop's cursor; every number below it is already used. */
  function FreshNumbers(count: nat, used: seq<int>, start: int): (r: seq<int>)
    requires start >= 1
    requires forall x :: 1 <= x < start ==> x in used
    ensures |r| == count
    ensures forall k :: 0 <= k < |r| ==> r[k] >= start && r[k] !in used
    ensures forall j, k :: 0 <= j < k < |r| ==> r[j] < r[k]
    decreases count
  {
    if count == 0 then []
    else
      var n := NextFree(used, start);
      var rest := FreshNumbers(count - 1, used + [n], n + 1);
      assert forall k :: 0 <= k < |rest| ==> rest[k] != n && rest[k] !in used;
      [n] + rest
  }

  /** No number below a handed-out one is left free: each is used already
      or was handed out earlier. */
  lemma {:induction false} FreshNumbersLeast(count: nat, used: seq<int>, start: int, k: nat, x: int)
    requires start >= 1
    requires forall y :: 1 <= y < start ==> y in used
    requires k < count && 1 <= x < FreshNumbers(count, used, start)[k]
    ensures x in used || x in FreshNumbers(count, used, start)[..k]
    decreases count
  {
    var n := NextFree(used, start);
    UsedBelowNext(used, start);
    var rest := FreshNumbers(count - 1, used + [n], n + 1);
    FreshNumbersCons(count, used, start, k);
    if k > 0 {
      FreshNumbersLeast(count - 1, used + [n], n + 1, k - 1, x);
    }
  }

  /** Every number below the next free one, and that one, is used once it is handed out. */
  lemma UsedBelowNext(used: seq<int>, start: int)
    requires forall y :: 1 <= y < start ==> y in used
    ensures forall y :: 1 <= y < NextFree(used, start) + 1 ==> y in used + [NextFree(used, start)]
  {
  }

  /** The first number handed out is the next free one; the others are
      handed out as if it had been used. */
  lemma FreshNumbersCons(count: nat, used: seq<int>, start: int, k: nat)
    requires start >= 1
    requires forall y :: 1 <= y < start ==> y in used
    requires k < count
    ensures var n := NextFree(used, start);
      var r := FreshNumbers(count, used, start);
      var rest := FreshNumbers(count - 1, used + [n], n + 1);
      && r[0] == n
      && (k > 0 ==> r[k] == rest[k - 1] && r[..k] == [n] + rest[..k - 1])
  {
    var n := NextFree(used, start);
    var r := FreshNumbers(count, used, start);
    var rest := FreshNumbers(count - 1, used + [n], n + 1);
    assert r == [n] + rest;
    if k > 0 {
      assert r[..k] == [n] + rest[..k - 1];
    }
  }

  /** When no used number reaches `start`, the numbers handed out are
      start, start + 1, …, consecutively. */
  lemma {:induction false} FreshNumbersConsecutive(count: nat, used: seq<int>, start: int)
    requires start >= 1
    requires forall x :: 1 <= x < start ==> x in used
    requires forall i :: 0 <= i < |used| ==> used[i] < start
    ensures forall k :: 0 <= k < count ==> FreshNumbers(count, used, start)[k] == start + k
    decreases count
  {
    if count > 0 {
      assert start !in used;
      assert NextFree(used, start) == start;
      FreshNumbersConsecutive(count - 1, used + [start], start + 1);
    }
  }

  /** The renumbering loop: the unnumbered references, in order, each given
      its fresh number. */
  function Renumbered(refs: seq<ParamRef>, used: seq<int>): (r: seq<ParamRef>)
    ensures |r| == |Unnumbered(refs)|
    ensures forall k :: 0 <= k < |r| ==> r[k].location == Unnumbered(refs)[k].location
    ensures forall k :: 0 <= k < |r| ==> r[k].parent == Unnumbered(refs)[k].parent
    ensures forall k :: 0 <= k < |r| ==> r[k].number == FreshNumbers(|Unnumbered(refs)|, used, 1)[k]
  {
    var zs := Unnumbered(refs);
    var ns := FreshNumbers(|zs|, used, 1);
    seq(|zs|, k requires 0 <= k < |zs| => zs[k].(number := ns[k]))
  }

  /** No two references share a number. */
  predicate DistinctNumbers(refs: seq<ParamRef>) {
    forall i, j :: 0 <= i < j < |refs| ==> refs[i].number != refs[j].number
  }

  /** Appending references whose numbers are distinct, positive and unused
      keeps the numbers distinct. */
  lemma AppendDistinct(a: seq<ParamRef>, b: seq<ParamRef>)
    requires DistinctNumbers(a) && DistinctNumbers(b)
    requires forall i, j :: 0 <= i < |a| && 0 <= j < |b| ==> a[i].number != b[j].number
    ensures DistinctNumbers(a + b)
  {
    var c := a + b;
    forall i, j | 0 <= i < j < |c|
      ensures c[i].number != c[j].number
    {
      if j < |a| {
        assert c[i] == a[i] && c[j] == a[j];
      } else if i < |a| {
        assert c[i] == a[i] && c[j] == b[j - |a|];
      } else {
        assert c[i] == b[i - |a|] && c[j] == b[j - |a|];
      }
    }
  }

  /** uniqueParamRefs: one representative per nonzero number, then, unless
      the dialect numbers its parameters itself (`dollar`), the unnumbered
      references with fresh numbers.  No two results share a number. */
  function UniqueParamRefs(refs: seq<ParamRef>, dollar: bool): (out: seq<ParamRef>)
    ensures DistinctNumbers(out)
    ensures forall i :: 0 <= i < |out| ==> out[i].number != 0
    ensures dollar ==> out == Representatives(refs)
    ensures !dollar ==> out == Representatives(refs) + Renumbered(refs, Numbers(refs))
  {
    var reps := Representatives(refs);
    if dollar then reps
    else
      var ns := Numbers(refs);
      var tail := Renumbered(refs, ns);
      var given := FreshNumbers(|Unnumbered(refs)|, ns, 1);
      assert forall i :: 0 <= i < |tail| ==> tail[i].number == given[i] && given[i] >= 1 && given[i] !in ns;
      assert forall i :: 0 <= i < |reps| ==> reps[i].number == ns[i];
      AppendDistinct(reps, tail);
      reps + tail
  }

  /** Every nonzero number of the input is kept by exactly one output
      reference, which is a member of that number's group. */
  lemma EachNumberKeptOnce(refs: seq<ParamRef>, dollar: bool, i: nat)
    requires i < |refs| && refs[i].number != 0
    ensures
      var out := UniqueParamRefs(refs, dollar);
      exists k ::
        && 0 <= k < |out| && out[k].number == refs[i].number
        && out[k] in Group(refs, refs[i].number)
  {
    var ns := Numbers(refs);
    var k :| 0 <= k < |ns| && ns[k] == refs[i].number;
    assert UniqueParamRefs(refs, dollar)[k] == Representatives(refs)[k];
  }

  /** With every reference unnumbered, `?`-style parameters are numbered
      1, 2, …, N in input order. */
  lemma QuestionMarksNumberedInOrder(refs: seq<ParamRef>)
    requires forall i :: 0 <= i < |refs| ==> refs[i].number == 0
    ensures |UniqueParamRefs(refs, false)| == |refs|
    ensures forall k :: 0 <= k < |refs| ==> UniqueParamRefs(refs, false)[k] == refs[k].(number := k + 1)
  {
    NumbersOfUnnumbered(refs);
    assert UniqueParamRefs(refs, false) == Renumbered(refs, []) by {
      assert Representatives(refs) == [];
    }
    RenumberedInOrder(refs);
  }

  lemma RenumberedInOrder(refs: seq<ParamRef>)
    requires forall i :: 0 <= i < |refs| ==> refs[i].number == 0
    ensures |Renumbered(refs, [])| == |refs|
    ensures forall k :: 0 <= k < |refs| ==> Renumbered(refs, [])[k] == refs[k].(number := k + 1)
  {
    GroupOfAll(refs, 0);
    FreshNumbersConsecutive(|refs|, [], 1);
    var out := Renumbered(refs, []);
    forall k | 0 <= k < |refs|
      ensures out[k] == refs[k].(number := k + 1)
    {
      assert out[k].number == k + 1;
      assert out[k].location == refs[k].location && out[k].parent == refs[k].parent;
    }
  }

  lemma {:induction false} NumbersOfUnnumbered(refs: seq<ParamRef>)
    requires forall i :: 0 <= i < |refs| ==> refs[i].number == 0
    ensures Numbers(refs) == []
    decreases |refs|
  {
    if refs != [] {
      NumbersOfUnnumbered(refs[..|refs| - 1]);
    }
  }

  lemma {:induction false} GroupOfAll(refs: seq<ParamRef>, n: int)
    requires forall i :: 0 <= i < |refs| ==> refs[i].number == n
    ensures Group(refs, n) == refs
    decreases |refs|
  {
    if refs != [] {
      GroupOfAll(refs[1..], n);
      assert [refs[0]] + refs[1..] == refs;
    }
  }

  // ---------------------------------------------------------------------
  // The caller's sort (parse.go lines 94-99)

  /** The sort key: the source location for MySQL or non-`$` dialects, the
      parameter number otherwise. */
  function SortKey(r: ParamRef, byLocation: bool): int {
    if byLocation then r.location else r.number
  }

  predicate SortedBy(s: seq<ParamRef>, byLocation: bool) {
    forall i, j :: 0 <= i < j < |s| ==> SortKey(s[i], byLocation) <= SortKey(s[j], byLocation)
  }

  function Insert(x: ParamRef, s: seq<ParamRef>, byLocation: bool): (r: seq<ParamRef>)
    requires SortedBy(s, byLocation)
    ensures SortedBy(r, byLocation)
    ensures multiset(r) == multiset(s) + multiset{x}
    ensures |r| == |s| + 1
    ensures r[0] == x || (s != [] && r[0] == s[0])
  {
    if s == [] then [x]
    else if SortKey(x, byLocation) <= SortKey(s[0], byLocation) then
      ConsSorted(x, s, byLocation);
      [x] + s
    else
      SortedTail(s, byLocation);
      var rest := Insert(x, s[1..], byLocation);
      ConsSorted(s[0], rest, byLocation);
      ConsMultiset(s, rest, x);
      [s[0]] + rest
  }

  lemma SortedTail(s: seq<ParamRef>, byLocation: bool)
    requires SortedBy(s, byLocation) && s != []
    ensures SortedBy(s[1..], byLocation)
    ensures |s| > 1 ==> SortKey(s[0], byLocation) <= SortKey(s[1], byLocation)
  {
    forall i, j | 0 <= i < j < |s| - 1 ensures SortKey(s[1..][i], byLocation) <= SortKey(s[1..][j], byLocation) {
      assert s[1..][i] == s[i + 1] && s[1..][j] == s[j + 1];
    }
  }

  lemma ConsMultiset(s: seq<ParamRef>, rest: seq<ParamRef>, x: ParamRef)
    requires s != [] && multiset(rest) == multiset(s[1..]) + multiset{x}
    ensures multiset([s[0]] + rest) == multiset(s) + multiset{x}
  {
    assert s == [s[0]] + s[1..];
  }

  /** A key no larger than a sorted sequence's first stays sorted in front of it. */
  lemma ConsSorted(h: ParamRef, s: seq<ParamRef>, byLocation: bool)
    requires SortedBy(s, byLocation)
    requires s != [] ==> SortKey(h, byLocation) <= SortKey(s[0], byLocation)
    ensures SortedBy([h] + s, byLocation)
  {
    var r := [h] + s;
    forall i, j | 0 <= i < j < |r| ensures SortKey(r[i], byLocation) <= SortKey(r[j], byLocation) {
      if i == 0 {
        assert r[j] == s[j - 1];
      } else {
        assert r[i] == s[i - 1] && r[j] == s[j - 1];
      }
    }
  }

  /** sort.Slice over the deduplicated references.  Go's sort is not stable;
      any ordering of equal keys is allowed, and this is one of them. */
  function OrderRefs(refs: seq<ParamRef>, mysql: bool, dollar: bool): (r: seq<ParamRef>)
    ensures SortedBy(r, mysql || !dollar)
    ensures multiset(r) == multiset(refs)
    decreases |refs|
  {
    if refs == [] then []
    else
      assert refs == refs[..|refs| - 1] + [refs[|refs| - 1]];
      Insert(refs[|refs| - 1], OrderRefs(refs[..|refs| - 1], mysql, dollar), mysql || !dollar)
  }

  // ---------------------------------------------------------------------
  // Select-only option defaults

  datatype DefaultsError =
    | InvalidBoolValue(query: string, key: string, value: string)
    | NotSelect(query: string, key: string)
    | InvalidateOnSelect(query: string)

  predicate IsBoolText(v: string) {
    v == "true" || v == "false"
  }

  /** What an option map must satisfy for a select-only boolean key. */
  predicate SelectOnlyOk(isSelect: bool, key: string, options: map<string, string>) {
    key in options ==> IsBoolText(options[key]) && (isSelect || options[key] == "false")
  }

  /** validateOrDefaultSelectOnlyBoolOption: a missing key defaults to
      whether the statement is a SELECT; a present one must be a boolean and
      may be "true" only on a SELECT. */
  function ValidateOrDefaultSelectOnlyBoolOption(isSelect: bool, query: string, key: string,
                                                 options: map<string, string>)
    : (r: Result<map<string, string>, DefaultsError>)
    ensures r.Success? <==> SelectOnlyOk(isSelect, key, options)
    ensures r.Success? ==> key in r.value && IsBoolText(r.value[key])
    ensures r.Success? ==> (r.value[key] == "true" ==> isSelect)
    ensures r.Success? ==> key !in options ==> (r.value[key] == "true" <==> isSelect)
    ensures r.Success? ==> forall k :: k != key ==> (k in r.value <==> k in options)
    ensures r.Success? ==> forall k :: k in options ==> k in r.value && r.value[k] == options[k]
    ensures r.Success? ==> r.value.Keys == options.Keys + {key}
    ensures r.Failure? ==>
      && key in options
      && r.error == (if !IsBoolText(options[key]) then InvalidBoolValue(query, key, options[key])
                     else NotSelect(query, key))
  {
    if key !in options then
      Success(options[key := if isSelect then "true" else "false"])
    else
      var v := options[key];
      if !IsBoolText(v) then Failure(InvalidBoolValue(query, key, v))
      else if !isSelect && v == "true" then Failure(NotSelect(query, key))
      else Success(options)
  }

  /** What validateAndSetDefaultOptions accepts. */
  predicate DefaultsOk(isSelect: bool, options: map<string, string>) {
    && SelectOnlyOk(isSelect, GoOption.KeyCountIntent, options)
    && SelectOnlyOk(isSelect, GoOption.KeyAllowReplica, options)
    && !(isSelect && GoOption.KeyInvalidate in options)
  }

  /** validateAndSetDefaultOptions: defaults count_intent and allow_replica,
      then forbids invalidate on a SELECT. */
  function ValidateAndSetDefaultOptions(isSelect: bool, query: string, options: map<string, string>)
    : (r: Result<map<string, string>, DefaultsError>)
    ensures r.Success? <==> DefaultsOk(isSelect, options)
    ensures r.Success? ==>
      && GoOption.KeyCountIntent in r.value && IsBoolText(r.value[GoOption.KeyCountIntent])
      && GoOption.KeyAllowReplica in r.value && IsBoolText(r.value[GoOption.KeyAllowReplica])
    ensures r.Success? && !isSelect ==>
      r.value[GoOption.KeyCountIntent] == "false" && r.value[GoOption.KeyAllowReplica] == "false"
    ensures r.Success? ==> forall k :: k in options ==> k in r.value && r.value[k] == options[k]
    ensures r.Success? ==> r.value.Keys == options.Keys + {GoOption.KeyCountIntent, GoOption.KeyAllowReplica}
    ensures r.Success? && isSelect ==>
      && (GoOption.KeyCountIntent !in options ==> r.value[GoOption.KeyCountIntent] == "true")
      && (GoOption.KeyAllowReplica !in options ==> r.value[GoOption.KeyAllowReplica] == "true")
    // The checks run in order: count_intent, then allow_replica, then invalidate.
    ensures r.Failure? ==>
      var ci, ar := GoOption.KeyCountIntent, GoOption.KeyAllowReplica;
      r.error ==
        if !SelectOnlyOk(isSelect, ci, options) then
          (if !IsBoolText(options[ci]) then InvalidBoolValue(query, ci, options[ci]) else NotSelect(query, ci))
        else if !SelectOnlyOk(isSelect, ar, options) then
          (if !IsBoolText(options[ar]) then InvalidBoolValue(query, ar, options[ar]) else NotSelect(query, ar))
        else InvalidateOnSelect(query)
  {
    var o1 :- ValidateOrDefaultSelectOnlyBoolOption(isSelect, query, GoOption.KeyCountIntent, options);
    var o2 :- ValidateOrDefaultSelectOnlyBoolOption(isSelect, query, GoOption.KeyAllowReplica, o1);
    if isSelect && GoOption.KeyInvalidate in o2 then Failure(InvalidateOnSelect(query))
    else Success(o2)
  }

  /** Defaulting is idempotent: an accepted map is accepted again unchanged. */
  lemma DefaultsIdempotent(isSelect: bool, query: string, options: map<string, string>)
    requires ValidateAndSetDefaultOptions(isSelect, query, options).Success?
    ensures
      var o := ValidateAndSetDefaultOptions(isSelect, query, options).value;
      ValidateAndSetDefaultOptions(isSelect, query, o) == Success(o)
  {
  }

  // ---------------------------------------------------------------------
  // Error messages

  /** `%q` for a name without quotes, backslashes or unprintable characters. */
  function Quote(s: string): (r: string)
    ensures |r| == |s| + 2 && r[0] == '"' && r[|r| - 1] == '"' && r[1..|r| - 1] == s
  {
    "\"" + s + "\""
  }

  /** The message of each defaults error, naming the query first, as the
      other two messages of validateOrDefaultSelectOnlyBoolOption and
      validateAndSetDefaultOptions do. */
  function Message(e: DefaultsError): (m: string)
    ensures HasPrefix(m, "query " + Quote(e.query) + " ")
  {
    match e
    case InvalidBoolValue(query, key, value) => "query " + Quote(query) + " has invalid " + key + " value: " + value
    case NotSelect(query, key) => "query " + Quote(query) + " uses " + key + " option but is not a SELECT"
    case InvalidateOnSelect(query) => "query " + Quote(query) + " uses invalidate option but is a SELECT"
  }

  /** The "not a SELECT" message as the source formats it: the option key
      and the query name are passed in swapped order. */
  function NotSelectMessageAsWritten(query: string, key: string): (m: string)
    ensures HasPrefix(m, "query " + Quote(key) + " ")
  {
    "query " + Quote(key) + " uses " + query + " option but is not a SELECT"
  }

  /** A statement that is not a SELECT, named ListUsers, whose options set
      count_intent to "true", is rejected with the "not a SELECT" error for
      that query and key, the error whose message the next lemma compares. */
  lemma ListUsersNotSelect(options: map<string, string>)
    requires GoOption.KeyCountIntent in options && options[GoOption.KeyCountIntent] == "true"
    ensures ValidateAndSetDefaultOptions(false, "ListUsers", options)
      == Failure(NotSelect("ListUsers", "count_intent"))
  {
  }

  /** For a query ListUsers with count_intent "true" on a non-SELECT, the
      source's message names count_intent as the query. */
  lemma NotSelectMessageSwapsNames()
    ensures !HasPrefix(NotSelectMessageAsWritten("ListUsers", "count_intent"), "query " + Quote("ListUsers") + " ")
    ensures HasPrefix(Message(NotSelect("ListUsers", "count_intent")), "query " + Quote("ListUsers") + " ")
  {
    var m := NotSelectMessageAsWritten("ListUsers", "count_intent");
    assert m[7] == 'c';
    assert ("query " + Quote("ListUsers") + " ")[7] == 'L';
  }
}

=== FILE: config_validate.dfy ===
/** Validate of internal/config/validate.go: the checks on the sql
    entries of a configuration that generate Go code. */
module ConfigValidate {
  import opened Wrappers

  /** The Go generation settings of one entry. */
  datatype GoGen = GoGen(package: string, emitMethodsWithDBArgument: bool, emitPreparedQueries: bool)

  datatype Database = Database(uri: string)

  /** One sql entry: its Go settings, when it generates Go, and its
      database, when it names one. */
  datatype SQL = SQL(goGen: Option<GoGen>, database: Option<Database>)

  datatype ValidateError =
    | MutuallyExclusiveEmit
    | EmptyDatabaseURI
    | DuplicatePackage(name: string)

  /** The checks on one entry that need no other entry. */
  predicate EntryOk(g: GoGen, db: Option<Database>) {
    !(g.emitMethodsWithDBArgument && g.emitPreparedQueries) && (db.Some? ==> db.value.uri != "")
  }

  /** The reference rule: every entry that generates Go passes its own
      checks, and no two such entries share a package name. */
  predicate ValidConfig(sqls: seq<SQL>) {
    && (forall i :: 0 <= i < |sqls| && sqls[i].goGen.Some? ==> EntryOk(sqls[i].goGen.value, sqls[i].database))
    && (forall i, j :: 0 <= i < j < |sqls| && sqls[i].goGen.Some? && sqls[j].goGen.Some? ==>
          sqls[i].goGen.value.package != sqls[j].goGen.value.package)
  }

  /** The package names of the entries that generate Go. */
  function Packages(sqls: seq<SQL>): (ps: set<string>)
    ensures forall i :: 0 <= i < |sqls| && sqls[i].goGen.Some? ==> sqls[i].goGen.value.package in ps
    ensures forall p :: p in ps ==> exists i :: 0 <= i < |sqls| && sqls[i].goGen.Some? && sqls[i].goGen.value.package == p
    decreases |sqls|
  {
    if sqls == [] then {}
    else
      var rest := Packages(sqls[..|sqls| - 1]);
      var last := sqls[|sqls| - 1];
      assert forall i :: 0 <= i < |sqls| - 1 ==> sqls[..|sqls| - 1][i] == sqls[i];
      if last.goGen.Some? then rest + {last.goGen.value.package} else rest
  }

  /** The loop of Validate from entry i on, with the package names seen
      so far.  The first failing check stops it. */
  function ValidateFrom(sqls: seq<SQL>, i: nat, seen: set<string>): (r: Outcome<ValidateError>)
    requires i <= |sqls|
    ensures r == Fail(MutuallyExclusiveEmit) ==>
      exists k :: i <= k < |sqls| && sqls[k].goGen.Some?
        && sqls[k].goGen.value.emitMethodsWithDBArgument && sqls[k].goGen.value.emitPreparedQueries
    ensures r == Fail(EmptyDatabaseURI) ==>
      exists k :: i <= k < |sqls| && sqls[k].goGen.Some? && sqls[k].database == Some(Database(""))
    ensures r.Fail? && r.error.DuplicatePackage? ==>
      r.error.name in seen
      || exists k :: i <= k < |sqls| && sqls[k].goGen.Some? && sqls[k].goGen.value.package == r.error.name
    ensures r.Pass? ==>
      forall k :: i <= k < |sqls| && sqls[k].goGen.Some? ==>
        !(sqls[k].goGen.value.emitMethodsWithDBArgument && sqls[k].goGen.value.emitPreparedQueries)
        && sqls[k].database != Some(Database(""))
        && sqls[k].goGen.value.package !in seen
    decreases |sqls| - i
  {
    if i == |sqls| then Pass
    else
      match sqls[i].goGen
      case None => ValidateFrom(sqls, i + 1, seen)
      case Some(g) =>
        if g.emitMethodsWithDBArgument && g.emitPreparedQueries then Fail(MutuallyExclusiveEmit)
        else if sqls[i].database.Some? && sqls[i].database.value.uri == "" then Fail(EmptyDatabaseURI)
        else if g.package in seen then Fail(DuplicatePackage(g.package))
        else ValidateFrom(sqls, i + 1, seen + {g.package})
  }

  /** Validate */
  function Validate(sqls: seq<SQL>): (r: Outcome<ValidateError>)
    ensures r.Pass? <==> ValidConfig(sqls)
    ensures r == Fail(MutuallyExclusiveEmit) ==>
              exists i :: 0 <= i < |sqls| && sqls[i].goGen.Some?
                && sqls[i].goGen.value.emitMethodsWithDBArgument && sqls[i].goGen.value.emitPreparedQueries
    ensures r == Fail(EmptyDatabaseURI) ==>
              exists i :: 0 <= i < |sqls| && sqls[i].goGen.Some? && sqls[i].database == Some(Database(""))
    ensures r.Fail? && r.error.DuplicatePackage? ==>
              exists i, j :: 0 <= i < j < |sqls| && sqls[i].goGen.Some? && sqls[j].goGen.Some?
                && sqls[i].goGen.value.package == sqls[j].goGen.value.package == r.error.name
  {
    ValidateFromSound(sqls, 0, {});
    ValidateFrom(sqls, 0, {})
  }

  /** The loop passes exactly when the remaining entries are valid and
      none repeats a package seen before; a failure names its cause. */
  lemma {:induction false} ValidateFromSound(sqls: seq<SQL>, i: nat, seen: set<string>)
    requires i <= |sqls|
    requires seen == Packages(sqls[..i])
    ensures var r := ValidateFrom(sqls, i, seen);
      && (r.Pass? <==> ValidFrom(sqls, i))
      && (r == Fail(MutuallyExclusiveEmit) ==>
            exists k :: i <= k < |sqls| && sqls[k].goGen.Some?
              && sqls[k].goGen.value.emitMethodsWithDBArgument && sqls[k].goGen.value.emitPreparedQueries)
      && (r == Fail(EmptyDatabaseURI) ==>
            exists k :: i <= k < |sqls| && sqls[k].goGen.Some? && sqls[k].database == Some(Database("")))
      && (r.Fail? && r.error.DuplicatePackage? ==>
            exists k, j :: 0 <= k < j < |sqls| && sqls[k].goGen.Some? && sqls[j].goGen.Some?
              && sqls[k].goGen.value.package == sqls[j].goGen.value.package == r.error.name)
    decreases |sqls| - i
  {
    if i == |sqls| {
      assert sqls[..i] == sqls;
    } else {
      PackagesStep(sqls, i);
      ValidFromStep(sqls, i);
      match sqls[i].goGen
      case None =>
        ValidateFromSound(sqls, i + 1, seen);
      case Some(g) =>
        if g.emitMethodsWithDBArgument && g.emitPreparedQueries {
        } else if sqls[i].database.Some? && sqls[i].database.value.uri == "" {
          assert sqls[i].database == Some(Database(""));
        } else if g.package in seen {
          SeenEarlier(sqls, i);
        } else {
          ValidateFromSound(sqls, i + 1, seen + {g.package});
        }
    }
  }

  /** The package names up to entry i + 1 add entry i's, when it has one. */
  lemma PackagesStep(sqls: seq<SQL>, i: nat)
    requires i < |sqls|
    ensures Packages(sqls[..i + 1]) ==
              Packages(sqls[..i]) + (if sqls[i].goGen.Some? then {sqls[i].goGen.value.package} else {})
  {
    assert sqls[..i + 1][..i] == sqls[..i];
    assert sqls[..i + 1][i] == sqls[i];
  }

  /** A package name seen before entry i belongs to an earlier entry. */
  lemma SeenEarlier(sqls: seq<SQL>, i: nat)
    requires i < |sqls| && sqls[i].goGen.Some? && sqls[i].goGen.value.package in Packages(sqls[..i])
    ensures exists k, j :: 0 <= k < j < |sqls| && sqls[k].goGen.Some? && sqls[j].goGen.Some?
              && sqls[k].goGen.value.package == sqls[j].goGen.value.package == sqls[i].goGen.value.package
  {
    var p := sqls[i].goGen.value.package;
    var k :| 0 <= k < |sqls[..i]| && sqls[..i][k].goGen.Some? && sqls[..i][k].goGen.value.package == p;
    assert sqls[k] == sqls[..i][k];
  }

  /** ValidConfig restricted to the entries from i on, checked also
      against the package names of the entries before i. */
  predicate ValidFrom(sqls: seq<SQL>, i: nat)
    requires i <= |sqls|
  {
    && (forall k :: i <= k < |sqls| && sqls[k].goGen.Some? ==> EntryOk(sqls[k].goGen.value, sqls[k].database))
    && (forall k, j :: 0 <= k < j < |sqls| && i <= j && sqls[k].goGen.Some? && sqls[j].goGen.Some? ==>
          sqls[k].goGen.value.package != sqls[j].goGen.value.package)
  }

  /** How ValidFrom at i relates to ValidFrom at i + 1. */
  lemma ValidFromStep(sqls: seq<SQL>, i: nat)
    requires i < |sqls|
    ensures sqls[i].goGen.None? ==> (ValidFrom(sqls, i) <==> ValidFrom(sqls, i + 1))
    ensures sqls[i].goGen.Some? ==>
              (ValidFrom(sqls, i) <==>
                 && EntryOk(sqls[i].goGen.value, sqls[i].database)
                 && sqls[i].goGen.value.package !in Packages(sqls[..i])
                 && ValidFrom(sqls, i + 1))
  {
    if sqls[i].goGen.Some? {
      var p := sqls[i].goGen.value.package;
      if p in Packages(sqls[..i]) {
        var k :| 0 <= k < |sqls[..i]| && sqls[..i][k].goGen.Some? && sqls[..i][k].goGen.value.package == p;
        assert sqls[k] == sqls[..i][k];
      }
      if ValidFrom(sqls, i + 1) && p !in Packages(sqls[..i]) {
        forall k | 0 <= k < i && sqls[k].goGen.Some?
          ensures sqls[k].goGen.value.package != p
        {
          assert sqls[..i][k] == sqls[k];
        }
      }
    }
  }

  /** The rule for the whole configuration is ValidFrom at the start. */
  lemma ValidFromStart(sqls: seq<SQL>)
    ensures ValidFrom(sqls, 0) <==> ValidConfig(sqls)
  {
  }

  /** Entries without Go settings are skipped: adding one anywhere does not
      change the verdict. */
  lemma SkippedEntryIrrelevant(a: seq<SQL>, b: seq<SQL>, db: Option<Database>)
    ensures Validate(a + [SQL(None, db)] + b).Pass? <==> Validate(a + b).Pass?
  {
    if ValidConfig(a + b) {
      SkippedEntryAdded(a, b, db);
    }
    if ValidConfig(a + [SQL(None, db)] + b) {
      SkippedEntryRemoved(a, b, db);
    }
  }

  lemma SkippedEntryAdded(a: seq<SQL>, b: seq<SQL>, db: Option<Database>)
    requires ValidConfig(a + b)
    ensures ValidConfig(a + [SQL(None, db)] + b)
  {
    var s := a + [SQL(None, db)] + b;
    var t := a + b;
    assert forall i :: 0 <= i < |a| ==> s[i] == t[i];
    assert forall i :: |a| < i < |s| ==> s[i] == t[i - 1];
    forall i, j | 0 <= i < j < |s| && s[i].goGen.Some? && s[j].goGen.Some?
      ensures s[i].goGen.value.package != s[j].goGen.value.package
    {
      var i' := if i < |a| then i else i - 1;
      var j' := if j < |a| then j else j - 1;
      assert s[i] == t[i'] && s[j] == t[j'];
    }
  }

  lemma SkippedEntryRemoved(a: seq<SQL>, b: seq<SQL>, db: Option<Database>)
    requires ValidConfig(a + [SQL(None, db)] + b)
    ensures ValidConfig(a + b)
  {
    var s := a + [SQL(None, db)] + b;
    var t := a + b;
    assert forall i :: 0 <= i < |a| ==> s[i] == t[i];
    assert forall i :: |a| < i < |s| ==> s[i] == t[i - 1];
    forall i, j | 0 <= i < j < |t| && t[i].goGen.Some? && t[j].goGen.Some?
      ensures t[i].goGen.value.package != t[j].goGen.value.package
    {
      var i' := if i < |a| then i else i + 1;
      var j' := if j < |a| then j else j + 1;
      assert s[i'] == t[i] && s[j'] == t[j];
    }
    forall i | 0 <= i < |t| && t[i].goGen.Some?
      ensures EntryOk(t[i].goGen.value, t[i].database)
    {
      var i' := if i < |a| then i else i + 1;
      assert s[i'] == t[i];
    }
  }
}

=== FILE: golang_driver.dfy ===
/** The SQL driver choice of internal/codegen/golang/driver.go: the
    configured sql_package name selects a driver, and a driver names the
    package the generated code imports. */
module GoDriver {
  const PackagePGXV4: string := "pgx/v4"
  const PackagePGXV5: string := "pgx/v5"
  const PackageStandard: string := "database/sql"
  const PackageWPGX: string := "wpgx"

  /** The sql_package values parseDriver recognises. */
  const KnownPackages: set<string> := {PackagePGXV4, PackagePGXV5, PackageWPGX}

  datatype SQLDriver = PGXV4 | PGXV5 | LibPQ | GoSQLDriverMySQL | WPGX

  /** The import path each driver stands for. */
  function ImportPath(d: SQLDriver): string {
    match d
    case PGXV4 => "github.com/jackc/pgx/v4"
    case PGXV5 => "github.com/jackc/pgx/v5"
    case LibPQ => "github.com/lib/pq"
    case GoSQLDriverMySQL => "github.com/go-sql-driver/mysql"
    case WPGX => "github.com/stumble/wpgx"
  }

  /** parseDriver: the three recognised package names select their
      driver; anything else, the empty string included, selects lib/pq. */
  function ParseDriver(sqlPackage: string): (d: SQLDriver)
    ensures d == PGXV4 <==> sqlPackage == PackagePGXV4
    ensures d == PGXV5 <==> sqlPackage == PackagePGXV5
    ensures d == WPGX <==> sqlPackage == PackageWPGX
    ensures d == LibPQ <==> sqlPackage !in KnownPackages
    ensures d != GoSQLDriverMySQL
  {
    if sqlPackage == PackagePGXV4 then PGXV4
    else if sqlPackage == PackagePGXV5 then PGXV5
    else if sqlPackage == PackageWPGX then WPGX
    else LibPQ
  }

  /** IsWPGX: the driver whose import path is wpgx's.  The source compares
      the driver's string, which is its import path. */
  predicate IsWPGX(d: SQLDriver)
    ensures IsWPGX(d) <==> ImportPath(d) == "github.com/stumble/wpgx"
  {
    d == WPGX
  }

  /** IsPGX: the drivers built on pgx, by import path. */
  predicate IsPGX(d: SQLDriver)
    ensures IsPGX(d) <==>
              ImportPath(d) in {"github.com/jackc/pgx/v4", "github.com/jackc/pgx/v5", "github.com/stumble/wpgx"}
  {
    d == PGXV4 || d == PGXV5 || d == WPGX
  }

  /** IsGoSQLDriverMySQL: the driver whose import path is the MySQL one. */
  predicate IsGoSQLDriverMySQL(d: SQLDriver)
    ensures IsGoSQLDriverMySQL(d) <==> ImportPath(d) == "github.com/go-sql-driver/mysql"
  {
    d == GoSQLDriverMySQL
  }

  /** Package: the recognised package name of a pgx-based driver, and
      database/sql for the others. */
  function Package(d: SQLDriver): (p: string)
    ensures IsPGX(d) <==> p in KnownPackages
    ensures !IsPGX(d) <==> p == PackageStandard
  {
    match d
    case PGXV4 => PackagePGXV4
    case PGXV5 => PackagePGXV5
    case WPGX => PackageWPGX
    case _ => PackageStandard
  }

  /** WPGX is one of the pgx-based drivers. */
  lemma WPGXIsPGX(d: SQLDriver)
    ensures IsWPGX(d) ==> IsPGX(d)
  {
  }

  /** Package undoes parseDriver on the recognised names and maps every
      other name to database/sql. */
  lemma PackageOfParsed(sqlPackage: string)
    ensures Package(ParseDriver(sqlPackage)) == (if sqlPackage in KnownPackages then sqlPackage else PackageStandard)
  {
  }

  /** parseDriver undoes Package on every driver it can produce. */
  lemma ParsedOfPackage(d: SQLDriver)
    requires d != GoSQLDriverMySQL
    ensures ParseDriver(Package(d)) == d
  {
  }

  /** parseDriver never returns the MySQL driver. */
  lemma ParsedNeverMySQL(sqlPackage: string)
    ensures !IsGoSQLDriverMySQL(ParseDriver(sqlPackage))
  {
  }

  /** Distinct drivers stand for distinct import paths. */
  lemma ImportPathInjective(d1: SQLDriver, d2: SQLDriver)
    requires ImportPath(d1) == ImportPath(d2)
    ensures d1 == d2
  {
  }
}

=== FILE: golang_dumploader.dfy ===
/** DumpLoader of internal/codegen/golang/dumploader.go: the column and
    placeholder lists of the generated dump (SELECT) and load (INSERT)
    statements of a table's main struct. */
module GoDumpLoader {
  import opened Wrappers
  import opened Strings
  import GoQuery

  datatype DumpLoader = DumpLoader(mainStruct: Option<GoQuery.Struct>)

  /** Every method dereferences the main struct (and panics without one). */
  predicate HasMainStruct(d: DumpLoader) {
    d.mainStruct.Some?
  }

  function FieldsOf(d: DumpLoader): seq<GoQuery.Field>
    requires HasMainStruct(d)
  {
    d.mainStruct.value.fields
  }

  /** The prefixed Go names of the main struct's fields, in order. */
  function PrefixedNames(d: DumpLoader, prefix: string): (names: seq<string>)
    requires HasMainStruct(d)
    ensures |names| == |FieldsOf(d)|
    ensures forall i :: 0 <= i < |names| ==> names[i] == prefix + FieldsOf(d)[i].name
  {
    var fs := FieldsOf(d);
    seq(|fs|, i requires 0 <= i < |fs| => prefix + fs[i].name)
  }

  /** Fields(prefix): the prefixed field names, comma separated.  It reads
      back, split at the commas, as the prefixed names in field order when
      no name holds a comma; no fields give "". */
  function Fields(d: DumpLoader, prefix: string): (r: string)
    requires HasMainStruct(d)
    ensures FieldsOf(d) == [] ==> r == ""
    ensures (FieldsOf(d) != [] && forall i :: 0 <= i < |FieldsOf(d)| ==> ',' !in prefix + FieldsOf(d)[i].name)
              ==> Split(r, ',') == PrefixedNames(d, prefix)
  {
    var names := PrefixedNames(d, prefix);
    JoinReadBack(names, ',');
    Join(names, ",")
  }

  /** The column names of the main struct's fields, in order. */
  function DBNames(fs: seq<GoQuery.Field>): (names: seq<string>)
    ensures |names| == |fs|
    ensures forall i :: 0 <= i < |names| ==> names[i] == fs[i].dbName
  {
    seq(|fs|, i requires 0 <= i < |fs| => fs[i].dbName)
  }

  /** FieldDBNames: the column names, comma separated.  It reads back,
      split at the commas, as the column names in field order; no fields
      give "". */
  function FieldDBNames(d: DumpLoader): (r: string)
    requires HasMainStruct(d)
    ensures FieldsOf(d) == [] ==> r == ""
    ensures FieldsOf(d) != [] && CommaFreeColumns(FieldsOf(d)) ==> Split(r, ',') == DBNames(FieldsOf(d))
  {
    var names := DBNames(FieldsOf(d));
    JoinReadBack(names, ',');
    Join(names, ",")
  }

  /** No column name holds a comma. */
  predicate CommaFreeColumns(fs: seq<GoQuery.Field>) {
    forall i :: 0 <= i < |fs| ==> ',' !in fs[i].dbName
  }

  /** The column types DumpSortByFields orders by: nine scalar Go types
      and their pointer forms. */
  const ScalarTypes: set<string> :=
    {"int", "int16", "int32", "int64", "float32", "float64", "string", "bool", "time.Time"}

  predicate Sortable(typ: string) {
    typ in ScalarTypes || (HasPrefix(typ, "*") && typ[1..] in ScalarTypes)
  }

  /** The column names of the sortable fields, in order. */
  function SortColumns(fs: seq<GoQuery.Field>): (cols: seq<string>)
    ensures |cols| <= |fs|
    ensures forall k :: 0 <= k < |cols| ==> exists i :: 0 <= i < |fs| && Sortable(fs[i].typ) && cols[k] == fs[i].dbName
    ensures forall i :: 0 <= i < |fs| && Sortable(fs[i].typ) ==> fs[i].dbName in cols
    decreases |fs|
  {
    if fs == [] then []
    else
      var rest := SortColumns(fs[1..]);
      assert forall i :: 1 <= i < |fs| ==> fs[i] == fs[1..][i - 1];
      if Sortable(fs[0].typ) then [fs[0].dbName] + rest else rest
  }

  /** SortColumns is a filter: the sort columns of a concatenation are
      those of each part, in order. */
  lemma {:induction false} SortColumnsAppend(a: seq<GoQuery.Field>, b: seq<GoQuery.Field>)
    ensures SortColumns(a + b) == SortColumns(a) + SortColumns(b)
    decreases |a|
  {
    if a == [] {
      assert a + b == b;
    } else {
      var ab := a + b;
      assert ab[1..] == a[1..] + b && ab[0] == a[0];
      SortColumnsAppend(a[1..], b);
      SortColumnsHead(ab);
      SortColumnsHead(a);
      var h := if Sortable(a[0].typ) then [a[0].dbName] else [];
      Regroup(SortColumns(ab), SortColumns(a), h, SortColumns(a[1..]), SortColumns(b));
    }
  }

  /** x == h + (y + z) and w == h + y give x == w + z. */
  lemma Regroup<T>(x: seq<T>, w: seq<T>, h: seq<T>, y: seq<T>, z: seq<T>)
    requires x == h + (y + z) && w == h + y
    ensures x == w + z
  {
  }

  /** The first field's contribution, then the rest's. */
  lemma SortColumnsHead(fs: seq<GoQuery.Field>)
    requires fs != []
    ensures SortColumns(fs) == (if Sortable(fs[0].typ) then [fs[0].dbName] else []) + SortColumns(fs[1..])
  {
  }

  /** One field contributes its column exactly when its type is sortable. */
  lemma SortColumnsOne(f: GoQuery.Field)
    ensures SortColumns([f]) == if Sortable(f.typ) then [f.dbName] else []
  {
    assert [f][1..] == [];
  }

  /** Sort columns are columns, so they are comma free when all columns are. */
  lemma {:induction false} SortColumnsCommaFree(fs: seq<GoQuery.Field>)
    ensures CommaFreeColumns(fs) ==> forall k :: 0 <= k < |SortColumns(fs)| ==> ',' !in SortColumns(fs)[k]
    decreases |fs|
  {
    if fs != [] && CommaFreeColumns(fs) {
      assert CommaFreeColumns(fs[1..]) by {
        forall i | 0 <= i < |fs| - 1 ensures ',' !in fs[1..][i].dbName {
          assert fs[1..][i] == fs[i + 1];
        }
      }
      SortColumnsCommaFree(fs[1..]);
      SortColumnsHead(fs);
      var h := if Sortable(fs[0].typ) then [fs[0].dbName] else [];
      var rest := SortColumns(fs[1..]);
      assert ',' !in fs[0].dbName;
      forall k | 0 <= k < |SortColumns(fs)| ensures ',' !in SortColumns(fs)[k] {
        if k < |h| {
          assert SortColumns(fs)[k] == fs[0].dbName;
        } else {
          assert SortColumns(fs)[k] == rest[k - |h|];
        }
      }
    }
  }

  /** With every field sortable, the sort columns are all the columns. */
  lemma {:induction false} AllSortable(fs: seq<GoQuery.Field>)
    requires forall i :: 0 <= i < |fs| ==> Sortable(fs[i].typ)
    ensures SortColumns(fs) == DBNames(fs)
    decreases |fs|
  {
    if fs != [] {
      AllSortable(fs[1..]);
      assert DBNames(fs) == [fs[0].dbName] + DBNames(fs[1..]);
    }
  }

  /** With no field sortable, there are no sort columns. */
  lemma {:induction false} NoneSortable(fs: seq<GoQuery.Field>)
    requires forall i :: 0 <= i < |fs| ==> !Sortable(fs[i].typ)
    ensures SortColumns(fs) == []
    decreases |fs|
  {
    if fs != [] {
      NoneSortable(fs[1..]);
    }
  }

  /** DumpSortByFields: the sortable columns, comma separated.  It reads
      back as the sortable columns in field order, and is "" when no field
      is sortable. */
  function DumpSortByFields(d: DumpLoader): (r: string)
    requires HasMainStruct(d)
    ensures SortColumns(FieldsOf(d)) == [] ==> r == ""
    ensures (SortColumns(FieldsOf(d)) != [] && CommaFreeColumns(FieldsOf(d)))
              ==> Split(r, ',') == SortColumns(FieldsOf(d))
  {
    var cols := SortColumns(FieldsOf(d));
    SortColumnsCommaFree(FieldsOf(d));
    JoinReadBack(cols, ',');
    Join(cols, ",")
  }

  /** The placeholders `$1`, ..., `$n`. */
  function Placeholders(n: nat): (ps: seq<string>)
    ensures |ps| == n
    ensures forall i :: 0 <= i < n ==> ps[i] == "$" + Decimal(i + 1)
  {
    seq(n, i requires 0 <= i < n => "$" + Decimal(i + 1))
  }

  /** ParamList: one placeholder per field, comma separated.  It reads back
      as `$1`, ..., `$n` for n fields, and is "" for none. */
  function ParamList(d: DumpLoader): (r: string)
    requires HasMainStruct(d)
    ensures FieldsOf(d) == [] ==> r == ""
    ensures FieldsOf(d) != [] ==> Split(r, ',') == Placeholders(|FieldsOf(d)|)
  {
    var ps := Placeholders(|FieldsOf(d)|);
    PlaceholdersCommaFree(|FieldsOf(d)|);
    JoinReadBack(ps, ',');
    Join(ps, ",")
  }

  lemma PlaceholdersCommaFree(n: nat)
    ensures forall i :: 0 <= i < n ==> ',' !in Placeholders(n)[i]
  {
    var ps := Placeholders(n);
    forall i | 0 <= i < n ensures ',' !in ps[i] {
      var digits := Decimal(i + 1);
      assert ps[i] == "$" + digits;
      assert forall k :: 0 <= k < |digits| ==> digits[k] != ',';
    }
  }

  /** The k-th placeholder names parameter k + 1. */
  lemma PlaceholderNumbers(n: nat, k: nat)
    requires k < n
    ensures var p := Placeholders(n)[k];
      p[0] == '$' && (forall j :: 1 <= j < |p| ==> IsDigit(p[j])) && DecimalValue(p[1..]) == k + 1
  {
    var p := Placeholders(n)[k];
    assert p[1..] == Decimal(k + 1);
  }

  /** DumpSQL: select every column of the table, ordered by the sortable
      ones.  The SELECT list reads back as the columns and the ORDER BY
      list as the sortable columns, both in field order. */
  function DumpSQL(d: DumpLoader): (r: string)
    requires HasMainStruct(d)
    ensures FieldsOf(d) != [] && SortColumns(FieldsOf(d)) != [] && CommaFreeColumns(FieldsOf(d)) ==>
              exists columns, sortBy ::
                && r == "SELECT " + columns + " FROM \\\"" + d.mainStruct.value.tableName + "\\\" ORDER BY "
                        + sortBy + " ASC;"
                && Split(columns, ',') == DBNames(FieldsOf(d))
                && Split(sortBy, ',') == SortColumns(FieldsOf(d))
  {
    "SELECT " + FieldDBNames(d) + " FROM \\\"" + d.mainStruct.value.tableName + "\\\" ORDER BY "
      + DumpSortByFields(d) + " ASC;"
  }

  /** LoadSQL: insert one row, one placeholder per column.  The INSERT
      names as many columns as it has placeholders, and column i is bound
      to placeholder i + 1. */
  function LoadSQL(d: DumpLoader): (r: string)
    requires HasMainStruct(d)
    ensures FieldsOf(d) != [] && CommaFreeColumns(FieldsOf(d)) ==>
              exists columns, params ::
                && r == "INSERT INTO \\\"" + d.mainStruct.value.tableName + "\\\" (" + columns
                        + ") VALUES (" + params + ");"
                && |Split(columns, ',')| == |Split(params, ',')| == |FieldsOf(d)|
                && forall i :: 0 <= i < |FieldsOf(d)| ==>
                     Split(columns, ',')[i] == FieldsOf(d)[i].dbName && Split(params, ',')[i] == "$" + Decimal(i + 1)
  {
    "INSERT INTO \\\"" + d.mainStruct.value.tableName + "\\\" (" + FieldDBNames(d) + ") VALUES (" + ParamList(d) + ");"
  }
}

=== FILE: golang_option.dfy ===
/** The per-query code-generation options of
    internal/codegen/golang/option.go: a closed set of keys, boolean flags
    that accept only "true"/"false", minimum durations, and a list of queries
    whose cache entries a mutation invalidates. */
module GoOption {
  import opened Wrappers
  import opened Strings

  const KeyCache: string := "cache"
  const KeyInvalidate: string := "invalidate"
  const KeyCountIntent: string := "count_intent"
  const KeyTimeout: string := "timeout"
  const KeyAllowReplica: string := "allow_replica"

  /** The only keys an option map may carry. */
  const OptionKeys: set<string> := {KeyCache, KeyInvalidate, KeyCountIntent, KeyTimeout, KeyAllowReplica}

  /** time.Duration counts nanoseconds. */
  const Millisecond: int := 1_000_000

  /** WPgxOption; durations in nanoseconds. */
  datatype WPgxOption = WPgxOption(
    cache: int,
    invalidates: seq<string>,
    countIntent: bool,
    timeout: int,
    allowReplica: bool)

  const ZeroOption: WPgxOption := WPgxOption(0, [], false, 0, false)

  datatype OptionError =
    | BadDuration(value: string)
    | CacheTooShort(value: string)
    | UnknownInvalidate(name: string)
    | UnknownCountIntent(value: string)
    | TimeoutTooShort(value: string)
    | UnknownAllowReplica(value: string)
    | UnknownOption(key: string)

  /** time.ParseDuration, whose code is not part of this model: the duration
      in nanoseconds, or None when the text is not a duration. */
  type DurationParser = string -> Option<int>

  /** The characters the invalidate list is trimmed of: `" []"`. */
  const ListCutset: set<char> := {' ', '[', ']'}

  /** The query names an invalidate value lists, in order: brackets and
      spaces trimmed off, split on commas, each piece space-trimmed. */
  function InvalidateNames(v: string): (names: seq<string>)
    ensures |names| == |Split(Trim(v, ListCutset), ',')|
    ensures forall i :: 0 <= i < |names| ==> names[i] == TrimSpace(Split(Trim(v, ListCutset), ',')[i])
  {
    var parts := Split(Trim(v, ListCutset), ',');
    seq(|parts|, i requires 0 <= i < |parts| => TrimSpace(parts[i]))
  }

  /** Every listed name is a known query. */
  predicate AllKnown(names: seq<string>, queryNames: set<string>) {
    forall i :: 0 <= i < |names| ==> names[i] in queryNames
  }

  /** The inner loop over the invalidate list: stops at the first unknown
      name, otherwise appends every name. */
  function AppendKnown(acc: seq<string>, names: seq<string>, queryNames: set<string>): (r: Result<seq<string>, OptionError>)
    ensures r.Success? <==> AllKnown(names, queryNames)
    ensures r.Success? ==> r.value == acc + names
    ensures r.Failure? ==> exists i :: 0 <= i < |names| && r.error == UnknownInvalidate(names[i]) && names[i] !in queryNames
    decreases |names|
  {
    if names == [] then Success(acc)
    else if names[0] !in queryNames then Failure(UnknownInvalidate(names[0]))
    else
      var r := AppendKnown(acc + [names[0]], names[1..], queryNames);
      assert forall i :: 1 <= i < |names| ==> names[i] == names[1..][i - 1];
      assert r.Success? ==> acc + [names[0]] + names[1..] == acc + names;
      r
  }

  /** A duration option: it must parse and be at least one millisecond. */
  function Duration(v: string, parse: DurationParser, tooShort: OptionError): (r: Result<int, OptionError>)
    ensures r.Success? <==> parse(v).Some? && parse(v).value >= Millisecond
    ensures r.Success? ==> r.value == parse(v).value
  {
    match parse(v)
    case None => Failure(BadDuration(v))
    case Some(d) => if d < Millisecond then Failure(tooShort) else Success(d)
  }

  /** A boolean option spelled exactly "true" or "false". */
  function Bool(v: string, unknown: OptionError): (r: Result<bool, OptionError>)
    ensures r.Success? <==> v == "true" || v == "false"
    ensures r.Success? ==> (r.value <==> v == "true")
  {
    if v == "true" then Success(true)
    else if v == "false" then Success(false)
    else Failure(unknown)
  }

  /** One iteration of parseOption's loop over the map. */
  function ApplyOption(rv: WPgxOption, k: string, v: string, queryNames: set<string>, parse: DurationParser)
    : (r: Result<WPgxOption, OptionError>)
    ensures r.Failure? && k == KeyCache ==> r.error == BadDuration(v) || r.error == CacheTooShort(v)
    ensures r.Failure? && k == KeyTimeout ==> r.error == BadDuration(v) || r.error == TimeoutTooShort(v)
    ensures r.Failure? && k == KeyInvalidate ==> r.error.UnknownInvalidate? && r.error.name !in queryNames
    ensures r.Failure? && k == KeyCountIntent ==> r.error == UnknownCountIntent(v)
    ensures r.Failure? && k == KeyAllowReplica ==> r.error == UnknownAllowReplica(v)
    ensures r.Failure? ==> (r.error == UnknownOption(k) <==> k !in OptionKeys)
  {
    KeysDistinct();
    if k == KeyCache then
      var d :- Duration(v, parse, CacheTooShort(v));
      Success(rv.(cache := d))
    else if k == KeyInvalidate then
      var names :- AppendKnown(rv.invalidates, InvalidateNames(v), queryNames);
      Success(rv.(invalidates := names))
    else if k == KeyCountIntent then
      var b :- Bool(v, UnknownCountIntent(v));
      Success(rv.(countIntent := b))
    else if k == KeyTimeout then
      var d :- Duration(v, parse, TimeoutTooShort(v));
      Success(rv.(timeout := d))
    else if k == KeyAllowReplica then
      var b :- Bool(v, UnknownAllowReplica(v));
      Success(rv.(allowReplica := b))
    else
      Failure(UnknownOption(k))
  }

  /** When a single entry is acceptable, independently of the loop. */
  predicate ValidEntry(k: string, v: string, queryNames: set<string>, parse: DurationParser) {
    && k in OptionKeys
    && ((k == KeyCache || k == KeyTimeout) ==> parse(v).Some? && parse(v).value >= Millisecond)
    && (k == KeyInvalidate ==> AllKnown(InvalidateNames(v), queryNames))
    && ((k == KeyCountIntent || k == KeyAllowReplica) ==> v == "true" || v == "false")
  }

  /** The five keys are different words (their lengths already differ). */
  lemma KeysDistinct()
    ensures |KeyCache| == 5 && |KeyInvalidate| == 10 && |KeyCountIntent| == 12
    ensures |KeyTimeout| == 7 && |KeyAllowReplica| == 13
  {
  }

  /** An entry is rejected exactly when it is not valid. */
  lemma ApplyOptionValid(rv: WPgxOption, k: string, v: string, queryNames: set<string>, parse: DurationParser)
    ensures ApplyOption(rv, k, v, queryNames, parse).Success? <==> ValidEntry(k, v, queryNames, parse)
    ensures k !in OptionKeys ==> ApplyOption(rv, k, v, queryNames, parse) == Failure(UnknownOption(k))
  {
    KeysDistinct();
    var r := ApplyOption(rv, k, v, queryNames, parse);
    if k == KeyCache {
      assert r.Success? <==> Duration(v, parse, CacheTooShort(v)).Success?;
    } else if k == KeyInvalidate {
      assert r.Success? <==> AppendKnown(rv.invalidates, InvalidateNames(v), queryNames).Success?;
    } else if k == KeyCountIntent {
      assert r.Success? <==> Bool(v, UnknownCountIntent(v)).Success?;
    } else if k == KeyTimeout {
      assert r.Success? <==> Duration(v, parse, TimeoutTooShort(v)).Success?;
    } else if k == KeyAllowReplica {
      assert r.Success? <==> Bool(v, UnknownAllowReplica(v)).Success?;
    } else {
      assert k !in OptionKeys;
    }
  }

  /** An accepted entry sets only the field its key names. */
  lemma ApplyOptionSets(rv: WPgxOption, k: string, v: string, queryNames: set<string>, parse: DurationParser)
    requires ApplyOption(rv, k, v, queryNames, parse).Success?
    ensures
      var o := ApplyOption(rv, k, v, queryNames, parse).value;
      && o.cache == (if k == KeyCache then parse(v).value else rv.cache)
      && o.invalidates == (if k == KeyInvalidate then rv.invalidates + InvalidateNames(v) else rv.invalidates)
      && o.countIntent == (if k == KeyCountIntent then v == "true" else rv.countIntent)
      && o.timeout == (if k == KeyTimeout then parse(v).value else rv.timeout)
      && o.allowReplica == (if k == KeyAllowReplica then v == "true" else rv.allowReplica)
  {
  }

  /** The loop of parseOption, visiting the keys in `keys` order. */
  function ApplyAll(options: map<string, string>, keys: seq<string>, rv: WPgxOption,
                    queryNames: set<string>, parse: DurationParser): (r: Result<WPgxOption, OptionError>)
    requires forall i :: 0 <= i < |keys| ==> keys[i] in options
    ensures r.Failure? ==> exists i :: 0 <= i < |keys| && FailsWith(keys[i], options[keys[i]], queryNames, parse, r.error)
    decreases |keys|
  {
    if keys == [] then Success(rv)
    else
      match ApplyOption(rv, keys[0], options[keys[0]], queryNames, parse)
      case Failure(e) =>
        FailureIgnoresOption(rv, keys[0], options[keys[0]], queryNames, parse);
        assert FailsWith(keys[0], options[keys[0]], queryNames, parse, e);
        Failure(e)
      case Success(rv') =>
        var r := ApplyAll(options, keys[1..], rv', queryNames, parse);
        if r.Failure? then
          var i :| 0 <= i < |keys[1..]| && FailsWith(keys[1..][i], options[keys[1..][i]], queryNames, parse, r.error);
          assert keys[1..][i] == keys[i + 1];
          r
        else r
  }

  /** Entry `k: v` is rejected with error e, whatever was parsed before it. */
  predicate FailsWith(k: string, v: string, queryNames: set<string>, parse: DurationParser, e: OptionError) {
    ApplyOption(ZeroOption, k, v, queryNames, parse) == Failure(e)
  }

  /** Whether an entry is rejected, and with which error, does not depend
      on the option parsed so far. */
  lemma FailureIgnoresOption(rv: WPgxOption, k: string, v: string, queryNames: set<string>, parse: DurationParser)
    ensures ApplyOption(rv, k, v, queryNames, parse).Failure? ==>
              ApplyOption(ZeroOption, k, v, queryNames, parse) == ApplyOption(rv, k, v, queryNames, parse)
  {
    if k == KeyInvalidate {
      AppendKnownIgnoresAcc(rv.invalidates, [], InvalidateNames(v), queryNames);
    }
  }

  /** The first unknown name decides AppendKnown's error, whatever it has
      collected. */
  lemma {:induction false} AppendKnownIgnoresAcc(acc: seq<string>, acc': seq<string>, names: seq<string>,
                                                 queryNames: set<string>)
    ensures AppendKnown(acc, names, queryNames).Failure? ==>
              AppendKnown(acc', names, queryNames) == AppendKnown(acc, names, queryNames)
    decreases |names|
  {
    if names != [] && names[0] in queryNames {
      AppendKnownIgnoresAcc(acc + [names[0]], acc' + [names[0]], names[1..], queryNames);
    }
  }

  /** Go visits a map's keys in an unspecified order; `keys` is that order,
      a duplicate-free listing of the map's keys. */
  predicate IsKeyOrder(options: map<string, string>, keys: seq<string>) {
    && (forall k :: k in options ==> k in keys)
    && (forall i :: 0 <= i < |keys| ==> keys[i] in options)
    && (forall i, j :: 0 <= i < j < |keys| ==> keys[i] != keys[j])
  }

  /** parseOption.  Succeeds exactly when every entry is valid, whatever the
      visiting order; a failure is the error of some invalid entry. */
  function ParseOption(options: map<string, string>, keys: seq<string>, queryNames: set<string>,
                       parse: DurationParser): (r: Result<WPgxOption, OptionError>)
    requires IsKeyOrder(options, keys)
    ensures r.Success? <==> forall k :: k in options ==> ValidEntry(k, options[k], queryNames, parse)
    ensures r.Failure? ==> exists k :: k in options && FailsWith(k, options[k], queryNames, parse, r.error)
  {
    AllValid(options, keys, ZeroOption, queryNames, parse);
    ApplyAll(options, keys, ZeroOption, queryNames, parse)
  }

  lemma {:induction false} AllValid(options: map<string, string>, keys: seq<string>, rv: WPgxOption,
                                    queryNames: set<string>, parse: DurationParser)
    requires forall i :: 0 <= i < |keys| ==> keys[i] in options
    ensures ApplyAll(options, keys, rv, queryNames, parse).Success?
      <==> forall i :: 0 <= i < |keys| ==> ValidEntry(keys[i], options[keys[i]], queryNames, parse)
    decreases |keys|
  {
    if keys != [] {
      ApplyOptionValid(rv, keys[0], options[keys[0]], queryNames, parse);
      var o := ApplyOption(rv, keys[0], options[keys[0]], queryNames, parse);
      if o.Success? {
        AllValid(options, keys[1..], o.value, queryNames, parse);
        assert forall i :: 1 <= i < |keys| ==> keys[i] == keys[1..][i - 1];
      }
    }
  }

  /** The option a valid map denotes, read off the map directly. */
  function Denoted(options: map<string, string>, parse: DurationParser): WPgxOption {
    WPgxOption(
      if KeyCache in options && parse(options[KeyCache]).Some? then parse(options[KeyCache]).value else 0,
      if KeyInvalidate in options then InvalidateNames(options[KeyInvalidate]) else [],
      KeyCountIntent in options && options[KeyCountIntent] == "true",
      if KeyTimeout in options && parse(options[KeyTimeout]).Some? then parse(options[KeyTimeout]).value else 0,
      KeyAllowReplica in options && options[KeyAllowReplica] == "true")
  }

  /** The fields of `o` after visiting `keys` from `rv`: each visited key
      has set its own field from the map; every other field keeps the
      value it had in `rv`. */
  predicate SetsFields(o: WPgxOption, rv: WPgxOption, options: map<string, string>, keys: seq<string>,
                       parse: DurationParser)
    requires forall i :: 0 <= i < |keys| ==> keys[i] in options
  {
    && (KeyCache in keys ==> parse(options[KeyCache]).Some? && o.cache == parse(options[KeyCache]).value)
    && (KeyCache !in keys ==> o.cache == rv.cache)
    && o.invalidates == (if KeyInvalidate in keys then rv.invalidates + InvalidateNames(options[KeyInvalidate]) else rv.invalidates)
    && o.countIntent == (if KeyCountIntent in keys then options[KeyCountIntent] == "true" else rv.countIntent)
    && (KeyTimeout in keys ==> parse(options[KeyTimeout]).Some? && o.timeout == parse(options[KeyTimeout]).value)
    && (KeyTimeout !in keys ==> o.timeout == rv.timeout)
    && o.allowReplica == (if KeyAllowReplica in keys then options[KeyAllowReplica] == "true" else rv.allowReplica)
  }

  /** The fields an accepted loop sets: each key it visited sets its own
      field from the map; every other field keeps its starting value. */
  lemma {:induction false} ApplyAllFields(options: map<string, string>, keys: seq<string>, rv: WPgxOption,
                                          queryNames: set<string>, parse: DurationParser)
    requires forall i :: 0 <= i < |keys| ==> keys[i] in options
    requires forall i, j :: 0 <= i < j < |keys| ==> keys[i] != keys[j]
    requires ApplyAll(options, keys, rv, queryNames, parse).Success?
    ensures SetsFields(ApplyAll(options, keys, rv, queryNames, parse).value, rv, options, keys, parse)
    decreases |keys|
  {
    if keys != [] {
      var k := keys[0];
      var mid := ApplyOption(rv, k, options[k], queryNames, parse).value;
      assert forall j :: 0 <= j < |keys[1..]| ==> keys[1..][j] == keys[j + 1];
      ApplyAllFields(options, keys[1..], mid, queryNames, parse);
      SetsFieldsStep(options, keys, rv, mid, ApplyAll(options, keys[1..], mid, queryNames, parse).value,
                     queryNames, parse);
    }
  }

  /** Visiting one more key in front: its field comes from the map, the
      others from what the rest of the loop set. */
  lemma SetsFieldsStep(options: map<string, string>, keys: seq<string>, rv: WPgxOption, mid: WPgxOption,
                       o: WPgxOption, queryNames: set<string>, parse: DurationParser)
    requires keys != [] && forall i :: 0 <= i < |keys| ==> keys[i] in options
    requires forall i, j :: 0 <= i < j < |keys| ==> keys[i] != keys[j]
    requires ApplyOption(rv, keys[0], options[keys[0]], queryNames, parse) == Success(mid)
    requires SetsFields(o, mid, options, keys[1..], parse)
    ensures SetsFields(o, rv, options, keys, parse)
  {
    StepDurations(options, keys, rv, mid, o, queryNames, parse);
    StepFlags(options, keys, rv, mid, o, queryNames, parse);
  }

  /** SetsFieldsStep for the two duration fields. */
  lemma StepDurations(options: map<string, string>, keys: seq<string>, rv: WPgxOption, mid: WPgxOption,
                      o: WPgxOption, queryNames: set<string>, parse: DurationParser)
    requires keys != [] && forall i :: 0 <= i < |keys| ==> keys[i] in options
    requires forall i, j :: 0 <= i < j < |keys| ==> keys[i] != keys[j]
    requires ApplyOption(rv, keys[0], options[keys[0]], queryNames, parse) == Success(mid)
    requires SetsFields(o, mid, options, keys[1..], parse)
    ensures KeyCache in keys ==> parse(options[KeyCache]).Some? && o.cache == parse(options[KeyCache]).value
    ensures KeyCache !in keys ==> o.cache == rv.cache
    ensures KeyTimeout in keys ==> parse(options[KeyTimeout]).Some? && o.timeout == parse(options[KeyTimeout]).value
    ensures KeyTimeout !in keys ==> o.timeout == rv.timeout
  {
    ApplyOptionSets(rv, keys[0], options[keys[0]], queryNames, parse);
    KeysCons(keys);
    KeysDistinct();
  }

  /** SetsFieldsStep for the invalidate list and the two flags. */
  lemma StepFlags(options: map<string, string>, keys: seq<string>, rv: WPgxOption, mid: WPgxOption,
                  o: WPgxOption, queryNames: set<string>, parse: DurationParser)
    requires keys != [] && forall i :: 0 <= i < |keys| ==> keys[i] in options
    requires forall i, j :: 0 <= i < j < |keys| ==> keys[i] != keys[j]
    requires ApplyOption(rv, keys[0], options[keys[0]], queryNames, parse) == Success(mid)
    requires SetsFields(o, mid, options, keys[1..], parse)
    ensures o.invalidates == (if KeyInvalidate in keys then rv.invalidates + InvalidateNames(options[KeyInvalidate]) else rv.invalidates)
    ensures o.countIntent == (if KeyCountIntent in keys then options[KeyCountIntent] == "true" else rv.countIntent)
    ensures o.allowReplica == (if KeyAllowReplica in keys then options[KeyAllowReplica] == "true" else rv.allowReplica)
  {
    ApplyOptionSets(rv, keys[0], options[keys[0]], queryNames, parse);
    KeysCons(keys);
    KeysDistinct();
  }

  /** A duplicate-free listing is its head followed by a tail without it. */
  lemma KeysCons(keys: seq<string>)
    requires keys != [] && forall i, j :: 0 <= i < j < |keys| ==> keys[i] != keys[j]
    ensures keys[0] !in keys[1..]
    ensures forall x :: x in keys <==> x == keys[0] || x in keys[1..]
  {
    assert forall j :: 0 <= j < |keys[1..]| ==> keys[1..][j] == keys[j + 1] != keys[0];
    assert keys == [keys[0]] + keys[1..];
  }

  /** On success the result is the option the map denotes, so it does not
      depend on the order in which the map was visited. */
  lemma ParseOptionDenotes(options: map<string, string>, keys: seq<string>, queryNames: set<string>,
                           parse: DurationParser)
    requires IsKeyOrder(options, keys)
    requires ParseOption(options, keys, queryNames, parse).Success?
    ensures ParseOption(options, keys, queryNames, parse).value == Denoted(options, parse)
  {
    ApplyAllFields(options, keys, ZeroOption, queryNames, parse);
    AllValid(options, keys, ZeroOption, queryNames, parse);
    if KeyCache in options {
      var i :| 0 <= i < |keys| && keys[i] == KeyCache;
      assert ValidEntry(keys[i], options[keys[i]], queryNames, parse);
    }
    if KeyTimeout in options {
      var i :| 0 <= i < |keys| && keys[i] == KeyTimeout;
      assert ValidEntry(keys[i], options[keys[i]], queryNames, parse);
    }
    assert [] + InvalidateNames(if KeyInvalidate in options then options[KeyInvalidate] else "") ==
      InvalidateNames(if KeyInvalidate in options then options[KeyInvalidate] else "");
  }

  /** An empty option map yields the zero option. */
  lemma EmptyOptions(queryNames: set<string>, parse: DurationParser)
    ensures ParseOption(map[], [], queryNames, parse) == Success(ZeroOption)
  {
  }

  /** Two visiting orders of the same map agree on whether parsing
      succeeds, and on the result when it does. */
  lemma ParseOptionOrderIrrelevant(options: map<string, string>, keys1: seq<string>, keys2: seq<string>,
                                   queryNames: set<string>, parse: DurationParser)
    requires IsKeyOrder(options, keys1) && IsKeyOrder(options, keys2)
    ensures ParseOption(options, keys1, queryNames, parse).Success?
      == ParseOption(options, keys2, queryNames, parse).Success?
    ensures ParseOption(options, keys1, queryNames, parse).Success? ==>
      ParseOption(options, keys1, queryNames, parse) == ParseOption(options, keys2, queryNames, parse)
  {
    if ParseOption(options, keys1, queryNames, parse).Success? {
      ParseOptionDenotes(options, keys1, queryNames, parse);
      ParseOptionDenotes(options, keys2, queryNames, parse);
    }
  }
}

=== FILE: golang_query.dfy ===
/** The QueryValue and Query helpers of internal/codegen/golang/query.go
    that the Go templates call: argument lists, types, field lists and the
    WPgx connection and cache-key choices.  `toLowerCase` and `%q` quoting
    live outside that file and are parameters here. */
module GoQuery {
  import opened Wrappers
  import opened Strings
  import GoDriver
  import GoOption
  import Metadata

  /** A generated struct field: Go name, column name, Go type, and whether
      its column is a sqlc.slice parameter. */
  datatype Field = Field(name: string, dbName: string, typ: string, hasSqlcSlice: bool)

  /** A generated struct: its Go name, the table it mirrors, its fields. */
  datatype Struct = Struct(name: string, tableName: string, fields: seq<Field>)

  /** A query's argument or result.  `columnIsSqlcSlice` is the
      IsSqlcSlice flag of the value's column. */
  datatype QueryValue = QueryValue(
    emit: bool,
    emitPointer: bool,
    name: string,
    dbName: string,
    structure: Option<Struct>,
    typ: string,
    driver: GoDriver.SQLDriver,
    columnIsSqlcSlice: bool)

  datatype Argument = Argument(name: string, typ: string)

  predicate IsStruct(v: QueryValue) {
    v.structure.Some?
  }

  /** IsPointer: a pointer is emitted only for a struct. */
  predicate IsPointer(v: QueryValue)
    ensures IsPointer(v) ==> IsStruct(v) && v.emitPointer
    ensures !IsStruct(v) ==> !IsPointer(v)
  {
    v.emitPointer && v.structure.Some?
  }

  /** isEmpty: no type, no name and no struct.  An empty value has no
      type to ask for, and a value with a type is not empty. */
  predicate IsEmpty(v: QueryValue)
    ensures IsEmpty(v) ==> !HasType(v) && !IsStruct(v) && v.name == ""
    ensures !IsEmpty(v) && v.name == "" ==> HasType(v)
  {
    v.typ == "" && v.name == "" && v.structure.None?
  }

  /** Type() has an answer (it panics otherwise). */
  predicate HasType(v: QueryValue) {
    v.typ != "" || v.structure.Some?
  }

  /** Type: the explicit type when there is one, else the struct's name. */
  function Type(v: QueryValue): (t: string)
    requires HasType(v)
    ensures v.typ != "" ==> t == v.typ
    ensures v.typ == "" ==> t == v.structure.value.name
  {
    if v.typ != "" then v.typ else v.structure.value.name
  }

  /** DefineType: Type, behind a `*` exactly for pointer values. */
  function DefineType(v: QueryValue): (t: string)
    requires HasType(v)
    ensures IsPointer(v) <==> t == "*" + Type(v)
    ensures !IsPointer(v) <==> t == Type(v)
  {
    var t := Type(v);
    if IsPointer(v) then "*" + t else t
  }

  /** The argument list of a method taking `v`: nothing for an empty
      value, one lower-cased argument per field for a struct that is not
      emitted (none when it has no fields), and otherwise the single
      argument `v.name DefineType()`. */
  function Pairs(v: QueryValue, lower: string -> string): (r: seq<Argument>)
    requires IsEmpty(v) || HasType(v)
    ensures IsEmpty(v) ==> r == []
    ensures !v.emit && IsStruct(v) ==>
              && |r| == |v.structure.value.fields|
              && forall i :: 0 <= i < |r| ==>
                   r[i] == Argument(lower(v.structure.value.fields[i].name), v.structure.value.fields[i].typ)
    ensures !IsEmpty(v) && (v.emit || !IsStruct(v)) ==> r == [Argument(v.name, DefineType(v))]
  {
    if IsEmpty(v) then []
    else if !v.emit && IsStruct(v) then
      var fs := v.structure.value.fields;
      seq(|fs|, i requires 0 <= i < |fs| => Argument(lower(fs[i].name), fs[i].typ))
    else [Argument(v.name, DefineType(v))]
  }

  /** SlicePair: `name []DefineType()`, or nothing for an empty value. */
  function SlicePair(v: QueryValue): (r: string)
    requires IsEmpty(v) || HasType(v)
    ensures IsEmpty(v) <==> r == ""
    ensures !IsEmpty(v) ==> r == v.name + " []" + DefineType(v)
  {
    if IsEmpty(v) then "" else v.name + " []" + DefineType(v)
  }

  /** VariableForField: the generated code's name for field `f` of `v`.
      It is the method argument that Pairs declares for the field when the
      struct is passed field by field, and a selector on the single struct
      argument when the struct itself is passed. */
  function VariableForField(v: QueryValue, f: Field, lower: string -> string): (r: string)
    ensures !IsStruct(v) ==> r == v.name
    ensures IsStruct(v) && !v.emit ==>
              forall i :: 0 <= i < |v.structure.value.fields| && v.structure.value.fields[i] == f ==>
                r == Pairs(v, lower)[i].name
    ensures IsStruct(v) && v.emit ==> r == Pairs(v, lower)[0].name + "." + f.name
  {
    if !IsStruct(v) then v.name
    else if !v.emit then lower(f.name)
    else v.name + "." + f.name
  }

  /** A Go slice type other than []byte, handed to a driver that is not
      pgx-based and not as a sqlc.slice, is wrapped in pq.Array. */
  predicate NeedsArray(typ: string, sqlcSlice: bool, driver: GoDriver.SQLDriver) {
    !sqlcSlice && HasPrefix(typ, "[]") && typ != "[]byte" && !GoDriver.IsPGX(driver)
  }

  function ArrayWrapped(wrap: bool, s: string): string {
    if wrap then "pq.Array(" + s + ")" else s
  }

  /** The pieces Params lays out: one for a plain value, one per field of a
      struct, each wrapped in pq.Array when NeedsArray says so. */
  function ParamPieces(v: QueryValue, lower: string -> string): (out: seq<string>)
    ensures !IsStruct(v) ==> out == [ArrayWrapped(NeedsArray(v.typ, v.columnIsSqlcSlice, v.driver), v.name)]
    ensures IsStruct(v) ==>
              && |out| == |v.structure.value.fields|
              && forall i :: 0 <= i < |out| ==>
                   var f := v.structure.value.fields[i];
                   out[i] == ArrayWrapped(NeedsArray(f.typ, f.hasSqlcSlice, v.driver), VariableForField(v, f, lower))
  {
    if !IsStruct(v) then [ArrayWrapped(NeedsArray(v.typ, v.columnIsSqlcSlice, v.driver), v.name)]
    else
      var fs := v.structure.value.fields;
      seq(|fs|, i requires 0 <= i < |fs| =>
            ArrayWrapped(NeedsArray(fs[i].typ, fs[i].hasSqlcSlice, v.driver), VariableForField(v, fs[i], lower)))
  }

  /** The layout of an argument list: up to three pieces on one line,
      separated by commas; more pieces start on a new line, one per line,
      each followed by a comma.  Trailing commas and newlines are trimmed. */
  function ListLayout(out: seq<string>): string {
    if |out| <= 3 then TrimRight(Join(out, ","), {','})
    else TrimRight("\n" + Join(out + [""], ",\n"), {',', '\n'})
  }

  /** Params: the arguments passed on to the database call.  Up to three
      pieces are joined by commas on one line; more start on a new line and
      read back, line by line, as the pieces each followed by a comma but
      the last. */
  function Params(v: QueryValue, lower: string -> string): (r: string)
    ensures IsEmpty(v) ==> r == ""
    ensures !IsEmpty(v) ==> r == ListLayout(ParamPieces(v, lower))
    ensures var out := ParamPieces(v, lower);
      (!IsEmpty(v) && |out| <= 3 && (out == [] || CleanEnd(out[|out| - 1])))
        ==> r == Join(out, ",")
    ensures var out := ParamPieces(v, lower);
      (!IsEmpty(v) && |out| > 3 && (forall i :: 0 <= i < |out| ==> '\n' !in out[i]) && CleanEnd(out[|out| - 1]))
        ==> r != [] && r[0] == '\n' && Split(r[1..], '\n') == Commaed(out)
  {
    if IsEmpty(v) then ""
    else
      var out := ParamPieces(v, lower);
      if |out| <= 3 && (out == [] || CleanEnd(out[|out| - 1])) then
        ShortListLayout(out); ListLayout(out)
      else if |out| > 3 && (forall i :: 0 <= i < |out| ==> '\n' !in out[i]) && CleanEnd(out[|out| - 1]) then
        LongListLayout(out); ListLayout(out)
      else
        ListLayout(out)
  }

  /** The lines of a long list: every piece but the last carries its comma. */
  function Commaed(out: seq<string>): (lines: seq<string>)
    ensures |lines| == |out|
  {
    seq(|out|, i requires 0 <= i < |out| => if i < |out| - 1 then out[i] + "," else out[i])
  }

  /** A piece that ends the list cleanly: non-empty and not ending in a
      character the layout trims. */
  predicate CleanEnd(piece: string) {
    piece != [] && piece[|piece| - 1] != ',' && piece[|piece| - 1] != '\n'
  }

  /** Up to three pieces are simply joined with commas. */
  lemma ShortListLayout(out: seq<string>)
    requires |out| <= 3
    requires out == [] || CleanEnd(out[|out| - 1])
    ensures ListLayout(out) == Join(out, ",")
  {
    if out != [] {
      var j := Join(out, ",");
      JoinEndsWithLast(out, ",");
      TrimRightAfter(j, "", {','});
      assert j + "" == j;
    }
  }

  /** A join ends with its last piece. */
  lemma {:induction false} JoinEndsWithLast(parts: seq<string>, sep: string)
    requires |parts| >= 1
    ensures HasSuffix(Join(parts, sep), parts[|parts| - 1])
    decreases |parts|
  {
    if |parts| > 1 {
      JoinEndsWithLast(parts[1..], sep);
      var rest := Join(parts[1..], sep);
      var last := parts[|parts| - 1];
      assert parts[1..][|parts[1..]| - 1] == last;
      var j := parts[0] + sep + rest;
      assert j[|j| - |last|..] == rest[|rest| - |last|..];
    }
  }

  /** Joining with ",\n" is joining the comma-ended pieces with newlines. */
  lemma {:induction false} JoinCommaNewline(out: seq<string>)
    requires |out| >= 1
    ensures Join(out, ",\n") == Join(Commaed(out), "\n")
    decreases |out|
  {
    if |out| > 1 {
      JoinCommaNewline(out[1..]);
      var c := Commaed(out);
      assert c[1..] == Commaed(out[1..]);
      assert c[0] == out[0] + ",";
      assert out[0] + ",\n" + Join(out[1..], ",\n") == c[0] + "\n" + Join(c[1..], "\n");
    }
  }

  /** More than three pieces: the list starts on a new line and, read back
      line by line, holds exactly the pieces, each but the last followed by
      a comma. */
  lemma LongListLayout(out: seq<string>)
    requires |out| > 3
    requires forall i :: 0 <= i < |out| ==> '\n' !in out[i]
    requires CleanEnd(out[|out| - 1])
    ensures var r := ListLayout(out);
      r != [] && r[0] == '\n' && Split(r[1..], '\n') == Commaed(out)
  {
    var body := "\n" + Join(out, ",\n");
    JoinAppendEmpty(out, ",\n");
    JoinEndsWithLast(out, ",\n");
    var j := Join(out, ",\n");
    assert body[|body| - 1] == j[|j| - 1] == out[|out| - 1][|out[|out| - 1]| - 1];
    assert "\n" + Join(out + [""], ",\n") == body + ",\n";
    TrimRightAfter(body, ",\n", {',', '\n'});
    assert ListLayout(out) == body;
    JoinCommaNewline(out);
    var c := Commaed(out);
    assert forall i :: 0 <= i < |c| ==> '\n' !in c[i] by {
      forall i | 0 <= i < |c| ensures '\n' !in c[i] {
        if i < |out| - 1 {
          assert c[i] == out[i] + ",";
        }
      }
    }
    SplitJoin(c, '\n');
    assert body[1..] == j;
  }

  /** pgx-based drivers take slices directly: no piece is wrapped. */
  lemma PgxNeverWraps(v: QueryValue, lower: string -> string)
    requires GoDriver.IsPGX(v.driver)
    ensures !IsStruct(v) ==> ParamPieces(v, lower) == [v.name]
    ensures IsStruct(v) ==>
              forall i :: 0 <= i < |v.structure.value.fields| ==>
                ParamPieces(v, lower)[i] == VariableForField(v, v.structure.value.fields[i], lower)
  {
  }

  /** `a` is `b` with some elements left out, in order. */
  predicate IsSubsequence<V(==)>(a: seq<V>, b: seq<V>)
    decreases |b|
  {
    if a == [] then true
    else if b == [] then false
    else if a[0] == b[0] then IsSubsequence(a[1..], b[1..])
    else IsSubsequence(a, b[1..])
  }

  lemma {:induction false} SubsequenceNoneSkipped<V>(a: seq<V>, b: seq<V>)
    requires IsSubsequence(a, b)
    ensures forall x :: x in a ==> x in b
    decreases |b|
  {
    if a != [] && b != [] {
      if a[0] == b[0] {
        SubsequenceNoneSkipped(a[1..], b[1..]);
        assert forall x :: x in a[1..] ==> x in b[1..];
        assert a == [a[0]] + a[1..];
      } else {
        SubsequenceNoneSkipped(a, b[1..]);
      }
    }
  }

  /** Field i is the first with its name. */
  predicate FirstOfName(fs: seq<Field>, i: int)
    requires 0 <= i < |fs|
  {
    forall j :: 0 <= j < i ==> fs[j].name != fs[i].name
  }

  /** No two fields share a name. */
  predicate DistinctNames(fs: seq<Field>) {
    forall a, b :: 0 <= a < b < |fs| ==> fs[a].name != fs[b].name
  }

  /** The loop of UniqueFields, with the names seen so far. */
  function UniqueFieldsFrom(fs: seq<Field>, seen: set<string>): (r: seq<Field>)
    ensures IsSubsequence(r, fs)
    ensures DistinctNames(r)
    ensures forall a :: 0 <= a < |r| ==> r[a].name !in seen
    decreases |fs|
  {
    if fs == [] then []
    else if fs[0].name in seen then
      UniqueFieldsFrom(fs[1..], seen)
    else
      var rest := UniqueFieldsFrom(fs[1..], seen + {fs[0].name});
      assert forall a :: 0 <= a < |rest| ==> rest[a].name != fs[0].name;
      [fs[0]] + rest
  }

  /** What UniqueFieldsFrom keeps: the first field of each name not seen
      before, and no name is lost. */
  lemma {:induction false} UniqueFieldsFromKeeps(fs: seq<Field>, seen: set<string>)
    ensures var r := UniqueFieldsFrom(fs, seen);
      && (forall i :: 0 <= i < |fs| && fs[i].name !in seen && FirstOfName(fs, i) ==> fs[i] in r)
      && (forall i :: 0 <= i < |fs| ==> fs[i].name in seen || exists a :: 0 <= a < |r| && r[a].name == fs[i].name)
    decreases |fs|
  {
    if fs != [] {
      var r := UniqueFieldsFrom(fs, seen);
      var tail := fs[1..];
      if fs[0].name in seen {
        UniqueFieldsFromKeeps(tail, seen);
        assert r == UniqueFieldsFrom(tail, seen);
        forall i | 0 < i < |fs| && fs[i].name !in seen && FirstOfName(fs, i)
          ensures fs[i] in r
        {
          assert tail[i - 1] == fs[i];
          assert FirstOfName(tail, i - 1);
        }
        forall i | 0 < i < |fs| && fs[i].name !in seen
          ensures exists a :: 0 <= a < |r| && r[a].name == fs[i].name
        {
          assert tail[i - 1] == fs[i];
        }
      } else {
        var seen' := seen + {fs[0].name};
        var rest := UniqueFieldsFrom(tail, seen');
        UniqueFieldsFromKeeps(tail, seen');
        assert r == [fs[0]] + rest;
        assert r[0] == fs[0];
        forall i | 0 < i < |fs| && fs[i].name !in seen && FirstOfName(fs, i)
          ensures fs[i] in r
        {
          assert tail[i - 1] == fs[i];
          assert fs[i].name != fs[0].name;
          assert FirstOfName(tail, i - 1);
          assert fs[i] in rest;
        }
        forall i | 0 < i < |fs| && fs[i].name !in seen
          ensures exists a :: 0 <= a < |r| && r[a].name == fs[i].name
        {
          assert tail[i - 1] == fs[i];
          if fs[i].name == fs[0].name {
            assert r[0].name == fs[i].name;
          } else {
            var a :| 0 <= a < |rest| && rest[a].name == fs[i].name;
            assert r[a + 1] == rest[a];
          }
        }
      }
    }
  }

  /** UniqueFields: the struct's fields without repeated names, keeping
      the first field of each name. */
  function UniqueFields(v: QueryValue): (r: seq<Field>)
    requires IsStruct(v)
    ensures IsSubsequence(r, v.structure.value.fields)
    ensures DistinctNames(r)
  {
    UniqueFieldsFrom(v.structure.value.fields, {})
  }

  /** Every name of the struct survives UniqueFields, carried by the first
      field that has it. */
  lemma UniqueFieldsKeepsFirsts(v: QueryValue)
    requires IsStruct(v)
    ensures var fs := v.structure.value.fields;
      var r := UniqueFields(v);
      && (forall x :: x in r ==> x in fs)
      && (forall i :: 0 <= i < |fs| && FirstOfName(fs, i) ==> fs[i] in r)
      && (forall i :: 0 <= i < |fs| ==> exists a :: 0 <= a < |r| && r[a].name == fs[i].name)
  {
    UniqueFieldsFromKeeps(v.structure.value.fields, {});
    SubsequenceNoneSkipped(UniqueFields(v), v.structure.value.fields);
  }

  /** A struct whose names are already distinct keeps all its fields. */
  lemma UniqueFieldsOfDistinct(v: QueryValue)
    requires IsStruct(v) && DistinctNames(v.structure.value.fields)
    ensures UniqueFields(v) == v.structure.value.fields
  {
    DistinctKeptWhole(v.structure.value.fields, {});
  }

  lemma {:induction false} DistinctKeptWhole(fs: seq<Field>, seen: set<string>)
    requires DistinctNames(fs)
    requires forall i :: 0 <= i < |fs| ==> fs[i].name !in seen
    ensures UniqueFieldsFrom(fs, seen) == fs
    decreases |fs|
  {
    if fs != [] {
      var tail := fs[1..];
      assert forall i :: 0 <= i < |tail| ==> tail[i] == fs[i + 1];
      DistinctKeptWhole(tail, seen + {fs[0].name});
      assert [fs[0]] + tail == fs;
    }
  }

  /** ColumnNames: the column of each field, in order, or the value's own
      column for a plain value. */
  function ColumnNames(v: QueryValue): (names: seq<string>)
    ensures !IsStruct(v) ==> names == [v.dbName]
    ensures IsStruct(v) ==>
              && |names| == |v.structure.value.fields|
              && forall i :: 0 <= i < |names| ==> names[i] == v.structure.value.fields[i].dbName
  {
    if !IsStruct(v) then [v.dbName]
    else
      var fs := v.structure.value.fields;
      seq(|fs|, i requires 0 <= i < |fs| => fs[i].dbName)
  }

  // ---------------------------------------------------------------------
  // Query

  /** A table identifier: catalog, schema and name, any of them empty. */
  datatype Identifier = Identifier(catalog: string, schema: string, name: string)

  /** An invalidation a query performs: whether the invalidated query takes
      no argument, the argument's name, and the cache key expression. */
  datatype InvalidateParam = InvalidateParam(noArg: bool, argName: string, cacheKey: string)

  datatype Query = Query(
    cmd: string,
    pkg: string,
    methodName: string,
    ret: QueryValue,
    arg: QueryValue,
    option: GoOption.WPgxOption,
    invalidates: seq<InvalidateParam>,
    table: Option<Identifier>)

  /** The commands whose generated method scans rows into a result. */
  const ScanningCommands: set<string> :=
    {Metadata.CmdOne, Metadata.CmdMany, Metadata.CmdBatchMany, Metadata.CmdBatchOne}

  /** hasRetType: the query scans rows and has a result value. */
  function HasRetType(q: Query): (b: bool)
    ensures b <==> q.cmd in ScanningCommands && !IsEmpty(q.ret)
  {
    var scanned := q.cmd == Metadata.CmdOne || q.cmd == Metadata.CmdMany
                   || q.cmd == Metadata.CmdBatchMany || q.cmd == Metadata.CmdBatchOne;
    scanned && !IsEmpty(q.ret)
  }

  /** Commands that only execute never have a result type. */
  lemma ExecHasNoRetType(q: Query)
    requires q.cmd in {Metadata.CmdExec, Metadata.CmdExecResult, Metadata.CmdExecRows,
                       Metadata.CmdExecLastId, Metadata.CmdCopyFrom, Metadata.CmdBatchExec}
    ensures !HasRetType(q)
  {
  }

  const WGConn: string := "CacheWGConn"
  const QuerierConn: string := "CacheQuerierConn"

  /** ConnType: a query that invalidates others needs the write connection. */
  function ConnType(q: Query): (t: string)
    ensures t == WGConn <==> |q.invalidates| > 0
    ensures t == QuerierConn <==> |q.invalidates| == 0
  {
    if |q.invalidates| > 0 then WGConn else QuerierConn
  }

  /** IsConnTypeQuerier: the query runs on the querier connection. */
  function IsConnTypeQuerier(q: Query): (b: bool)
    ensures b <==> |q.invalidates| == 0
  {
    |q.invalidates| == 0
  }

  /** IsConnTypeQuerier agrees with ConnType. */
  lemma QuerierMatchesConnType(q: Query)
    ensures IsConnTypeQuerier(q) <==> ConnType(q) == QuerierConn
    ensures !IsConnTypeQuerier(q) <==> ConnType(q) == WGConn
  {
  }

  /** The non-empty parts of an identifier, in order. */
  function NonEmptyParts(parts: seq<string>): (r: seq<string>)
    ensures IsSubsequence(r, parts)
    ensures forall k :: 0 <= k < |r| ==> r[k] != ""
    ensures forall k :: 0 <= k < |parts| && parts[k] != "" ==> parts[k] in r
    decreases |parts|
  {
    if parts == [] then []
    else
      var rest := NonEmptyParts(parts[1..]);
      assert forall k :: 1 <= k < |parts| ==> parts[k] == parts[1..][k - 1];
      if parts[0] == "" then rest else [parts[0]] + rest
  }

  /** The quoted non-empty parts of an identifier, catalog first. */
  function QuotedParts(t: Identifier, quote: string -> string): (quoted: seq<string>)
    ensures var parts := NonEmptyParts([t.catalog, t.schema, t.name]);
      |quoted| == |parts| && forall i :: 0 <= i < |quoted| ==> quoted[i] == quote(parts[i])
  {
    var parts := NonEmptyParts([t.catalog, t.schema, t.name]);
    seq(|parts|, i requires 0 <= i < |parts| => quote(parts[i]))
  }

  /** TableIdentifierAsGoSlice: a Go []string literal of the quoted
      non-empty parts of the table identifier, separated by ", ".  The
      code dereferences the table, so a table must be present. */
  function TableIdentifierAsGoSlice(q: Query, quote: string -> string): (r: string)
    requires q.table.Some?
    ensures HasPrefix(r, "[]string{") && HasSuffix(r, "}") && |r| >= 10
    ensures r[9..|r| - 1] == Join(QuotedParts(q.table.value, quote), ", ")
  {
    var body := Join(QuotedParts(q.table.value, quote), ", ");
    var r := "[]string{" + body + "}";
    assert r[9..|r| - 1] == body;
    r
  }

  /** An identifier with nothing set gives the empty slice literal; a
      fully set one gives all three parts. */
  lemma TableIdentifierCounts(t: Identifier)
    ensures NonEmptyParts([t.catalog, t.schema, t.name]) == [] <==> t.catalog == "" && t.schema == "" && t.name == ""
    ensures t.catalog != "" && t.schema != "" && t.name != "" ==>
              NonEmptyParts([t.catalog, t.schema, t.name]) == [t.catalog, t.schema, t.name]
  {
    var parts := [t.catalog, t.schema, t.name];
    assert parts[1..] == [t.schema, t.name] && parts[1..][1..] == [t.name] && parts[1..][1..][1..] == [];
    var n3 := NonEmptyParts([t.name]);
    assert n3 == (if t.name == "" then [] else [t.name]);
    var n2 := NonEmptyParts([t.schema, t.name]);
    assert n2 == (if t.schema == "" then n3 else [t.schema] + n3);
    assert NonEmptyParts(parts) == (if t.catalog == "" then n2 else [t.catalog] + n2);
  }

  /** CacheUniqueLabel: `pkg:method:`. */
  function CacheUniqueLabel(q: Query): (tag: string)
    ensures HasPrefix(tag, q.pkg + ":") && HasSuffix(tag, ":")
    ensures |tag| == |q.pkg| + |q.methodName| + 2
    ensures tag[|q.pkg| + 1..|tag| - 1] == q.methodName
  {
    q.pkg + ":" + q.methodName + ":"
  }

  /** wrapPtrStr */
  function WrapPtrStr(v: string): (r: string)
    ensures HasPrefix(r, "ptrStr(") && HasSuffix(r, ")")
    ensures |r| == |v| + 8 && r[7..|r| - 1] == v
  {
    "ptrStr(" + v + ")"
  }

  /** IsTypePointer: a non-empty value whose type is a Go pointer type.
      It looks at Type, not DefineType, so a struct emitted as a pointer
      does not count unless its own type starts with `*`. */
  predicate IsTypePointer(v: QueryValue)
    requires IsEmpty(v) || HasType(v)
    ensures IsTypePointer(v) <==> HasType(v) && |Type(v)| > 0 && Type(v)[0] == '*'
    ensures IsTypePointer(v) ==> |DefineType(v)| > 0 && DefineType(v)[0] == '*'
  {
    !IsEmpty(v) && HasPrefix(Type(v), "*")
  }

  /** How genCacheKeyWithArgName builds the cache key expression. */
  datatype CacheKeyShape =
    | LabelOnly            // no argument: the quoted label
    | HashedArgument       // a plain argument: label + hashIfLong(Sprintf("%+v", arg))
    | StructKey            // a struct argument: its own CacheKey()

  function CacheKeyShapeOf(arg: QueryValue): CacheKeyShape {
    if IsEmpty(arg) then LabelOnly
    else if !IsStruct(arg) then HashedArgument
    else StructKey
  }

  /** The text before the hashed argument in a cache key expression. */
  function HashedKeyHead(q: Query): string {
    "\"" + CacheUniqueLabel(q) + "\" + hashIfLong(fmt.Sprintf(\"%+v\","
  }

  /** genCacheKeyWithArgName: the Go expression computing a query's cache
      key.  The package name must not be empty (the code panics on it), and
      a plain argument must have a type. */
  function GenCacheKeyWithArgName(q: Query, argName: string): (key: string)
    requires |q.pkg| > 0
    requires IsEmpty(q.arg) || HasType(q.arg)
    ensures CacheKeyShapeOf(q.arg) == LabelOnly ==> key == "\"" + CacheUniqueLabel(q) + "\""
    ensures CacheKeyShapeOf(q.arg) == HashedArgument ==> HasPrefix(key, HashedKeyHead(q)) && HasSuffix(key, "))")
    ensures CacheKeyShapeOf(q.arg) == StructKey ==> key == argName + ".CacheKey()"
  {
    var prefix := CacheUniqueLabel(q);
    if IsEmpty(q.arg) then "\"" + prefix + "\""
    else if !IsStruct(q.arg) then
      HashedKey(q, if IsTypePointer(q.arg) then WrapPtrStr(argName) else argName)
    else argName + ".CacheKey()"
  }

  /** The hashed form of a plain argument: the quoted label, then the
      argument formatted with `%+v` and hashed when long. */
  function HashedKey(q: Query, name: string): (key: string)
    ensures HasPrefix(key, HashedKeyHead(q)) && HasSuffix(key, "))")
  {
    var head := HashedKeyHead(q);
    var key := head + name + "))";
    assert key[..|head|] == head;
    assert key[|key| - 2..] == "))";
    key
  }

  /** A plain argument of pointer type is dereferenced through ptrStr
      before hashing; any other plain argument is hashed as it is. */
  lemma CacheKeyArgument(q: Query, argName: string)
    requires |q.pkg| > 0 && HasType(q.arg) && !IsStruct(q.arg)
    ensures GenCacheKeyWithArgName(q, argName) ==
              HashedKeyHead(q) + (if HasPrefix(q.arg.typ, "*") then WrapPtrStr(argName) else argName) + "))"
  {
  }

  /** Queries of different packages or methods get different cache keys
      when they take no argument and the names hold no colon. */
  lemma LabelKeysDistinct(q1: Query, q2: Query)
    requires |q1.pkg| > 0 && |q2.pkg| > 0 && IsEmpty(q1.arg) && IsEmpty(q2.arg)
    requires ':' !in q1.pkg && ':' !in q2.pkg
    requires GenCacheKeyWithArgName(q1, "") == GenCacheKeyWithArgName(q2, "")
    ensures q1.pkg == q2.pkg && q1.methodName == q2.methodName
  {
    var l1 := CacheUniqueLabel(q1);
    var l2 := CacheUniqueLabel(q2);
    assert l1 == GenCacheKeyWithArgName(q1, "")[1..|GenCacheKeyWithArgName(q1, "")| - 1];
    assert l1 == l2;
    LabelSplit(q1.pkg, q1.methodName, q2.pkg, q2.methodName);
  }

  lemma LabelSplit(p1: string, m1: string, p2: string, m2: string)
    requires ':' !in p1 && ':' !in p2
    requires p1 + ":" + m1 + ":" == p2 + ":" + m2 + ":"
    ensures p1 == p2 && m1 == m2
  {
    var l := p1 + ":" + m1 + ":";
    assert |p1| == |p2| by {
      assert l[|p1|] == ':';
      assert l == p2 + ":" + m2 + ":";
      assert l[|p2|] == ':';
    }
    assert p1 == l[..|p1|] && p2 == l[..|p2|];
    assert m1 == l[|p1| + 1..|l| - 1] && m2 == l[|p2| + 1..|l| - 1];
  }
}

=== FILE: golang_unique_namer.dfy ===
/** UniqueNamer of internal/codegen/golang/unique_namer.go: a map from
    each name handed out (or asked for) to a counter.  The namer is a
    value here; UniqueName returns the next namer with the name. */
module UniqueNamer {
  import opened Strings

  datatype Namer = Namer(used: map<string, nat>)

  /** The namer state together with the name one call returned. */
  datatype Named = Named(namer: Namer, name: string)

  /** NewUniqueNamer */
  function NewUniqueNamer(): (u: Namer)
    ensures forall name :: name !in u.used
  {
    Namer(map[])
  }

  /** The n-th name handed out for `name` when nothing interferes: the name
      itself, then the name followed by 1, 2, ... */
  function Suffixed(name: string, n: nat): string {
    if n == 0 then name else name + Decimal(n)
  }

  /** UniqueName.  A name never seen is returned unchanged and counted
      once; a name seen with counter n comes back with n appended, its
      counter goes up, and the returned name is recorded with counter 1
      (overwriting any counter it had).  No other entry changes. */
  function UniqueName(u: Namer, name: string): (r: Named)
    ensures name !in u.used ==> r.name == name && r.namer.used == u.used[name := 1]
    ensures name in u.used ==> r.name == name + Decimal(u.used[name])
    ensures HasPrefix(r.name, name) && r.name in r.namer.used
    ensures name in r.namer.used
    ensures name in u.used ==> r.name != name && r.namer.used[r.name] == 1
    ensures r.namer.used.Keys == u.used.Keys + {name, r.name}
    ensures forall k :: k in u.used && k != name && k != r.name ==> r.namer.used[k] == u.used[k]
  {
    if name in u.used then
      var n := u.used[name];
      var newName := name + Decimal(n);
      Named(Namer(u.used[name := n + 1][newName := 1]), newName)
    else
      Named(Namer(u.used[name := 1]), name)
  }

  /** The counter of a name that was asked for goes up by one each time. */
  lemma CounterCounts(u: Namer, name: string)
    ensures UniqueName(u, name).namer.used[name] == (if name in u.used then u.used[name] + 1 else 1)
  {
    if name in u.used {
      var newName := name + Decimal(u.used[name]);
      assert |newName| > |name|;
    }
  }

  /** k requests for the same name, one after the other: the names returned
      and the namer after them. */
  function Requests(u: Namer, name: string, k: nat): (r: (Namer, seq<string>))
    ensures |r.1| == k
    decreases k
  {
    if k == 0 then (u, [])
    else
      var prev := Requests(u, name, k - 1);
      var step := UniqueName(prev.0, name);
      (step.namer, prev.1 + [step.name])
  }

  /** k successive requests for a name the namer has not seen return
      `name`, `name1`, ..., `name(k-1)`, and leave its counter at k. */
  lemma {:induction false} RepeatedRequests(u: Namer, name: string, k: nat)
    requires name !in u.used
    ensures var r := Requests(u, name, k);
      && (k > 0 ==> name in r.0.used && r.0.used[name] == k)
      && (forall j :: 0 <= j < k ==> r.1[j] == Suffixed(name, j))
    decreases k
  {
    if k > 0 {
      RepeatedRequests(u, name, k - 1);
      var prev := Requests(u, name, k - 1);
      if k == 1 {
        assert prev.0 == u;
      }
      RequestStep(prev.0, prev.1, name, k);
    }
  }

  /** The k-th request, after k - 1 that returned `name`, `name1`, ...,
      `name(k-2)`, returns `name(k-1)` and moves the counter to k. */
  lemma RequestStep(prev: Namer, names: seq<string>, name: string, k: nat)
    requires k > 0 && |names| == k - 1
    requires k == 1 ==> name !in prev.used
    requires k > 1 ==> name in prev.used && prev.used[name] == k - 1
    requires forall j :: 0 <= j < k - 1 ==> names[j] == Suffixed(name, j)
    ensures var step := UniqueName(prev, name);
      && name in step.namer.used && step.namer.used[name] == k
      && (forall j :: 0 <= j < k ==> (names + [step.name])[j] == Suffixed(name, j))
  {
    var step := UniqueName(prev, name);
    CounterCounts(prev, name);
    assert step.name == Suffixed(name, k - 1);
    assert forall j :: 0 <= j < k - 1 ==> (names + [step.name])[j] == names[j];
  }

  /** Names handed out are not unique overall: asking for "a1", then "a"
      twice, returns "a1" twice. */
  lemma NamesCanRepeat()
    ensures var r1 := UniqueName(NewUniqueNamer(), "a1");
      var r2 := UniqueName(r1.namer, "a");
      var r3 := UniqueName(r2.namer, "a");
      r1.name == "a1" && r2.name == "a" && r3.name == "a1"
  {
    var r1 := UniqueName(NewUniqueNamer(), "a1");
    var r2 := UniqueName(r1.namer, "a");
    assert r2.namer.used["a"] == 1;
    assert Decimal(1) == "1";
  }
}

=== FILE: metadata.dfy ===
/** The query-metadata comment parser of internal/metadata/meta.go: the
    `name: <Ident> :<cmd>` header, `-- -- key: value` option pairs, and
    `@flag` markers. */
module Metadata {
  import opened Wrappers
  import opened Strings

  /** Which comment styles the SQL dialect accepts. */
  datatype CommentSyntax = CommentSyntax(dash: bool, hash: bool, slashStar: bool)

  const CmdExec: string := ":exec"
  const CmdExecResult: string := ":execresult"
  const CmdExecRows: string := ":execrows"
  const CmdExecLastId: string := ":execlastid"
  const CmdMany: string := ":many"
  const CmdOne: string := ":one"
  const CmdCopyFrom: string := ":copyfrom"
  const CmdBatchExec: string := ":batchexec"
  const CmdBatchMany: string := ":batchmany"
  const CmdBatchOne: string := ":batchone"

  /** The closed command vocabulary accepted in a header. */
  const Commands: set<string> := {
    CmdOne, CmdMany, CmdExec, CmdExecResult, CmdExecRows, CmdExecLastId,
    CmdCopyFrom, CmdBatchExec, CmdBatchMany, CmdBatchOne
  }

  datatype QueryConfig = QueryConfig(name: string, cmd: string, options: map<string, string>)

  const EmptyConfig: QueryConfig := QueryConfig("", "", map[])

  datatype MetaError =
    | InvalidQueryName(name: string)
    | MissingQueryType(line: string)
    | InvalidQueryComment(line: string)
    | InvalidQueryType(cmd: string)
    | InvalidOptionString(line: string)
    | InvalidMetadata(line: string)
      // A line that is exactly the block-comment opener: the source slices
      // its empty body with `[:-1]`, which panics.
    | BlockBodyOutOfRange(line: string)

  // unicode.IsLetter and unicode.IsDigit, restricted to ASCII.
  predicate IsLetter(c: char) {
    ('a' <= c <= 'z') || ('A' <= c <= 'Z')
  }

  predicate IsIdentStart(c: char) {
    IsLetter(c) || c == '_'
  }

  predicate IsIdentPart(c: char) {
    IsIdentStart(c) || IsDigit(c)
  }

  /** The identifier rule of the Go language specification, section "Identifiers". */
  predicate IsIdentifier(name: string) {
    && |name| > 0
    && IsIdentStart(name[0])
    && forall i :: 1 <= i < |name| ==> IsIdentPart(name[i])
  }

  /** The character loop of validateQueryName from position `i` on. */
  function ScanName(name: string, i: nat): (r: Outcome<MetaError>)
    requires i <= |name|
    ensures r.Pass? <==>
              && (i == 0 < |name| ==> IsIdentStart(name[0]))
              && (forall k :: i <= k < |name| && k > 0 ==> IsIdentPart(name[k]))
    ensures r.Fail? ==> r.error == InvalidQueryName(name)
    decreases |name| - i
  {
    if i == |name| then Pass
    else
      var c := name[i];
      var isLetter := IsLetter(c) || c == '_';
      var isDigit := IsDigit(c);
      if i == 0 && !isLetter then Fail(InvalidQueryName(name))
      else if !(isLetter || isDigit) then Fail(InvalidQueryName(name))
      else ScanName(name, i + 1)
  }

  /** validateQueryName: exactly the Go identifiers pass. */
  function ValidateQueryName(name: string): (r: Outcome<MetaError>)
    ensures r.Pass? <==> IsIdentifier(name)
    ensures r.Fail? ==> r.error == InvalidQueryName(name)
  {
    if |name| == 0 then Fail(InvalidQueryName(name)) else ScanName(name, 0)
  }

  /** The comment prefix of a line, or None when the line is not a comment
      of an enabled style.  The three prefixes cannot both start a line, so
      testing them in turn picks the same prefix as the source. */
  function CommentPrefix(line: string, style: CommentSyntax): (p: Option<string>)
    ensures p.Some? ==> p.value in {"--", "/*", "#"} && HasPrefix(line, p.value)
    ensures p.Some? && p.value == "--" ==> style.dash
    ensures p.Some? && p.value == "/*" ==> style.slashStar
    ensures p.Some? && p.value == "#" ==> style.hash
    ensures p.None? ==> !(HasPrefix(line, "--") && style.dash)
    ensures p.None? ==> !(HasPrefix(line, "/*") && style.slashStar)
    ensures p.None? ==> !(HasPrefix(line, "#") && style.hash)
  {
    assert HasPrefix(line, "--") ==> line[0] == '-';
    assert HasPrefix(line, "/*") ==> line[0] == '/';
    assert HasPrefix(line, "#") ==> line[0] == '#';
    if HasPrefix(line, "--") then (if style.dash then Some("--") else None)
    else if HasPrefix(line, "/*") then (if style.slashStar then Some("/*") else None)
    else if HasPrefix(line, "#") then (if style.hash then Some("#") else None)
    else None
  }

  // The trimmed comment body after the prefix.  For the block-comment
  // prefix exactly one trailing character is dropped, as written in the
  // source, which drops one byte: the two differ when the line ends in a
  // multi-byte character.
  function CommentBody(line: string, prefix: string): (r: Result<string, MetaError>)
    requires HasPrefix(line, prefix)
    ensures r.Failure? <==> prefix == "/*" && line == prefix
  {
    var rest := line[|prefix|..];
    if prefix == "/*" then
      if |rest| == 0 then Failure(BlockBodyOutOfRange(line))
      else Success(TrimSpace(rest[..|rest| - 1]))
    else Success(TrimSpace(rest))
  }

  /** What one line contributes to the configuration. */
  datatype LineEffect = Skip | Header(name: string, cmd: string) | OptionPair(key: string, value: string)

  /** A header line: the trimmed line split on single spaces must have four
      parts, the fourth a known command and the third an identifier. */
  function HeaderLine(line: string): (r: Result<LineEffect, MetaError>)
    ensures r.Success? ==> r.value.Header?
    ensures r.Success? ==> IsIdentifier(r.value.name) && r.value.cmd in Commands
    ensures |Split(TrimSpace(line), ' ')| == 2 ==> r == Failure(MissingQueryType(line))
    ensures |Split(TrimSpace(line), ' ')| !in {2, 4} ==> r == Failure(InvalidQueryComment(line))
    ensures var p := Split(TrimSpace(line), ' ');
      r.Success? <==> |p| == 4 && TrimSpace(p[3]) in Commands && IsIdentifier(p[2])
    ensures var p := Split(TrimSpace(line), ' ');
      r.Success? ==> r.value == Header(p[2], TrimSpace(p[3]))
    ensures var p := Split(TrimSpace(line), ' ');
      |p| == 4 && TrimSpace(p[3]) !in Commands ==> r == Failure(InvalidQueryType(TrimSpace(p[3])))
    ensures var p := Split(TrimSpace(line), ' ');
      |p| == 4 && TrimSpace(p[3]) in Commands && !IsIdentifier(p[2]) ==> r == Failure(InvalidQueryName(p[2]))
  {
    var part := Split(TrimSpace(line), ' ');
    if |part| == 2 then Failure(MissingQueryType(line))
    else if |part| != 4 then Failure(InvalidQueryComment(line))
    else HeaderWords(part[2], TrimSpace(part[3]))
  }

  /** The four-part case of a header: the command is checked before the name. */
  function HeaderWords(queryName: string, queryType: string): (r: Result<LineEffect, MetaError>)
    ensures r.Success? <==> queryType in Commands && IsIdentifier(queryName)
    ensures r.Success? ==> r.value == Header(queryName, queryType)
    ensures queryType !in Commands ==> r == Failure(InvalidQueryType(queryType))
    ensures queryType in Commands && !IsIdentifier(queryName) ==> r == Failure(InvalidQueryName(queryName))
  {
    if queryType !in Commands then Failure(InvalidQueryType(queryType))
    else match ValidateQueryName(queryName)
      case Fail(e) => Failure(e)
      case Pass => Success(Header(queryName, queryType))
  }

  /** An option line: the body after its second `--` must hold a `:`; key
      and value are the trimmed text around the first one. */
  function OptionLine(line: string, body: string): (r: Result<LineEffect, MetaError>)
    requires HasPrefix(body, "--")
    ensures r.Failure? <==> ':' !in body[2..]
    ensures r.Failure? ==> r.error == InvalidOptionString(line)
    ensures r.Success? ==> r.value.OptionPair? && ':' !in r.value.key
    ensures r.Success? ==> var rest := body[2..]; var sep := IndexOf(rest, ':').value;
      r.value == OptionPair(TrimSpace(rest[..sep]), TrimSpace(rest[sep + 1..]))
  {
    var rest := body[2..];
    match IndexOf(rest, ':')
    case None => Failure(InvalidOptionString(line))
    case Some(sep) =>
      var key := TrimSpace(rest[..sep]);
      TrimSpaceAbsent(rest[..sep], ':');
      Success(OptionPair(key, TrimSpace(rest[sep + 1..])))
  }

  /** One iteration of the line loop of ParseQueryNameAndType. */
  function ClassifyLine(line: string, style: CommentSyntax): (r: Result<LineEffect, MetaError>)
    ensures CommentPrefix(line, style).None? ==> r == Success(Skip)
    ensures r.Success? && r.value.Header? ==> IsIdentifier(r.value.name) && r.value.cmd in Commands
    ensures r.Success? && r.value.OptionPair? ==> ':' !in r.value.key
  {
    match CommentPrefix(line, style)
    case None => Success(Skip)
    case Some(prefix) =>
      match CommentBody(line, prefix)
      case Failure(e) => Failure(e)
      case Success(body) => ClassifyBody(line, body)
  }

  /** The branch on the trimmed comment body. */
  function ClassifyBody(line: string, body: string): (r: Result<LineEffect, MetaError>)
    ensures r.Success? && r.value.Header? ==> IsIdentifier(r.value.name) && r.value.cmd in Commands
    ensures r.Success? && r.value.OptionPair? ==> ':' !in r.value.key
    ensures (!HasPrefix(body, "name:") && !HasPrefix(body, "--") && HasPrefix(body, "name") && ':' in body)
              ==> r == Failure(InvalidMetadata(line))
    ensures r == Success(Skip) <==> !HasPrefix(body, "--") && !(HasPrefix(body, "name") && ':' in body)
  {
    assert HasPrefix(body, "name:") ==> HasPrefix(body, "name") && body[4] == ':';
    if HasPrefix(body, "name:") then HeaderLine(line)
    else if HasPrefix(body, "--") then OptionLine(line, body)
    else if HasPrefix(body, "name") && Contains(body, ':') then Failure(InvalidMetadata(line))
    else Success(Skip)
  }

  /** A dash comment line, with dash comments enabled, is classified by its
      body after the two dashes. */
  lemma DashLine(line: string, style: CommentSyntax)
    requires style.dash && HasPrefix(line, "--")
    ensures ClassifyLine(line, style) == ClassifyBody(line, TrimSpace(line[2..]))
  {
    assert CommentPrefix(line, style) == Some("--");
  }

  function ApplyEffect(cfg: QueryConfig, e: LineEffect): QueryConfig {
    match e
    case Skip => cfg
    case Header(name, cmd) => cfg.(name := name, cmd := cmd)
    case OptionPair(key, value) => cfg.(options := cfg.options[key := value])
  }

  /** The classification of one line, as the loop sees it. */
  type Step = Result<LineEffect, MetaError>

  /** The error of the first failing step, if some step fails. */
  predicate FirstFailure(steps: seq<Step>, e: MetaError) {
    exists i :: 0 <= i < |steps| && steps[i] == Failure(e)
      && forall j :: 0 <= j < i ==> steps[j].Success?
  }

  /** The line loop: applies each line's effect in order and stops at the
      first failing line.  It fails exactly when some line fails, with the
      first such line's error. */
  function ApplySteps(steps: seq<Step>, cfg: QueryConfig): (r: Result<QueryConfig, MetaError>)
    ensures r.Failure? <==> exists i :: 0 <= i < |steps| && steps[i].Failure?
    ensures r.Failure? ==> FirstFailure(steps, r.error)
    decreases |steps|
  {
    if |steps| == 0 then Success(cfg)
    else
      match steps[0]
      case Failure(e) => Failure(e)
      case Success(eff) =>
        var r := ApplySteps(steps[1..], ApplyEffect(cfg, eff));
        assert forall i :: 1 <= i < |steps| ==> steps[i] == steps[1..][i - 1];
        if r.Failure? then
          var i :| 0 <= i < |steps[1..]| && steps[1..][i] == Failure(r.error)
            && forall j :: 0 <= j < i ==> steps[1..][j].Success?;
          assert steps[i + 1] == Failure(r.error);
          r
        else r
  }

  function ClassifyLines(lines: seq<string>, style: CommentSyntax): (steps: seq<Step>)
    ensures |steps| == |lines|
    ensures forall i :: 0 <= i < |lines| ==> steps[i] == ClassifyLine(lines[i], style)
  {
    seq(|lines|, i requires 0 <= i < |lines| => ClassifyLine(lines[i], style))
  }

  /** ParseQueryNameAndType: splits the text into lines and runs the loop
      from an empty configuration.  It fails exactly when some line of the
      text fails, and then with the error of the first such line. */
  function ParseQueryNameAndType(t: string, style: CommentSyntax): (r: Result<QueryConfig, MetaError>)
    ensures r.Failure? <==> exists line :: line in Split(t, '\n') && ClassifyLine(line, style).Failure?
    ensures r.Failure? ==> FirstFailure(ClassifyLines(Split(t, '\n'), style), r.error)
  {
    var lines := Split(t, '\n');
    var steps := ClassifyLines(lines, style);
    var r := ApplySteps(steps, EmptyConfig);
    assert r.Failure? ==> exists i :: 0 <= i < |lines| && ClassifyLine(lines[i], style).Failure?;
    r
  }

  /** Steps that contribute nothing leave the configuration as it was. */
  lemma {:induction false} SkipsKeepConfig(steps: seq<Step>, cfg: QueryConfig)
    requires forall i :: 0 <= i < |steps| ==> steps[i] == Success(Skip)
    ensures ApplySteps(steps, cfg) == Success(cfg)
    decreases |steps|
  {
    if |steps| > 0 {
      SkipsKeepConfig(steps[1..], cfg);
    }
  }

  /** A text none of whose lines is a comment of an enabled style parses to
      the empty configuration. */
  lemma UncommentedTextIsEmptyConfig(t: string, style: CommentSyntax)
    requires forall line :: line in Split(t, '\n') ==> CommentPrefix(line, style).None?
    ensures ParseQueryNameAndType(t, style) == Success(EmptyConfig)
  {
    SkipsKeepConfig(ClassifyLines(Split(t, '\n'), style), EmptyConfig);
  }

  predicate IsHeaderStep(s: Step) {
    s.Success? && s.value.Header?
  }

  /** On success the name and command are those of the last header line, or
      the starting ones when there is no header line. */
  lemma {:induction false} LastHeaderWins(steps: seq<Step>, cfg: QueryConfig)
    requires ApplySteps(steps, cfg).Success?
    ensures var r := ApplySteps(steps, cfg).value;
      || ((forall i :: 0 <= i < |steps| ==> !IsHeaderStep(steps[i])) && r.name == cfg.name && r.cmd == cfg.cmd)
      || (exists i :: 0 <= i < |steps| && steps[i] == Success(Header(r.name, r.cmd))
            && forall j :: i < j < |steps| ==> !IsHeaderStep(steps[j]))
    decreases |steps|
  {
    if |steps| > 0 {
      var eff := steps[0].value;
      var cfg' := ApplyEffect(cfg, eff);
      var tail := steps[1..];
      LastHeaderWins(tail, cfg');
      var r := ApplySteps(steps, cfg).value;
      assert r == ApplySteps(tail, cfg').value;
      assert forall i :: 1 <= i < |steps| ==> steps[i] == tail[i - 1];
      if forall i :: 0 <= i < |tail| ==> !IsHeaderStep(tail[i]) {
        if eff.Header? {
          assert steps[0] == Success(Header(r.name, r.cmd));
        } else {
          assert forall i :: 0 <= i < |steps| ==> !IsHeaderStep(steps[i]);
        }
      } else {
        var i :| 0 <= i < |tail| && tail[i] == Success(Header(r.name, r.cmd))
          && forall j :: i < j < |tail| ==> !IsHeaderStep(tail[j]);
        assert steps[i + 1] == Success(Header(r.name, r.cmd));
      }
    }
  }

  predicate IsOptionStep(s: Step, key: string) {
    s.Success? && s.value.OptionPair? && s.value.key == key
  }

  /** A key that no option line sets keeps its starting value, or stays absent. */
  lemma {:induction false} UnsetOptionKept(steps: seq<Step>, cfg: QueryConfig, key: string)
    requires ApplySteps(steps, cfg).Success?
    requires forall i :: 0 <= i < |steps| ==> !IsOptionStep(steps[i], key)
    ensures var r := ApplySteps(steps, cfg).value;
      && (key in r.options <==> key in cfg.options)
      && (key in cfg.options ==> r.options[key] == cfg.options[key])
    decreases |steps|
  {
    if |steps| > 0 {
      assert forall i :: 0 <= i < |steps[1..]| ==> steps[1..][i] == steps[i + 1];
      UnsetOptionKept(steps[1..], ApplyEffect(cfg, steps[0].value), key);
    }
  }

  /** On success every option line's key is present, holding the value of
      the last option line with that key. */
  lemma {:induction false} LastOptionWins(steps: seq<Step>, cfg: QueryConfig, i: nat, key: string, value: string)
    requires ApplySteps(steps, cfg).Success?
    requires i < |steps| && steps[i] == Success(OptionPair(key, value))
    requires forall j :: i < j < |steps| ==> !IsOptionStep(steps[j], key)
    ensures var r := ApplySteps(steps, cfg).value;
      key in r.options && r.options[key] == value
    decreases |steps|
  {
    var cfg' := ApplyEffect(cfg, steps[0].value);
    assert forall j :: 0 <= j < |steps[1..]| ==> steps[1..][j] == steps[j + 1];
    if i == 0 {
      UnsetOptionKept(steps[1..], cfg', key);
    } else {
      LastOptionWins(steps[1..], cfg', i - 1, key, value);
    }
  }

  /** A well-formed header line `-- name: X c`: it yields exactly `X` and
      `c` when `c` is a known command and `X` an identifier, and fails
      otherwise, with an unknown command reported before a bad name. */
  lemma HeaderLineShape(x: string, c: string, style: CommentSyntax)
    requires style.dash
    requires x != [] && ' ' !in x && c != [] && ' ' !in c
    requires !IsSpace(c[0]) && !IsSpace(c[|c| - 1])
    ensures var line := "-- name: " + x + " " + c;
      ClassifyLine(line, style) ==
        if c !in Commands then Failure(InvalidQueryType(c))
        else if !IsIdentifier(x) then Failure(InvalidQueryName(x))
        else Success(Header(x, c))
  {
    var line := "-- name: " + x + " " + c;
    var rest := x + " " + c;
    var inner := "name: " + rest;
    assert line == "-- " + inner;
    assert inner[|inner| - 1] == c[|c| - 1];
    SpacedDashLine(inner, style);
    HeaderBody(line, rest);
    HeaderParts(x, c);
    TrimSpaceOfTrimmed(c);
    HeaderOfParts(line, x, c);
  }

  /** A header line of four parts, the third x and the fourth c: the
      trimmed c must be a command, checked before x must be an identifier. */
  lemma HeaderOfParts(line: string, x: string, c: string)
    requires var p := Split(TrimSpace(line), ' ');
      |p| == 4 && p[2] == x && p[3] == c
    ensures HeaderLine(line) ==
      if TrimSpace(c) !in Commands then Failure(InvalidQueryType(TrimSpace(c)))
      else if !IsIdentifier(x) then Failure(InvalidQueryName(x))
      else Success(Header(x, TrimSpace(c)))
  {
  }

  /** A body starting with `name:` makes the line a header line. */
  lemma HeaderBody(line: string, rest: string)
    ensures ClassifyBody(line, "name: " + rest) == HeaderLine(line)
  {
    assert ("name: " + rest)[..5] == "name:";
  }

  lemma HeaderParts(x: string, c: string)
    requires ' ' !in x && c != [] && ' ' !in c && !IsSpace(c[|c| - 1])
    ensures var p := Split(TrimSpace("-- name: " + x + " " + c), ' ');
      |p| == 4 && p[0] == "--" && p[1] == "name:" && p[2] == x && p[3] == c
  {
    var line := "-- name: " + x + " " + c;
    assert line[|line| - 1] == c[|c| - 1];
    TrimSpaceOfTrimmed(line);
    var t3 := x + [' '] + c;
    var t2 := "name:" + [' '] + t3;
    assert line == "--" + [' '] + t2;
    SplitFourWords("--", "name:", x, c);
  }

  lemma SplitFourWords(a: string, b: string, x: string, c: string)
    requires ' ' !in a && ' ' !in b && ' ' !in x && ' ' !in c
    ensures var p := Split(a + [' '] + (b + [' '] + (x + [' '] + c)), ' ');
      |p| == 4 && p[0] == a && p[1] == b && p[2] == x && p[3] == c
  {
    SplitThreeWords(b, x, c);
    SplitWordThen(a, b + [' '] + (x + [' '] + c), [b, x, c]);
  }

  lemma SplitThreeWords(b: string, x: string, c: string)
    requires ' ' !in b && ' ' !in x && ' ' !in c
    ensures Split(b + [' '] + (x + [' '] + c), ' ') == [b, x, c]
  {
    SplitTwoWords(x, c);
    SplitWordThen(b, x + [' '] + c, [x, c]);
  }

  lemma SplitTwoWords(x: string, c: string)
    requires ' ' !in x && ' ' !in c
    ensures Split(x + [' '] + c, ' ') == [x, c]
  {
    SplitNoSeparator(c, ' ');
    SplitWordThen(x, c, [c]);
  }

  /** A space-free word, a space, then text that splits into `rest`. */
  lemma SplitWordThen(a: string, t: string, rest: seq<string>)
    requires ' ' !in a && Split(t, ' ') == rest
    ensures Split(a + [' '] + t, ' ') == [a] + rest
  {
    SplitCons(a, ' ', t);
  }

  /** Every identifier with every known command is accepted as a header. */
  lemma HeaderAccepted(x: string, c: string, style: CommentSyntax)
    requires style.dash && IsIdentifier(x) && c in Commands
    ensures ClassifyLine("-- name: " + x + " " + c, style) == Success(Header(x, c))
  {
    IdentifierWithoutBlanks(x);
    CommandWithoutBlanks(c);
    HeaderLineShape(x, c, style);
  }

  /** An identifier holds neither spaces nor line breaks. */
  lemma IdentifierWithoutBlanks(x: string)
    requires IsIdentifier(x)
    ensures x != [] && ' ' !in x && '\n' !in x
  {
    forall k | 0 <= k < |x| ensures x[k] != ' ' && x[k] != '\n' {
      if k > 0 { assert IsIdentPart(x[k]); }
    }
  }

  /** A command is a non-empty word without white space. */
  lemma CommandWithoutBlanks(c: string)
    requires c in Commands
    ensures c != [] && ' ' !in c && '\n' !in c && !IsSpace(c[0]) && !IsSpace(c[|c| - 1])
  {
  }

  /** An option line `-- --<key>:<value>`: the key is cut at its first `:`
      and both sides are trimmed. */
  lemma OptionLineShape(key: string, value: string, style: CommentSyntax)
    requires style.dash && ':' !in key
    ensures ClassifyLine("-- --" + key + ":" + value, style)
      == Success(OptionPair(TrimSpace(key), TrimSpace(value)))
  {
    var line := "-- --" + key + ":" + value;
    var jv := TrailingCut(value, IsSpace, 0);
    OptionTrimmedBody(key, value, jv);
    DashLine(line, style);
    OptionDashBody(line, key + ":" + value[..jv]);
    OptionBody(line, key, value[..jv]);
    TrimSpaceDropTrailing(value, jv);
  }

  /** Trimming the text after the first two dashes of `-- --<key>:<value>`
      removes the one space in front and the white space ending the value. */
  lemma OptionTrimmedBody(key: string, value: string, jv: nat)
    requires jv <= |value|
    requires forall k :: jv <= k < |value| ==> IsSpace(value[k])
    requires jv == 0 || !IsSpace(value[jv - 1])
    ensures TrimSpace(("-- --" + key + ":" + value)[2..]) == "--" + (key + ":" + value[..jv])
  {
    var t := "--" + (key + ":" + value[..jv]);
    var b := value[jv..];
    assert value == value[..jv] + b;
    assert ("-- --" + key + ":" + value)[2..] == " " + t + b;
    forall k | 0 <= k < |b| ensures IsSpace(b[k]) {
      assert b[k] == value[jv + k];
    }
    assert t[0] == '-';
    assert t[|t| - 1] == if jv == 0 then ':' else value[jv - 1];
    TrimSpacePadded(" ", t, b);
  }

  /** A body starting with `--` makes the line an option line. */
  lemma OptionDashBody(line: string, rest: string)
    ensures ClassifyBody(line, "--" + rest) == OptionLine(line, "--" + rest)
  {
    var body := "--" + rest;
    assert body[0] == '-' && body[..2] == "--";
  }

  lemma OptionBody(line: string, key: string, value: string)
    requires ':' !in key
    ensures OptionLine(line, "--" + (key + ":" + value))
      == Success(OptionPair(TrimSpace(key), TrimSpace(value)))
  {
    var rest := ("--" + (key + ":" + value))[2..];
    assert rest == key + [':'] + value;
    assert rest[|key|] == ':';
    var sep := IndexOf(rest, ':');
    assert sep.value == |key| by {
      assert rest[..|key|] == key;
    }
    assert rest[..|key|] == key;
    assert rest[|key| + 1..] == value;
  }

  /** A header whose trimmed line has only two space-separated parts is
      reported as missing its command. */
  lemma TwoPartHeaderMissingType(x: string, style: CommentSyntax)
    requires style.dash && x != [] && ' ' !in x && !IsSpace(x[|x| - 1])
    ensures ClassifyLine("-- name:" + x, style) == Failure(MissingQueryType("-- name:" + x))
  {
    var line := "-- name:" + x;
    var inner := "name:" + x;
    NameLineBody(x, line, inner);
    DashLine(line, style);
    NameBodyIsHeader(line, inner);
    TwoParts(x);
  }

  /** The body of `-- name:x` is `name:x`. */
  lemma NameLineBody(x: string, line: string, inner: string)
    requires x != [] && !IsSpace(x[|x| - 1])
    requires line == "-- name:" + x && inner == "name:" + x
    ensures HasPrefix(line, "--") && TrimSpace(line[2..]) == inner && HasPrefix(inner, "name:")
  {
    assert line[2..] == " " + inner;
    assert inner[|inner| - 1] == x[|x| - 1];
    TrimSpaceAfterSpaces(" ", inner);
    assert inner[..5] == "name:";
  }

  /** A body starting with `name:` makes the line a header line. */
  lemma NameBodyIsHeader(line: string, body: string)
    requires HasPrefix(body, "name:")
    ensures ClassifyBody(line, body) == HeaderLine(line)
  {
  }

  lemma TwoParts(x: string)
    requires x != [] && ' ' !in x && !IsSpace(x[|x| - 1])
    ensures |Split(TrimSpace("-- name:" + x), ' ')| == 2
  {
    var line := "-- name:" + x;
    var inner := "name:" + x;
    assert line[|line| - 1] == x[|x| - 1];
    TrimSpaceOfTrimmed(line);
    assert line == "--" + [' '] + inner;
    SplitNoSeparator(inner, ' ');
    SplitCons("--", ' ', inner);
  }

  /** A comment starting with `name` but not `name:` is skipped when it
      holds no `:`. */
  lemma NameWithoutColonIsSkipped(w: string, style: CommentSyntax)
    requires style.dash && w != [] && w[0] == ' ' && !IsSpace(w[|w| - 1]) && ':' !in w
    ensures ClassifyLine("-- name" + w, style) == Success(Skip)
  {
    var inner := "name" + w;
    assert "-- name" + w == "-- " + inner;
    assert inner[|inner| - 1] == w[|w| - 1];
    SpacedDashLine(inner, style);
    PlainNameBody("-- " + inner, w);
  }

  /** `-- <inner>`, with dash comments on and no white space at either end
      of inner, is classified by inner. */
  lemma SpacedDashLine(inner: string, style: CommentSyntax)
    requires style.dash && inner != [] && !IsSpace(inner[0]) && !IsSpace(inner[|inner| - 1])
    ensures ClassifyLine("-- " + inner, style) == ClassifyBody("-- " + inner, inner)
  {
    var line := "-- " + inner;
    assert line[2..] == " " + inner;
    TrimSpaceAfterSpaces(" ", inner);
    DashLine(line, style);
  }

  lemma PlainNameBody(line: string, w: string)
    requires w != [] && w[0] == ' ' && ':' !in w
    ensures ClassifyBody(line, "name" + w) == Success(Skip)
  {
    var inner := "name" + w;
    assert inner[0] == 'n' && inner[4] == ' ';
    assert !HasPrefix(inner, "--") by { assert "--"[0] != inner[0]; }
    assert !HasPrefix(inner, "name:") by { assert "name:"[4] != inner[4]; }
    assert ':' !in "name";
  }

  // Cases from the package's tests: a well-formed header, three malformed
  // ones, and an accepted comment that merely starts with `name`.

  lemma ExampleCreateFooOne(style: CommentSyntax)
    requires style.dash
    ensures ClassifyLine("-- name: CreateFoo :one", style) == Success(Header("CreateFoo", ":one"))
  {
    assert "-- name: CreateFoo :one" == "-- name: " + "CreateFoo" + " " + ":one";
    assert IsIdentifier("CreateFoo");
    HeaderAccepted("CreateFoo", ":one", style);
  }

  lemma ExampleUnknownCommand(style: CommentSyntax)
    requires style.dash
    ensures ClassifyLine("-- name: CreateFoo :two", style) == Failure(InvalidQueryType(":two"))
  {
    assert "-- name: CreateFoo :two" == "-- name: " + "CreateFoo" + " " + ":two";
    assert ":two" !in Commands;
    HeaderLineShape("CreateFoo", ":two", style);
  }

  lemma ExampleBadName(style: CommentSyntax)
    requires style.dash
    ensures ClassifyLine("-- name: 9Foo_, :one", style) == Failure(InvalidQueryName("9Foo_,"))
  {
    assert "-- name: 9Foo_, :one" == "-- name: " + "9Foo_," + " " + ":one";
    assert !IsIdentStart("9Foo_,"[0]);
    HeaderLineShape("9Foo_,", ":one", style);
  }

  lemma ExampleMissingCommand(style: CommentSyntax)
    requires style.dash
    ensures ClassifyLine("-- name:CreateFoo", style) == Failure(MissingQueryType("-- name:CreateFoo"))
  {
    assert "-- name:CreateFoo" == "-- name:" + "CreateFoo";
    TwoPartHeaderMissingType("CreateFoo", style);
  }

  lemma ExampleNameComment(style: CommentSyntax)
    requires style.dash
    ensures ClassifyLine("-- name comment", style) == Success(Skip)
  {
    assert "-- name comment" == "-- name" + " comment";
    NameWithoutColonIsSkipped(" comment", style);
  }

  lemma ExampleNameWithColon(style: CommentSyntax)
    requires style.dash
    ensures ClassifyLine("-- name x: y", style) == Failure(InvalidMetadata("-- name x: y"))
  {
    var inner := "name x: y";
    assert "-- name x: y" == "-- " + inner;
    SpacedDashLine(inner, style);
    ColonNameBody("-- name x: y");
  }

  lemma ColonNameBody(line: string)
    ensures ClassifyBody(line, "name x: y") == Failure(InvalidMetadata(line))
  {
    var inner := "name x: y";
    assert inner[4] == ' ' && inner[0] == 'n' && inner[6] == ':';
    assert !HasPrefix(inner, "--") by { assert "--"[0] != inner[0]; }
    assert !HasPrefix(inner, "name:") by { assert "name:"[4] != inner[4]; }
  }

  lemma ExampleSpacedOption(style: CommentSyntax)
    requires style.dash
    ensures ClassifyLine("-- --    key   :    value   ", style) == Success(OptionPair("key", "value"))
  {
    assert "-- --    key   :    value   " == "-- --" + "    key   " + ":" + "    value   ";
    OptionLineShape("    key   ", "    value   ", style);
    PaddedKeyValue();
  }

  /** The last option case of the package's tests: a header, then an option
      line with white space around key and value. */
  lemma ExampleHeaderThenSpacedOption(style: CommentSyntax)
    requires style.dash
    ensures ParseQueryNameAndType("-- name: q :one" + "\n" + "-- --    key   :    value   ", style)
      == Success(QueryConfig("q", ":one", map["key" := "value"]))
  {
    assert IsIdentifier("q");
    SpacedOptionText();
    HeaderThenOptionText("-- name: q :one", "-- --    key   :    value   ", "q", ":one", "    key   ", "    value   ", style);
    PaddedKeyValue();
  }

  lemma SpacedOptionText()
    ensures "-- name: q :one" == "-- name: " + "q" + " " + ":one"
    ensures "-- --    key   :    value   " == "-- --" + "    key   " + ":" + "    value   "
  {
  }

  /** HeaderThenOption for a text given whole. */
  lemma HeaderThenOptionText(l1: string, l2: string, x: string, c: string, key: string, value: string,
                              style: CommentSyntax)
    requires style.dash && IsIdentifier(x) && c in Commands
    requires ':' !in key && '\n' !in key && '\n' !in value
    requires l1 == "-- name: " + x + " " + c && l2 == "-- --" + key + ":" + value
    ensures ParseQueryNameAndType(l1 + "\n" + l2, style) == Success(QueryConfig(x, c, map[TrimSpace(key) := TrimSpace(value)]))
  {
    HeaderAccepted(x, c, style);
    OptionLineShape(key, value, style);
    NoNewlineInHeader(x, c);
    NoNewlineInOption(key, value);
    TwoLines(l1, l2, Header(x, c), OptionPair(TrimSpace(key), TrimSpace(value)), style);
  }

  lemma PaddedKeyValue()
    ensures TrimSpace("    key   ") == "key" && TrimSpace("    value   ") == "value"
  {
    PaddedKey();
    PaddedValue();
  }

  lemma PaddedKey()
    ensures TrimSpace("    key   ") == "key"
  {
    PaddedWord("    key   ", "key");
  }

  lemma PaddedValue()
    ensures TrimSpace("    value   ") == "value"
  {
    PaddedWord("    value   ", "value");
  }

  /** A word with four spaces before it and three after trims to itself. */
  lemma PaddedWord(s: string, w: string)
    requires w != [] && !IsSpace(w[0]) && !IsSpace(w[|w| - 1])
    requires s == "    " + w + "   "
    ensures TrimSpace(s) == w
  {
    TrimSpacePadded("    ", w, "   ");
  }

  /** A header line followed by an option line, as in the package's tests
      (`-- name: q :one` then `-- -- key:value`): the text parses to that
      name, command and single option, with key and value trimmed. */
  lemma HeaderThenOption(x: string, c: string, key: string, value: string, style: CommentSyntax)
    requires style.dash && IsIdentifier(x) && c in Commands
    requires ':' !in key && '\n' !in key && '\n' !in value
    ensures ParseQueryNameAndType("-- name: " + x + " " + c + "\n" + "-- --" + key + ":" + value, style)
      == Success(QueryConfig(x, c, map[TrimSpace(key) := TrimSpace(value)]))
  {
    var l1 := "-- name: " + x + " " + c;
    var l2 := "-- --" + key + ":" + value;
    HeaderAccepted(x, c, style);
    OptionLineShape(key, value, style);
    NoNewlineInHeader(x, c);
    NoNewlineInOption(key, value);
    TwoLines(l1, l2, Header(x, c), OptionPair(TrimSpace(key), TrimSpace(value)), style);
    LinesJoined(l1, key, value);
  }

  /** A trimmed key and value make an option line that yields them as they are. */
  lemma OptionAccepted(key: string, value: string, style: CommentSyntax)
    requires style.dash && ':' !in key
    requires key != [] && !IsSpace(key[0]) && !IsSpace(key[|key| - 1])
    requires value != [] && !IsSpace(value[0]) && !IsSpace(value[|value| - 1])
    ensures ClassifyLine("-- --" + key + ":" + value, style) == Success(OptionPair(key, value))
  {
    OptionLineShape(key, value, style);
    TrimSpaceOfTrimmed(key);
    TrimSpaceOfTrimmed(value);
  }

  lemma NoNewlineInOption(key: string, value: string)
    requires '\n' !in key && '\n' !in value
    ensures '\n' !in "-- --" + key + ":" + value
  {
    assert '\n' !in "-- --" && '\n' !in ":";
  }

  /** A first line and an option line joined by a line break. */
  lemma LinesJoined(l1: string, key: string, value: string)
    ensures l1 + "\n" + "-- --" + key + ":" + value == l1 + ['\n'] + ("-- --" + key + ":" + value)
  {
  }

  lemma TwoLines(l1: string, l2: string, e1: LineEffect, e2: LineEffect, style: CommentSyntax)
    requires '\n' !in l1 && '\n' !in l2
    requires ClassifyLine(l1, style) == Success(e1) && ClassifyLine(l2, style) == Success(e2)
    ensures ParseQueryNameAndType(l1 + ['\n'] + l2, style) == Success(ApplyEffect(ApplyEffect(EmptyConfig, e1), e2))
  {
    TwoLinesSplit(l1, l2);
    ClassifyTwo(l1, l2, e1, e2, style);
    TwoSteps(e1, e2, EmptyConfig);
  }

  lemma TwoLinesSplit(l1: string, l2: string)
    requires '\n' !in l1 && '\n' !in l2
    ensures Split(l1 + ['\n'] + l2, '\n') == [l1, l2]
  {
    SplitCons(l1, '\n', l2);
    SplitNoSeparator(l2, '\n');
  }

  lemma ClassifyTwo(l1: string, l2: string, e1: LineEffect, e2: LineEffect, style: CommentSyntax)
    requires ClassifyLine(l1, style) == Success(e1) && ClassifyLine(l2, style) == Success(e2)
    ensures ClassifyLines([l1, l2], style) == [Success(e1), Success(e2)]
  {
    var lines := [l1, l2];
    var steps := ClassifyLines(lines, style);
    assert steps[0] == ClassifyLine(lines[0], style) && lines[0] == l1;
    assert steps[1] == ClassifyLine(lines[1], style) && lines[1] == l2;
    PairOf(steps, Success(e1), Success(e2));
  }

  lemma PairOf<T>(s: seq<T>, a: T, b: T)
    requires |s| == 2 && s[0] == a && s[1] == b
    ensures s == [a, b]
  {
  }

  lemma TwoSteps(e1: LineEffect, e2: LineEffect, cfg: QueryConfig)
    ensures ApplySteps([Success(e1), Success(e2)], cfg) == Success(ApplyEffect(ApplyEffect(cfg, e1), e2))
  {
    var one: seq<Step> := [Success(e2)];
    var c1 := ApplyEffect(cfg, e1);
    assert one[1..] == [];
    assert ApplySteps(one, c1) == Success(ApplyEffect(c1, e2));
    var steps: seq<Step> := [Success(e1)] + one;
    assert steps[0] == Success(e1) && steps[1..] == one;
  }

  lemma NoNewlineInHeader(x: string, c: string)
    requires IsIdentifier(x) && c in Commands
    ensures '\n' !in "-- name: " + x + " " + c
  {
    IdentifierWithoutBlanks(x);
    CommandWithoutBlanks(c);
    assert '\n' !in "-- name: " && '\n' !in " ";
  }


  // The text after the comment markers and white space: a leading "--",
  // then a leading block-comment opener, then "#", then a trailing
  // block-comment closer are removed in that order, then white space.
  function FlagLine(line: string): (r: string)
    ensures r == [] || (!IsSpace(r[0]) && !IsSpace(r[|r| - 1]))
    ensures (!HasPrefix(line, "--") && !HasPrefix(line, "/*") && !HasPrefix(line, "#") && !HasSuffix(line, "*/"))
              ==> r == TrimSpace(line)
  {
    var a := TrimPrefix(line, "--");
    var b := TrimPrefix(a, "/*");
    var c := TrimPrefix(b, "#");
    var d := TrimSuffix(c, "*/");
    TrimSpace(d)
  }

  /** The cleaned line is a piece of the line. */
  lemma FlagLineSlice(line: string)
    ensures exists i, j :: 0 <= i <= j <= |line| && FlagLine(line) == line[i..j]
  {
    TrimmedSlice(line, "--", "/*", "#", "*/");
  }

  /** Trimming three prefixes, a suffix and the surrounding space leaves a
      slice of the line. */
  lemma TrimmedSlice(line: string, p1: string, p2: string, p3: string, q: string)
    ensures var r := TrimSpace(TrimSuffix(TrimPrefix(TrimPrefix(TrimPrefix(line, p1), p2), p3), q));
      exists i, j :: 0 <= i <= j <= |line| && r == line[i..j]
  {
    var a := TrimPrefix(line, p1);
    var b := TrimPrefix(a, p2);
    var c := TrimPrefix(b, p3);
    var d := TrimSuffix(c, q);
    TrimPrefixTail(line, p1, a);
    TrimPrefixTail(a, p2, b);
    TrimPrefixTail(b, p3, c);
    TailOfTail(line, a, b);
    TailOfTail(line, b, c);
    TrimSuffixHead(c, q, d);
    SliceWithin(line, c, d, TrimSpace(d));
  }

  /** A slice of a head of a tail of the line is a slice of the line. */
  lemma SliceWithin(line: string, c: string, d: string, r: string)
    requires |c| <= |line| && c == line[|line| - |c|..]
    requires |d| <= |c| && d == c[..|d|]
    requires exists i, j :: 0 <= i <= j <= |d| && r == d[i..j]
    ensures exists i, j :: 0 <= i <= j <= |line| && r == line[i..j]
  {
    var o := |line| - |c|;
    assert d == line[o..][..|d|];
    assert d == line[o..o + |d|];
    var i, j :| 0 <= i <= j <= |d| && r == d[i..j];
    forall k | 0 <= k < j - i ensures r[k] == line[o + i + k] {
      assert r[k] == d[i + k] == c[i + k];
    }
    assert r == line[o + i..o + j];
  }

  /** TrimSuffix leaves a head of its input. */
  lemma TrimSuffixHead(s: string, q: string, r: string)
    requires r == TrimSuffix(s, q)
    ensures |r| <= |s| && r == s[..|r|]
  {
  }

  /** TrimPrefix leaves a tail of its input. */
  lemma TrimPrefixTail(s: string, p: string, r: string)
    requires r == TrimPrefix(s, p)
    ensures |r| <= |s| && r == s[|s| - |r|..]
  {
  }

  /** A tail of a tail is a tail. */
  lemma TailOfTail(s: string, t: string, u: string)
    requires |t| <= |s| && t == s[|s| - |t|..]
    requires |u| <= |t| && u == t[|t| - |u|..]
    ensures u == s[|s| - |u|..]
  {
  }

  /** `-- @word`, with a word free of spaces that does not end in the
      block-comment close, declares exactly that word as a flag. */
  lemma FlagOfDashLine(line: string, w: string)
    requires line == "-- " + w
    requires HasPrefix(w, "@") && ' ' !in w && !HasSuffix(w, "*/") && !IsSpace(w[|w| - 1])
    ensures FlagOf(line) == Some(w)
  {
    DashFlagLine(line, w);
    assert Before(w, ' ') == w;
  }

  /** `-- @word rest`: the flag is the first word alone, whatever follows
      the space. */
  lemma FlagOfDashLineWords(line: string, w: string, rest: string)
    requires line == "-- " + w + " " + rest
    requires HasPrefix(w, "@") && ' ' !in w
    requires rest != [] && !HasSuffix(rest, "*/") && !IsSpace(rest[|rest| - 1])
    ensures FlagOf(line) == Some(w)
  {
    var text := w + " " + rest;
    assert line == "-- " + text;
    WordsTail(text, w, rest);
    DashFlagLine(line, text);
    FirstWord(text, w, rest);
  }

  /** `w rest` keeps the first and last characters of its parts. */
  lemma WordsTail(text: string, w: string, rest: string)
    requires text == w + " " + rest && HasPrefix(w, "@")
    requires rest != [] && !HasSuffix(rest, "*/")
    ensures text != [] && text[0] == '@' && text[|text| - 1] == rest[|rest| - 1]
    ensures !HasSuffix(text, "*/")
  {
    if |rest| >= 2 {
      assert text[|text| - 2..] == rest[|rest| - 2..];
    } else {
      assert text[|text| - 2] == ' ';
    }
  }

  /** The text before the first space of `w rest` is w. */
  lemma FirstWord(text: string, w: string, rest: string)
    requires text == w + " " + rest && ' ' !in w
    ensures Before(text, ' ') == w
  {
    var b := Before(text, ' ');
    assert text[|w|] == ' ' && text[..|w|] == w;
  }

  /** The cleaned text of `-- w` is w. */
  lemma DashFlagLine(line: string, w: string)
    requires line == "-- " + w
    requires w != [] && !IsSpace(w[0]) && !HasSuffix(w, "*/") && !IsSpace(w[|w| - 1])
    ensures FlagLine(line) == w
  {
    var a := " " + w;
    assert line == "--" + a;
    assert TrimPrefix(line, "--") == a;
    NoCommentMarks(a, w);
    TrimSpacePadded(" ", w, "");
    assert " " + w + "" == a;
  }

  /** A text starting with a space and not ending in the block-comment
      close is left alone by the comment-marker trims. */
  lemma NoCommentMarks(a: string, w: string)
    requires a == " " + w && w != [] && !HasSuffix(w, "*/")
    ensures TrimPrefix(a, "/*") == a && TrimPrefix(a, "#") == a && TrimSuffix(a, "*/") == a
  {
    assert a[0] == ' ';
    assert !HasSuffix(a, "*/") by {
      if |w| >= 2 {
        assert a[|a| - 2..] == w[|w| - 2..];
      } else {
        assert a[|a| - 2] == ' ';
      }
    }
  }

  /** The flag a comment line declares: its first word, when it starts with `@`. */
  function FlagOf(line: string): (r: Option<string>)
    ensures r.Some? ==> HasPrefix(r.value, "@") && ' ' !in r.value
    ensures r.Some? <==> HasPrefix(FlagLine(line), "@")
    ensures r.Some? ==>
      && r.value <= FlagLine(line)
      && (|r.value| == |FlagLine(line)| || FlagLine(line)[|r.value|] == ' ')
  {
    var clean := FlagLine(line);
    if HasPrefix(clean, "@") then
      var tok := Before(clean, ' ');
      assert clean[0] == '@';
      assert |tok| > 0;
      Some(tok)
    else None
  }

  /** Folds the per-line flags into a map, line by line. */
  function CollectFlags(toks: seq<Option<string>>): (flags: map<string, bool>)
    ensures forall k :: k in flags <==> exists i :: 0 <= i < |toks| && toks[i] == Some(k)
    ensures forall k :: k in flags ==> flags[k]
    decreases |toks|
  {
    if |toks| == 0 then map[]
    else
      var init := toks[..|toks| - 1];
      var prev := CollectFlags(init);
      assert forall i :: 0 <= i < |init| ==> init[i] == toks[i];
      match toks[|toks| - 1]
      case None => prev
      case Some(tok) => prev[tok := true]
  }

  /** ParseQueryFlags: the flags map holds `true` for exactly the flags that
      some comment line declares, each a word starting with `@`.  It has no
      failure case; the source's error result is always nil. */
  function ParseQueryFlags(comments: seq<string>): (flags: map<string, bool>)
    ensures forall k :: k in flags <==> exists i :: 0 <= i < |comments| && FlagOf(comments[i]) == Some(k)
    ensures forall k :: k in flags ==> flags[k] && HasPrefix(k, "@") && ' ' !in k
  {
    var toks := seq(|comments|, i requires 0 <= i < |comments| => FlagOf(comments[i]));
    var flags := CollectFlags(toks);
    assert forall k :: k in flags ==> HasPrefix(k, "@") && ' ' !in k && exists i :: 0 <= i < |comments| && FlagOf(comments[i]) == Some(k) by {
      forall k | k in flags ensures HasPrefix(k, "@") && ' ' !in k && exists i :: 0 <= i < |comments| && FlagOf(comments[i]) == Some(k) {
        var i :| 0 <= i < |toks| && toks[i] == Some(k);
        assert FlagOf(comments[i]) == Some(k);
      }
    }
    assert forall k :: (exists i :: 0 <= i < |comments| && FlagOf(comments[i]) == Some(k)) ==> k in flags by {
      forall k | exists i :: 0 <= i < |comments| && FlagOf(comments[i]) == Some(k) ensures k in flags {
        var i :| 0 <= i < |comments| && FlagOf(comments[i]) == Some(k);
        assert toks[i] == Some(k);
      }
    }
    flags
  }

  /** A `-- w` line whose word does not start with `@` declares no flag. */
  lemma DashNoFlag(line: string, w: string)
    requires line == "-- " + w
    requires w != [] && !IsSpace(w[0]) && w[0] != '@' && !HasSuffix(w, "*/") && !IsSpace(w[|w| - 1])
    ensures FlagOf(line) == None
  {
    DashFlagLine(line, w);
  }

  /** Two comments of which only the second declares a flag give a map
      holding just that flag. */
  lemma SecondLineFlag(comments: seq<string>, w: string)
    requires |comments| == 2 && FlagOf(comments[0]) == None && FlagOf(comments[1]) == Some(w)
    ensures ParseQueryFlags(comments) == map[w := true]
  {
    FlagsOfTwoLines(comments);
    SingleFlagMap(ParseQueryFlags(comments), FlagOf(comments[0]), FlagOf(comments[1]), w);
  }

  /** The flags of two comments are the flags of the first and the second. */
  lemma FlagsOfTwoLines(comments: seq<string>)
    requires |comments| == 2
    ensures forall k :: k in ParseQueryFlags(comments) <==>
              (FlagOf(comments[0]) == Some(k) || FlagOf(comments[1]) == Some(k))
  {
    var flags := ParseQueryFlags(comments);
    forall k ensures k in flags <==> (FlagOf(comments[0]) == Some(k) || FlagOf(comments[1]) == Some(k)) {
      if k in flags {
        var i :| 0 <= i < |comments| && FlagOf(comments[i]) == Some(k);
        assert i == 0 || i == 1;
      }
    }
  }

  /** A flags map whose keys come from no flag and one flag w is `{w: true}`. */
  lemma SingleFlagMap(flags: map<string, bool>, o0: Option<string>, o1: Option<string>, w: string)
    requires o0 == None && o1 == Some(w)
    requires forall k :: k in flags <==> (o0 == Some(k) || o1 == Some(k))
    requires forall k :: k in flags ==> flags[k]
    ensures flags == map[w := true]
  {
    assert flags.Keys == {w};
  }

  /** A header line and a flag line: the flags map holds just that flag. */
  lemma ExampleQueryFlags(l1: string, l2: string)
    requires l1 == "-- name: CreateFoo :one" && l2 == "-- @flag-foo"
    ensures ParseQueryFlags([l1, l2]) == map["@flag-foo" := true]
  {
    var w1, w2 := "name: CreateFoo :one", "@flag-foo";
    assert l1 == "-- " + w1 && l2 == "-- " + w2;
    assert w1 != [] && !IsSpace(w1[0]) && w1[0] != '@';
    assert !IsSpace(w1[|w1| - 1]);
    assert !HasSuffix(w1, "*/");
    assert HasPrefix(w2, "@");
    assert ' ' !in w2;
    assert !HasSuffix(w2, "*/");
    assert !IsSpace(w2[|w2| - 1]);
    DashNoFlag(l1, w1);
    FlagOfDashLine(l2, w2);
    SecondLineFlag([l1, l2], w2);
  }
}

=== FILE: strings.dfy ===
/** The parts of Go's `strings` package (and `%d` formatting) that the
    modelled code relies on, over `string == seq<char>`.  A Go string is a
    byte sequence; here a character is one Unicode scalar value.  The two
    agree on ASCII text.  They part where the code cuts a string by a byte
    count: the block-comment body of meta.go drops its last byte, and the
    model drops its last character instead. */
module Strings {
  import opened Wrappers

  /** strings.HasPrefix */
  predicate HasPrefix(s: string, p: string) {
    p <= s
  }

  /** strings.HasSuffix */
  predicate HasSuffix(s: string, p: string) {
    |p| <= |s| && s[|s| - |p|..] == p
  }

  /** strings.TrimPrefix */
  function TrimPrefix(s: string, p: string): (r: string)
    ensures HasPrefix(s, p) ==> p + r == s
    ensures !HasPrefix(s, p) ==> r == s
  {
    if HasPrefix(s, p) then s[|p|..] else s
  }

  /** strings.TrimSuffix */
  function TrimSuffix(s: string, p: string): (r: string)
    ensures HasSuffix(s, p) ==> r + p == s
    ensures !HasSuffix(s, p) ==> r == s
  {
    if HasSuffix(s, p) then s[..|s| - |p|] else s
  }

  /** unicode.IsSpace: the Latin-1 white space characters and the
      Unicode White_Space property outside Latin-1. */
  predicate IsSpace(c: char) {
    c == ' ' || c == '\t' || c == '\n' || c == '\r' || c == '\U{000B}' || c == '\U{000C}'
    || c == '\U{0085}' || c == '\U{00A0}' || c == '\U{1680}'
    || ('\U{2000}' <= c <= '\U{200A}')
    || c == '\U{2028}' || c == '\U{2029}' || c == '\U{202F}' || c == '\U{205F}' || c == '\U{3000}'
  }

  /** The length of the longest prefix of `s` whose characters all satisfy `drop`. */
  function LeadingRun(s: string, drop: char -> bool): (i: nat)
    ensures i <= |s|
    ensures forall k :: 0 <= k < i ==> drop(s[k])
    ensures i == |s| || !drop(s[i])
    decreases |s|
  {
    if |s| > 0 && drop(s[0]) then 1 + LeadingRun(s[1..], drop) else 0
  }

  /** The smallest `j >= lo` such that every character of `s[j..]` satisfies `drop`. */
  function TrailingCut(s: string, drop: char -> bool, lo: nat): (j: nat)
    requires lo <= |s|
    ensures lo <= j <= |s|
    ensures forall k :: j <= k < |s| ==> drop(s[k])
    ensures j == lo || !drop(s[j - 1])
    decreases |s|
  {
    if |s| > lo && drop(s[|s| - 1]) then TrailingCut(s[..|s| - 1], drop, lo) else |s|
  }

  /** Removes the leading and trailing characters that satisfy `drop`. */
  function TrimBy(s: string, drop: char -> bool): (r: string)
    ensures exists i, j ::
              && 0 <= i <= j <= |s| && r == s[i..j]
              && (forall k :: 0 <= k < i ==> drop(s[k]))
              && (forall k :: j <= k < |s| ==> drop(s[k]))
    ensures r == [] || (!drop(r[0]) && !drop(r[|r| - 1]))
  {
    var i := LeadingRun(s, drop);
    var j := TrailingCut(s, drop, i);
    s[i..j]
  }

  /** strings.TrimSpace */
  function TrimSpace(s: string): (r: string)
    ensures exists i, j :: 0 <= i <= j <= |s| && r == s[i..j]
    ensures r == [] || (!IsSpace(r[0]) && !IsSpace(r[|r| - 1]))
  {
    TrimBy(s, IsSpace)
  }

  /** strings.Trim(s, cutset) */
  function Trim(s: string, cutset: set<char>): (r: string)
    ensures exists i, j ::
              && 0 <= i <= j <= |s| && r == s[i..j]
              && (forall k :: 0 <= k < i ==> s[k] in cutset)
              && (forall k :: j <= k < |s| ==> s[k] in cutset)
    ensures r == [] || (r[0] !in cutset && r[|r| - 1] !in cutset)
  {
    TrimBy(s, c => c in cutset)
  }

  /** strings.TrimRight(s, cutset) */
  function TrimRight(s: string, cutset: set<char>): (r: string)
    ensures r <= s
    ensures forall k :: |r| <= k < |s| ==> s[k] in cutset
    ensures r == [] || r[|r| - 1] !in cutset
  {
    s[..TrailingCut(s, c => c in cutset, 0)]
  }

  lemma {:induction false} LeadingRunAfterDropped(a: string, s: string, drop: char -> bool)
    requires forall k :: 0 <= k < |a| ==> drop(a[k])
    requires s != [] && !drop(s[0])
    ensures LeadingRun(a + s, drop) == |a|
    decreases |a|
  {
    if |a| > 0 {
      assert (a + s)[1..] == a[1..] + s;
      LeadingRunAfterDropped(a[1..], s, drop);
    }
  }

  /** Leading white space before a string that starts and ends with a
      non-space character is all that TrimSpace removes. */
  lemma TrimSpaceAfterSpaces(a: string, s: string)
    requires forall k :: 0 <= k < |a| ==> IsSpace(a[k])
    requires s != [] && !IsSpace(s[0]) && !IsSpace(s[|s| - 1])
    ensures TrimSpace(a + s) == s
  {
    var t := a + s;
    LeadingRunAfterDropped(a, s, IsSpace);
    assert t[|t| - 1] == s[|s| - 1];
    assert TrailingCut(t, IsSpace, |a|) == |t|;
    assert t[|a|..|t|] == s;
  }

  /** TrimBy keeps exactly the stretch from the first to the last kept
      character: any cut `s[i..j]` with only dropped characters outside it
      and none at its ends is the trimmed string. */
  lemma TrimByUnique(s: string, drop: char -> bool, i: nat, j: nat)
    requires i <= j <= |s|
    requires forall k :: 0 <= k < i ==> drop(s[k])
    requires forall k :: j <= k < |s| ==> drop(s[k])
    requires i == j || (!drop(s[i]) && !drop(s[j - 1]))
    ensures TrimBy(s, drop) == s[i..j]
  {
    var a := LeadingRun(s, drop);
    var b := TrailingCut(s, drop, a);
  }

  /** Dropped characters at the end do not change what TrimBy keeps. */
  lemma TrimByDropTrailing(s: string, drop: char -> bool, j: nat)
    requires j <= |s|
    requires forall k :: j <= k < |s| ==> drop(s[k])
    ensures TrimBy(s[..j], drop) == TrimBy(s, drop)
  {
    var t := s[..j];
    var a := LeadingRun(t, drop);
    var b := TrailingCut(t, drop, a);
    assert t[a..b] == s[a..b];
    forall k | 0 <= k < a ensures drop(s[k]) {
      assert t[k] == s[k];
    }
    forall k | b <= k < |s| ensures drop(s[k]) {
      if k < j { assert t[k] == s[k]; }
    }
    if a < b {
      assert s[a] == t[a] && s[b - 1] == t[b - 1];
    }
    TrimByUnique(s, drop, a, b);
  }

  /** TrimSpace keeps exactly the stretch from the first to the last
      non-space character. */
  lemma TrimSpaceUnique(s: string, i: nat, j: nat)
    requires i <= j <= |s|
    requires forall k :: 0 <= k < i ==> IsSpace(s[k])
    requires forall k :: j <= k < |s| ==> IsSpace(s[k])
    requires i == j || (!IsSpace(s[i]) && !IsSpace(s[j - 1]))
    ensures TrimSpace(s) == s[i..j]
  {
    TrimByUnique(s, IsSpace, i, j);
  }

  /** Trailing white space does not change the trimmed string. */
  lemma TrimSpaceDropTrailing(s: string, j: nat)
    requires j <= |s|
    requires forall k :: j <= k < |s| ==> IsSpace(s[k])
    ensures TrimSpace(s[..j]) == TrimSpace(s)
  {
    TrimByDropTrailing(s, IsSpace, j);
  }

  /** White space on both sides of a trimmed word is all TrimSpace removes. */
  lemma TrimSpacePadded(a: string, w: string, b: string)
    requires forall k :: 0 <= k < |a| ==> IsSpace(a[k])
    requires forall k :: 0 <= k < |b| ==> IsSpace(b[k])
    requires w != [] && !IsSpace(w[0]) && !IsSpace(w[|w| - 1])
    ensures TrimSpace(a + w + b) == w
  {
    var s := a + w + b;
    assert s[|a|..|a| + |w|] == w;
    forall k | |a| + |w| <= k < |s| ensures IsSpace(s[k]) {
      assert s[k] == b[k - |a| - |w|];
    }
    TrimSpaceUnique(s, |a|, |a| + |w|);
  }

  /** TrimSpace only removes characters. */
  lemma TrimSpaceAbsent(s: string, c: char)
    requires c !in s
    ensures c !in TrimSpace(s)
  {
    var i, j :| 0 <= i <= j <= |s| && TrimSpace(s) == s[i..j];
    assert forall k :: 0 <= k < j - i ==> s[i..j][k] == s[i + k];
  }

  /** A string that starts and ends with a non-space character is left alone. */
  lemma TrimSpaceOfTrimmed(s: string)
    requires s == [] || (!IsSpace(s[0]) && !IsSpace(s[|s| - 1]))
    ensures TrimSpace(s) == s
  {
    if s != [] {
      TrimSpaceAfterSpaces([], s);
      assert [] + s == s;
    }
  }

  /** strings.Index with a one-character separator. */
  function IndexOf(s: string, c: char): (r: Option<nat>)
    ensures r.None? <==> c !in s
    ensures r.Some? ==> r.value < |s| && s[r.value] == c && c !in s[..r.value]
  {
    if |s| == 0 then None
    else if s[0] == c then Some(0)
    else
      match IndexOf(s[1..], c)
      case None => None
      case Some(i) => assert s[..i + 1] == [s[0]] + s[1..][..i]; Some(i + 1)
  }

  /** strings.Contains with a one-character needle. */
  predicate Contains(s: string, c: char) {
    c in s
  }

  /** strings.Join */
  function Join(parts: seq<string>, sep: string): string {
    if |parts| == 0 then ""
    else if |parts| == 1 then parts[0]
    else parts[0] + sep + Join(parts[1..], sep)
  }

  /** strings.Split with a one-character separator: Join undoes it, and no
      piece contains the separator. */
  function Split(s: string, c: char): (parts: seq<string>)
    ensures |parts| >= 1
    ensures forall i :: 0 <= i < |parts| ==> c !in parts[i]
    ensures Join(parts, [c]) == s
    decreases |s|
  {
    match IndexOf(s, c)
    case None => [s]
    case Some(i) =>
      var rest := Split(s[i + 1..], c);
      assert s == s[..i] + [c] + s[i + 1..];
      [s[..i]] + rest
  }

  /** The text before the first `c` (all of `s` when there is none):
      `strings.SplitN(s, string(c), 2)[0]`. */
  function Before(s: string, c: char): (r: string)
    ensures r <= s && c !in r
    ensures |r| < |s| ==> s[|r|] == c
  {
    match IndexOf(s, c)
    case None => s
    case Some(i) => s[..i]
  }

  /** A string with no separator splits into itself. */
  lemma SplitNoSeparator(s: string, c: char)
    requires c !in s
    ensures Split(s, c) == [s]
  {
  }

  /** Joining one more, empty, piece adds just the separator. */
  lemma {:induction false} JoinAppendEmpty(parts: seq<string>, sep: string)
    requires |parts| >= 1
    ensures Join(parts + [""], sep) == Join(parts, sep) + sep
    decreases |parts|
  {
    if |parts| > 1 {
      JoinAppendEmpty(parts[1..], sep);
      assert (parts + [""])[1..] == parts[1..] + [""];
    }
  }

  /** TrimRight removes a tail made of cutset characters and stops at the
      first character before it that is not in the cutset. */
  lemma TrimRightAfter(s: string, t: string, cutset: set<char>)
    requires s != [] && s[|s| - 1] !in cutset
    requires forall k :: 0 <= k < |t| ==> t[k] in cutset
    ensures TrimRight(s + t, cutset) == s
  {
    var st := s + t;
    assert s == st[..|s|];
  }

  /** Splitting after a separator-free head. */
  lemma SplitCons(a: string, c: char, rest: string)
    requires c !in a
    ensures Split(a + [c] + rest, c) == [a] + Split(rest, c)
  {
    var s := a + [c] + rest;
    var i := IndexOf(s, c);
    assert s[|a|] == c;
    assert s[..|a|] == a;
    assert c in s;
    assert i.value <= |a| by { assert s[..i.value + 1][|a|..|a| + 1] == [c]; }
    assert i.value >= |a| by { assert s[..|a|] == a; }
    assert s[|a| + 1..] == rest;
  }

  /** Split inverts Join when no piece holds the separator. */
  lemma {:induction false} SplitJoin(parts: seq<string>, c: char)
    requires |parts| >= 1
    requires forall i :: 0 <= i < |parts| ==> c !in parts[i]
    ensures Split(Join(parts, [c]), c) == parts
    decreases |parts|
  {
    if |parts| == 1 {
      SplitNoSeparator(parts[0], c);
    } else {
      SplitJoin(parts[1..], c);
      SplitCons(parts[0], c, Join(parts[1..], [c]));
      assert [parts[0]] + parts[1..] == parts;
    }
  }

  /** Join read back through Split: no pieces give "", and pieces without
      the separator come back as they were. */
  lemma JoinReadBack(parts: seq<string>, c: char)
    ensures parts == [] ==> Join(parts, [c]) == ""
    ensures parts != [] && (forall i :: 0 <= i < |parts| ==> c !in parts[i]) ==> Split(Join(parts, [c]), c) == parts
  {
    if parts != [] && forall i :: 0 <= i < |parts| ==> c !in parts[i] {
      SplitJoin(parts, c);
    }
  }

  /** The decimal digit for 0..9. */
  function Digit(d: nat): (c: char)
    requires d < 10
    ensures '0' <= c <= '9' && c as int - '0' as int == d
  {
    ['0', '1', '2', '3', '4', '5', '6', '7', '8', '9'][d]
  }

  predicate IsDigit(c: char) {
    '0' <= c <= '9'
  }

  function DigitValue(c: char): (d: nat)
    requires IsDigit(c)
    ensures d < 10
  {
    c as int - '0' as int
  }

  /** The value of a string of decimal digits. */
  function DecimalValue(s: string): nat
    requires forall i :: 0 <= i < |s| ==> IsDigit(s[i])
  {
    if |s| == 0 then 0
    else 10 * DecimalValue(s[..|s| - 1]) + DigitValue(s[|s| - 1])
  }

  /** `fmt.Sprintf("%d", n)` for a non-negative n. */
  function Decimal(n: nat): (r: string)
    ensures |r| >= 1
    ensures forall i :: 0 <= i < |r| ==> IsDigit(r[i])
    ensures DecimalValue(r) == n
    ensures r[0] == '0' ==> n == 0
  {
    if n < 10 then [Digit(n)]
    else
      var r := Decimal(n / 10) + [Digit(n % 10)];
      assert r[..|r| - 1] == Decimal(n / 10);
      r
  }

  /** Distinct numbers print differently. */
  lemma DecimalInjective(m: nat, n: nat)
    requires Decimal(m) == Decimal(n)
    ensures m == n
  {
  }
}

=== FILE: wrappers.dfy ===
/** Failure-compatible result types shared by every module of the model.
    Go's `(value, error)` pairs become `Result`, a bare `error` becomes `Outcome`,
    and a nil-able pointer becomes `Option`. */
module Wrappers {

  datatype Option<+T> = None | Some(value: T) {
    predicate IsFailure() {
      None?
    }

    function PropagateFailure<U>(): Option<U>
      requires None?
    {
      None
    }

    function Extract(): T
      requires Some?
    {
      value
    }
  }

  datatype Result<+R, +E> = Success(value: R) | Failure(error: E) {
    predicate IsFailure() {
      Failure?
    }

    function PropagateFailure<U>(): Result<U, E>
      requires Failure?
    {
      Failure(error)
    }

    function Extract(): R
      requires Success?
    {
      value
    }
  }

  /** A Go function that returns only an `error`: nil is `Pass`. */
  datatype Outcome<+E> = Pass | Fail(error: E) {
    predicate IsFailure() {
      Fail?
    }

    function PropagateFailure<U>(): Result<U, E>
      requires Fail?
    {
      Failure(error)
    }
  }
}
